=== FILE: README.md ===
# TestManager: decoders, discovery parsers and helpers, in Dafny

This project models the core of a test explorer plug-in for Sublime Text.
The plug-in discovers the tests of several frameworks (GoogleTest, Catch2,
doctest, pytest, PHPUnit, cargo test) and runs them as subprocesses. It
turns their output into `Started`, `Output` and `Finished` events for a test
tree, and shows the tree as a filterable list.

The model covers these parts:

- **Result-stream decoders.**
  - The TeamCity line parser, and PHPUnit's extension of it with a current suite.
  - The cargo JSON-lines parser.
  - The doctest XML parser.
  - Each is a class whose fields are the parser's state. It holds an event log that grows by `Started`, `Output` and `Finished` records.
  - Every method is tied to a step function. Lemmas state what each kind of input line or element does and prove that the test lifecycle is kept.
- **Discovery parsers.** Each builds a test's path and its run and report ids from a framework's listing: PHPUnit, cargo, doctest (with its test filter escaping), pytest, GoogleTest (type and value parameters) and Catch2. Errors are aggregated over executables.
- **Test data helpers.** Leaf statistics, date conversion, path lookup through child lists, and the cached test list and global statistics.
- **List view logic.**
  - Visibility under the status filter, and folding of single-child nodes.
  - Line text and padding, status and filter summaries.
  - `goto` arguments, wrap-around navigation, and the filter toggles.
- **Small utilities.**
  - The progress spinner, home directory abbreviation, fuzzy date deltas and deep dictionary merge.
  - The smallest free default suite id, and adding a suite to project data.
  - Suite validation, and the framework registry.
- **The command runner** shared by `texpl/process.py` and `texpl/cmd.py`.
  - The task id counter and the per-task output slots.
  - What the worker leaves in a slot, and inline execution on the worker thread.
  - Decoding with fallback encodings.
  - The exit-code checks of the callers, and the decoding error message.

Modules follow the source files: `Teamcity`, `PhpUnit`, `Cargo`, `DoctestCpp`,
`Pytest`, `GTest`, `Catch2`, `Common`, `TestData`, `ExplorerList`, `Util`,
`Suites`, `TestSuite`, `TestFramework`, `Jobs` (for `process.py`, whose
`WorkQueue`, `decode` and worker code `cmd.py` repeats line for line) and
`Cmd`. There are also shared modules:

- `Events`: the event log, the report-id index, and error aggregation.
- `Json` and `Xml`: parsed values and elements.
- `Strings`: split, join, strip, and integer text.
- `Wrappers`: `Option` and `Result`.

The test list's `find_test_by_report_id` and the `notify_*` callbacks are not
defined in `texpl/test_data.py`. The model takes them as a map from (suite or
framework id, executable, report id) to a path, and as the appended event
log. `TEST_SEPARATOR` is taken to be `/`.

## Model

| member | source | states |
|---|---|---|
| Events.FindTestByReportId | texpl/test_frameworks/teamcity.py:41-42 | a report id resolves exactly when the index holds it, and then to the indexed path |
| Events.ErrorEntry | texpl/test_frameworks/gtest.py:63-65 | a failing executable contributes its DiscoveryError details when they are truthy, its message otherwise |
| Events.PrefixSegments | texpl/test_frameworks/gtest.py:85-86 | the custom prefix is split into path segments placed in front of every discovered path |
| Events.CollectShape | texpl/test_frameworks/gtest.py:53-74 | collecting succeeds exactly when no executable raised an exception other than DiscoveryError, and then holds one error entry per failed executable |
| Events.CollectSingle | texpl/test_frameworks/gtest.py:57-65 | one executable contributes its tests and no entry, or its error entry and no test, or ends the collection when it raised another exception |
| Events.CollectAppend | texpl/test_frameworks/gtest.py:53-71 | over two runs of executables, collecting succeeds exactly when both do, and gives the tests of the first run followed by those of the second, and the error entries likewise, in order |
| Events.AggregatedError | texpl/test_frameworks/gtest.py:73-76 | errors from several executables are raised once, as a single DiscoveryError listing each of them |
| Events.DiscoverAll | texpl/test_frameworks/gtest.py:53-76 | the discovery loop processes every executable before raising, and its result is the aggregate the loop specification defines |
| Events.Executables | texpl/test_frameworks/gtest.py:67-71 | a pattern with `*` is expanded by the glob; any other pattern is the single executable |
| Events.StartedIsFinishedOnce | texpl/test_frameworks/teamcity.py:22-60 | in a balanced log every `Started(p)` is followed by exactly one `Finished(p, _)`, with only output to `p` in between |
| Events.FlattenMembers | texpl/test_frameworks/cargo.py:193 | an id is in the flattened list exactly when it is in one of the groups |
| Common.GetWorkingDirectory | texpl/test_frameworks/common.py:4-12 | the project root when no cwd is set; an absolute cwd unchanged; a relative cwd joined under the root |
| Common.WorkingDirectoryUnderRoot | texpl/test_frameworks/common.py:4-12 | with an absolute root the working directory is absolute, and a relative cwd lies under the root |
| Common.MakeExecutablePathResolves | texpl/test_frameworks/common.py:15-16 | a relative executable is joined under the project root and an absolute one kept; with an absolute root the result is absolute, ends with the given path, and resolving it again changes nothing |
| Teamcity.ParseTestIdFirstToLast | texpl/test_frameworks/teamcity.py:19-20 | the test id is the text between the first `name='` and the last quote of the first physical line, whatever follows its newline |
| Teamcity.ParseTestIdDeliveredLine | texpl/test_frameworks/teamcity.py:19-20 | on a line as the reader delivers it, with its trailing newline, the id is the text between the first `name='` and the last quote before the newline |
| Teamcity.ParseTestIdNeedsName | texpl/test_frameworks/teamcity.py:19-20 | a line without `name='` gives no id (the regular expression does not match) |
| Teamcity.ParseTestIdNoneDelivered | texpl/test_frameworks/teamcity.py:19-20 | a delivered line gives no id exactly when it holds no `name='`, or when no quote follows the first `name='` at least one character later before the newline |
| Teamcity.FinishCurrent | texpl/test_frameworks/teamcity.py:22-25 | an open test is finished once with the given status and closed; with no open test nothing happens, so closing twice reports once |
| Teamcity.PrefixesExclusive | texpl/test_frameworks/teamcity.py:36-60 | the control-line prefixes are mutually exclusive, so each line takes at most one branch |
| Teamcity.ForwardedFirst | texpl/test_frameworks/teamcity.py:33-34 | while a test is open, every fed line, control lines included, is first logged verbatim as its output |
| Teamcity.PlainLineKeepsState | texpl/test_frameworks/teamcity.py:36-37 | a line that is not a TeamCity message changes no parser state |
| Teamcity.StartedLine | texpl/test_frameworks/teamcity.py:39-47 | `testStarted` first crashes any open test, resets the status to passed, and starts the test only when its report id resolves |
| Teamcity.FinishedLine | texpl/test_frameworks/teamcity.py:49-54 | `testFinished` reports the accumulated status and closes the test; with no open test it does nothing |
| Teamcity.LastVerdictNone | texpl/test_frameworks/teamcity.py:56-60 | without `testIgnored` or `testFailed` lines the status stays as it was |
| Teamcity.LastVerdictIs | texpl/test_frameworks/teamcity.py:56-60 | the status after a block of lines is set by the last `testIgnored` or `testFailed` line among them |
| Teamcity.OtherLineStep | texpl/test_frameworks/teamcity.py:56-60 | a line that neither starts nor finishes a test only forwards output and may set the status |
| Teamcity.StatusIsLastVerdict | texpl/test_frameworks/teamcity.py:56-60 | after lines that neither start nor finish a test, the status is the last verdict among them (last writer wins, not a maximum) |
| Teamcity.FeedAllAppend | texpl/test_frameworks/teamcity.py:30-60 | feeding two blocks of lines is feeding their concatenation |
| Teamcity.TestBlockReportsLastVerdict | texpl/test_frameworks/teamcity.py:39-60 | a started, resolved test finished after other lines is reported with the last verdict among them, or passed when there is none |
| Teamcity.FeedStepKeepsLifecycle | texpl/test_frameworks/teamcity.py:30-60 | each fed line keeps the log a valid lifecycle whose open test is the parser's current test |
| Teamcity.FeedAllKeepsLifecycle | texpl/test_frameworks/teamcity.py:30-60 | any sequence of lines keeps that invariant |
| Teamcity.FeedThenCloseBalanced | texpl/test_frameworks/teamcity.py:22-60 | feeding lines and then closing gives every started test exactly one finish |
| Teamcity.OutputParser.constructor | texpl/test_frameworks/teamcity.py:11-17 | a new parser has no open test, status passed, and an empty log |
| Teamcity.OutputParser.FinishCurrentTest | texpl/test_frameworks/teamcity.py:22-25 | the state and log become those the finishing step defines |
| Teamcity.OutputParser.Close | texpl/test_frameworks/teamcity.py:27-28 | an open test is reported crashed and closed |
| Teamcity.OutputParser.FeedWith | texpl/test_frameworks/teamcity.py:30-60 | one line moves the state and log as the step function says, and a line that cannot be parsed is flagged as raised |
| Teamcity.OutputParser.Feed | texpl/test_frameworks/teamcity.py:30-60 | the TeamCity `feed` is the step with no suite handling |
| PhpUnit.ParseNameShape | texpl/test_frameworks/phpunit.py:22-23 | `parse_name` fails exactly when `name='([^']+)'` matches nowhere; otherwise the name is the group of the leftmost match: not empty, free of quotes, and no match starts earlier |
| PhpUnit.NameAtMatches | texpl/test_frameworks/phpunit.py:23 | the match anchored at an index succeeds exactly where the regular expression matches there |
| PhpUnit.TestId | texpl/test_frameworks/phpunit.py:25-29 | the bare name without a current suite, else the suite, `::` and the name |
| PhpUnit.FeedStep | texpl/test_frameworks/phpunit.py:31-35 | the TeamCity step runs first; only then does a `testSuiteStarted` line set the suite |
| PhpUnit.SuiteLineStep | texpl/test_frameworks/phpunit.py:31-35 | the suite changes only on `testSuiteStarted` lines, and to the name they carry |
| PhpUnit.FeedStepKeepsLifecycle | texpl/test_frameworks/phpunit.py:31-35 | each PHPUnit line keeps the lifecycle invariant |
| PhpUnit.FeedAllKeepsLifecycle | texpl/test_frameworks/phpunit.py:31-35 | so does any sequence of lines |
| PhpUnit.RunOneCloses | texpl/test_frameworks/phpunit.py:148-154 | one test's output followed by `close` leaves no test open |
| PhpUnit.RunAllBalanced | texpl/test_frameworks/phpunit.py:148-154 | running the tests one by one, each followed by `close`, gives a balanced log |
| PhpUnit.OutputParser.constructor | texpl/test_frameworks/phpunit.py:18-20 | a new parser has no suite, no open test and an empty log |
| PhpUnit.OutputParser.Feed | texpl/test_frameworks/phpunit.py:31-35 | one line moves the state and log as the PHPUnit step says |
| PhpUnit.OutputParser.Close | texpl/test_frameworks/phpunit.py:154 | an open test is reported crashed and closed |
| PhpUnit.OutputParser.FeedLines | texpl/test_frameworks/phpunit.py:150-152 | the state and log after all lines are those of feeding them in order |
| PhpUnit.OutputParser.RunTest | texpl/test_frameworks/phpunit.py:149-154 | one per-test invocation ends with no open test |
| PhpUnit.OutputParser.Run | texpl/test_frameworks/phpunit.py:148-154 | a whole run keeps the log balanced |
| PhpUnit.ParseDiscoveredTest | texpl/test_frameworks/phpunit.py:100-118 | the path is the custom prefix, then the class, then the method; run id and report id are both `class::method` |
| PhpUnit.DiscoveredTestMatchesRunId | texpl/test_frameworks/phpunit.py:100-118 | the report id a discovered test carries is the id the run-time parser computes for its class suite and method |
| PhpUnit.DiscoveryShape | texpl/test_frameworks/phpunit.py:120-130 | one test per `testCaseMethod` of each `testCaseClass`, in document order |
| PhpUnit.ParseClass | texpl/test_frameworks/phpunit.py:126-128 | the inner loop appends the tests of one class's methods in order |
| PhpUnit.ParseDiscovery | texpl/test_frameworks/phpunit.py:120-130 | the nested loops give the tests the discovery specification defines |
| Cargo.ParseTestId | texpl/test_frameworks/cargo.py:23-24 | the id is a prefix of the stripped text after the twelfth character, holds no space, and runs to the first space or the end of that text |
| Cargo.GetJson | texpl/test_frameworks/cargo.py:26-38 | no record for a line not starting with `{`, unparsable JSON, or a record lacking `type` or `event` |
| Cargo.PlainLineForwarded | texpl/test_frameworks/cargo.py:43-47 | a non-record line is output of the open test, and is dropped when none is open |
| Cargo.OtherRecordIgnored | texpl/test_frameworks/cargo.py:49-50 | a record whose type is not `test` changes nothing and logs nothing |
| Cargo.StartedOverwrites | texpl/test_frameworks/cargo.py:52-58 | `started` looks the name up under executable `cargo`, starts it only when found, and replaces the current test without finishing it |
| Cargo.FinishRecord | texpl/test_frameworks/cargo.py:60-77 | `ok`, `failed` and `ignored` finish the current test passed, failed or skipped and close it; with no open test they do nothing |
| Cargo.FeedStepKeepsLifecycle | texpl/test_frameworks/cargo.py:40-77 | records other than `started` keep the lifecycle invariant |
| Cargo.OutputParser.constructor | texpl/test_frameworks/cargo.py:17-21 | a new parser has no open test and an empty log |
| Cargo.OutputParser.Feed | texpl/test_frameworks/cargo.py:40-77 | one line moves the state and log as the cargo step says |
| Cargo.ParseDiscoveredTest | texpl/test_frameworks/cargo.py:141-165 | the path is the custom prefix, then the source file by style (the normalised path's segments under `full`, its basename under `basename`, nothing otherwise), then the name split on `::`; run id and report id are both the full name; located at `cargo`, the source path and the start line |
| Cargo.LineRecord | texpl/test_frameworks/cargo.py:170-182 | a line contributes a test exactly when it is a `test` record with event `discovered` |
| Cargo.ReadRecord | texpl/test_frameworks/cargo.py:170-182 | one line's step of the discovery loop |
| Cargo.DiscoveryRecordsAppend | texpl/test_frameworks/cargo.py:167-186 | discovery over two blocks of lines is the concatenation of their discoveries |
| Cargo.ParseDiscovery | texpl/test_frameworks/cargo.py:167-186 | exactly the discovered-test records, in order |
| Cargo.RunArgs | texpl/test_frameworks/cargo.py:191-205 | the command is cargo, then the fixed flags, the test ids, and last the framework's arguments followed by its run arguments |
| Cargo.RunArgsCarriesIds | texpl/test_frameworks/cargo.py:193-195 | the ids between the flags and the extra arguments are exactly those of the one group, in order |
| DoctestCpp.SubcaseLines | texpl/test_frameworks/doctest_cpp.py:91 | one `in subcase` line per open subcase, outermost first; none can be built when a subcase has no name |
| DoctestCpp.ExpressionReport | texpl/test_frameworks/doctest_cpp.py:78-101 | the whole report: a separator, the verdict, `at file:line`, one line per subcase and per info, a blank line, `Expected: type(original)`, `Actual: expanded`, and a separator; no report when an attribute it reads is missing |
| DoctestCpp.ExpressionVerdictDecides | texpl/test_frameworks/doctest_cpp.py:89 | the report says FAILED exactly when `success` is `false` |
| DoctestCpp.ExceptionReport | texpl/test_frameworks/doctest_cpp.py:107-119 | the whole report: a separator, CRASH or EXCEPTION by the `crash` attribute, one line per subcase and per info, the stripped message, and a separator |
| DoctestCpp.InfoLinesAppend | texpl/test_frameworks/doctest_cpp.py:92 | the info lines of two runs of infos are those of the first followed by those of the second |
| DoctestCpp.SubcaseLinesAppend | texpl/test_frameworks/doctest_cpp.py:91 | the subcase lines of nested sections are those of the outer sections followed by those of the inner ones |
| DoctestCpp.UnlistedTestCaseIgnored | texpl/test_frameworks/doctest_cpp.py:37-45 | a test case that is not among the requested ids changes nothing and logs nothing |
| DoctestCpp.ResolvedTestCase | texpl/test_frameworks/doctest_cpp.py:47-55 | a resolved test case is started; when skipped it is finished skipped at once and closed |
| DoctestCpp.OverallResultsFinish | texpl/test_frameworks/doctest_cpp.py:56-67 | the overall results finish the current test passed exactly when `test_case_success` is `true`, else failed, then close it |
| DoctestCpp.InfosAccumulateAndClear | texpl/test_frameworks/doctest_cpp.py:103-127 | info texts accumulate and are cleared by each reported expression or exception |
| DoctestCpp.ExpressionReported | texpl/test_frameworks/doctest_cpp.py:78-106 | an expression is reported only with both a current test and expression attributes |
| DoctestCpp.OutputForwardedWhileCurrent | texpl/test_frameworks/doctest_cpp.py:131-133 | text is logged as output only while a test is current |
| DoctestCpp.SectionsStep | texpl/test_frameworks/doctest_cpp.py:72-125 | a `SubCase` start pushes its attributes, its end pops, and no other element touches the stack |
| DoctestCpp.StartSections | texpl/test_frameworks/doctest_cpp.py:36-73 | among start elements, only `SubCase` pushes on the stack |
| DoctestCpp.EndSections | texpl/test_frameworks/doctest_cpp.py:75-129 | among end elements, only `SubCase` pops the stack |
| DoctestCpp.SectionsFollowNesting | texpl/test_frameworks/doctest_cpp.py:72-125 | the subcase stack follows the XML nesting of the events fed |
| DoctestCpp.SubCaseBlock | texpl/test_frameworks/doctest_cpp.py:72-125 | a well-nested `SubCase` block leaves the stack as it found it |
| DoctestCpp.ApplyKeepsLifecycle | texpl/test_frameworks/doctest_cpp.py:36-133 | every XML event keeps the lifecycle invariant |
| DoctestCpp.StartKeepsLifecycle | texpl/test_frameworks/doctest_cpp.py:36-73 | every start element keeps it |
| DoctestCpp.EndKeepsLifecycle | texpl/test_frameworks/doctest_cpp.py:75-129 | every end element keeps it |
| DoctestCpp.OutputParser.constructor | texpl/test_frameworks/doctest_cpp.py:21-34 | a new parser has no test, empty stacks and dictionaries, and an empty log |
| DoctestCpp.OutputParser.StartElement | texpl/test_frameworks/doctest_cpp.py:36-73 | a start element moves the state and log as the step function says |
| DoctestCpp.OutputParser.EndElement | texpl/test_frameworks/doctest_cpp.py:75-129 | an end element moves the state and log as the step function says |
| DoctestCpp.OutputParser.Output | texpl/test_frameworks/doctest_cpp.py:131-133 | text moves the state and log as the step function says |
| DoctestCpp.ParseDiscoveredTest | texpl/test_frameworks/doctest_cpp.py:210-238 | the path is the custom prefix, the file prefix, the test suite when it is set and not empty, then the test name; run and report id are the name; located at the executable, the listed file made relative, and the parsed line |
| DoctestCpp.ParseDiscovery | texpl/test_frameworks/doctest_cpp.py:240-246 | one test per listed `TestCase`, in order |
| DoctestCpp.FilterRoundTrip | texpl/test_frameworks/doctest_cpp.py:254 | the filter that escapes commas and joins the ids reads back as the ids, for a non-empty list of ids without backslashes |
| DoctestCpp.TrailingBackslashMerges | texpl/test_frameworks/doctest_cpp.py:254 | an id ending with a backslash merges with the next one when read back |
| Pytest.EnvList | texpl/test_frameworks/pytest.py:20-33 | an unset or empty variable gives no entries, otherwise its split parts |
| Pytest.GetOsPythonPath | texpl/test_frameworks/pytest.py:20-25 | the `PYTHONPATH` entries, split on the path separator |
| Pytest.GetOsPytestPlugins | texpl/test_frameworks/pytest.py:28-33 | the `PYTEST_PLUGINS` entries, split on commas |
| Pytest.DiscoveryEnvironmentExtends | texpl/test_frameworks/pytest.py:74-78 | the discovery environment keeps the existing python path and plugins, and appends its own |
| Pytest.WorkingDirectoryAgrees | texpl/test_frameworks/pytest.py:60-69 | the pytest working directory is the common one for the suite's cwd setting |
| Pytest.ParseDiscoveredTest | texpl/test_frameworks/pytest.py:86-110 | the custom prefix first; then the discovery file (the first part of the node id, joined to the working directory, made relative and normalised) as its segments under `full`, its basename under `basename`, nothing otherwise; then the rest of the node id; located at the test file made relative to the project and at its line |
| Pytest.FirstHeaderLine | texpl/test_frameworks/pytest.py:113-114 | the first line that contains the discovery header, if any |
| Pytest.FirstIsFirst | texpl/test_frameworks/pytest.py:113-114 | a line holding the header with none before it is the one chosen |
| Pytest.DecodeRecord | texpl/test_frameworks/pytest.py:114-122 | the record after the header; non-empty `errors` become a DiscoveryError carrying them |
| Pytest.ParseDiscovery | texpl/test_frameworks/pytest.py:112-124 | only the first header line is used; no header line raises DiscoveryError |
| GTest.DropLastSegmentShape | texpl/test_frameworks/gtest.py:96 | dropping the last `/` segment keeps all segments before it |
| GTest.ReplaceLastSegment | texpl/test_frameworks/gtest.py:95-101 | the suite name of a typed test and the name of a value-parameterised test keep everything before their last `/` and end with `<type_param>` or `[value_param]`, and nothing else |
| GTest.ParseDiscoveredTest | texpl/test_frameworks/gtest.py:78-105 | the path is the custom prefix, the executable prefix for the style, then exactly suite and name |
| GTest.DiscoveryCount | texpl/test_frameworks/gtest.py:111-116 | discovery gives as many tests as there are entries across the suites |
| GTest.ParseSuite | texpl/test_frameworks/gtest.py:113-114 | the inner loop appends one test per entry of a suite |
| GTest.ParseDiscovery | texpl/test_frameworks/gtest.py:107-116 | one test per entry across all suites, in order |
| GTest.Discover | texpl/test_frameworks/gtest.py:50-76 | every executable the pattern names is listed with `--gtest_output=json:<temp>/output.json --gtest_list_tests` and the suite's arguments; the collected errors are raised once at the end |
| Catch2.WorkingDirectoryAgrees | texpl/test_frameworks/catch2.py:30-36 | the Catch2 working directory is the common one for the suite's cwd setting |
| Catch2.ParseDiscoveredTestAsWritten | texpl/test_frameworks/catch2.py:61-90 | the test as the code builds it, where a text-only `ClassName` is dropped |
| Catch2.ParseDiscoveredTest | texpl/test_frameworks/catch2.py:61-90 | the path is the executable's segments, then the class name when it has text, then the name; the location is the `File` text made relative to the project and the parsed `Line` text; no suite, run or report id; a missing field is an assertion failure |
| Catch2.FixtureDropped | texpl/test_frameworks/catch2.py:79-81 | as written, a test case whose class name is only text loses it |
| Catch2.FixtureCaseKept | texpl/test_frameworks/catch2.py:79-81 | with the intended check, the same test case keeps its class name |
| Catch2.TextOnlyFixtureDropped | texpl/test_frameworks/catch2.py:79-81 | as written, any class-name element without subelements is dropped |
| Catch2.FixtureKept | texpl/test_frameworks/catch2.py:79-81 | with the intended check, a class name with text is always kept before the name |
| Catch2.FixtureCaseComplete | texpl/test_frameworks/catch2.py:63-86 | the sample test case carries every field the parser asserts |
| Catch2.ParseDiscovery | texpl/test_frameworks/catch2.py:92-98 | one test per `TestCase` child, parsed with the corrected test parser; other tags are skipped |
| Catch2.DiscoveryShape | texpl/test_frameworks/catch2.py:92-98 | discovery succeeds exactly when every `TestCase` child is complete; then the k-th discovered test is the corrected parse of the k-th `TestCase` child, and only `TestCase` children are read |
| Catch2.Discover | texpl/test_frameworks/catch2.py:29-59 | every executable the pattern names is listed with `-r xml --list-tests` and the suite's arguments; errors are aggregated into one DiscoveryError |
| TestData.LeavesAreLeaves | texpl/test_data.py:19-24 | the leaves of a tree are exactly the nodes without children |
| TestData.LatestRunIsMaximum | texpl/test_data.py:13-17 | the latest run is the maximum of the leaves' runs, or none when no leaf has one |
| TestData.AddAllMeaning | texpl/test_data.py:9-17 | each leaf adds one to its last-status bucket, its run-status bucket and the total |
| TestData.TestStatsMeaning | texpl/test_data.py:8-28 | the total counts leaves only, and the buckets count leaves by status |
| TestData.AddAllAppend | texpl/test_data.py:19-24 | the statistics of two lists of leaves combine |
| TestData.EmptyChildrenContributeNothing | texpl/test_data.py:20-22 | a node with an empty child list contributes nothing |
| TestData.AddToStats | texpl/test_data.py:19-24 | the recursive walk adds exactly the node's leaves to the statistics |
| TestData.GetTestStats | texpl/test_data.py:8-28 | the statistics of a tree are those of its leaves |
| TestData.ConvertField | texpl/test_data.py:71-74 | a present date field is parsed; an absent or null one is left as it is |
| TestData.ConvertedMeaning | texpl/test_data.py:70-78 | dates are converted at every depth, and nothing else changes |
| TestData.ConvertedLeaves | texpl/test_data.py:70-78 | conversion keeps the shape of the tree and its leaves |
| TestData.ConvertDates | texpl/test_data.py:70-78 | the in-place rewrite gives the converted tree |
| TestData.FirstNamed | texpl/test_data.py:116-119 | the first child with the segment's name, if any |
| TestData.FindSnoc | texpl/test_data.py:111-127 | looking up one more segment descends from the node found so far |
| TestData.FindNoneExtends | texpl/test_data.py:121-122 | once a lookup fails, longer paths fail too |
| TestData.FindMeaning | texpl/test_data.py:108-129 | a found node is reached by the first match of each segment; an empty path, a missing segment, or a path past a leaf finds nothing |
| TestData.FindCompose | texpl/test_data.py:108-129 | looking up a path in two parts is looking up the whole path |
| TestData.FindTest | texpl/test_data.py:108-129 | the lookup loop gives the node the lookup specification defines |
| TestData.TestData.constructor | texpl/test_data.py:31-35 | a new test data object holds no cached list or statistics |
| TestData.TestData.GetTestList | texpl/test_data.py:80-90 | the list is loaded once and cached; loading it resets the cached statistics |
| TestData.TestData.GetGlobalTestStats | texpl/test_data.py:131-136 | cached statistics are returned without recomputing; otherwise they are computed from the list and cached |
| TestData.TestData.FindTestItem | texpl/test_data.py:108-110 | the lookup runs on the cached list |
| ExplorerList.AddPrefix | texpl/list.py:108-116 | empty only when both parts are empty, otherwise both parts then one separator |
| ExplorerList.DisplayStatus | texpl/list.py:118-122 | the run status while queued or running, else the last status; it always has a symbol |
| ExplorerList.VisibleIffShownLeaf | texpl/list.py:124-135 | under a filter, an item is visible exactly when some test under it passes the filter |
| ExplorerList.VisibleRules | texpl/list.py:124-135 | no filter shows everything; a node follows its children; a running test is shown; another test follows its status's flag |
| ExplorerList.BuildItem | texpl/list.py:161-165 | two spaces per depth, `- ` exactly for nodes, the display status symbol, and the prefixed name between two markers |
| ExplorerList.SingleChildFolds | texpl/list.py:140-151 | a node with one child shows no line; the child keeps its depth and gets the node's name in its prefix |
| ExplorerList.HiddenParent | texpl/list.py:146-151 | the hidden root shows no line, and its children start at its depth with an empty prefix |
| ExplorerList.SeveralChildrenIndent | texpl/list.py:140-154 | a node with several children shows its own line, when visible, before its children's lines one level deeper |
| ExplorerList.LinesVisible | texpl/list.py:137-159 | every line shown is that of a visible item, and no single-child node has a line |
| ExplorerList.BuildItems | texpl/list.py:137-159 | the accumulated lines are the lines the list specification defines |
| ExplorerList.BuildChildItems | texpl/list.py:153-154 | the loop over children appends each child's lines in order |
| ExplorerList.MaxLength | texpl/list.py:194 | the length of the longest line, reached by some line |
| ExplorerList.BuildInfo | texpl/list.py:180-185 | the line padded to the width, four spaces, then the item's summary |
| ExplorerList.PadLines | texpl/list.py:194-195 | every line is padded to the longest one |
| ExplorerList.BuildTests | texpl/list.py:187-195 | one padded line per visible line of the root's children, so nothing when none is visible |
| ExplorerList.PaddedToLongest | texpl/list.py:194-195 | the longest line gets no padding |
| ExplorerList.StatsToString | texpl/list.py:170-174 | crashed is added into failed and stopped into not-run in the caller's dictionary, then failed, skipped, passed, not-run and total are shown in that order |
| ExplorerList.StatsFoldedTwice | texpl/list.py:170-172 | since the dictionary itself is changed, folding it a second time counts crashed tests twice |
| ExplorerList.VisibleToString | texpl/list.py:176-178 | one box per status, checked exactly when the status is shown |
| ExplorerList.GotoValue | texpl/list.py:398-401 | a field is the number `int()` reads from its text when it accepts the text, and the text itself otherwise |
| ExplorerList.ParseGoto | texpl/list.py:393-407 | what, which and where are the first three `:` fields, the last two present only when there are that many fields, and each read as a number when `int()` accepts it |
| ExplorerList.GotoRoundTrip | texpl/list.py:393-407 | a `goto` written from its parts reads back as those parts |
| ExplorerList.NextRegion | texpl/list.py:431-433 | the first region whose line begins after the point, or the first region when none does; nothing (an IndexError) when there are no regions |
| ExplorerList.PrevRegion | texpl/list.py:427-429 | the last region whose line ends before the point, or the last region when none does; nothing (an IndexError) when there are no regions |
| ExplorerList.Toggle | texpl/list.py:512-524 | `all` shows everything if anything was hidden and hides everything otherwise; a key flips, with `crashed` and `stopped` following `failed` and `not_run`; nothing else changes |
| Util.StatusSpinner.constructor | texpl/util.py:69-73 | the spinner starts at the left end, moving right |
| Util.StatusSpinner.Progress | texpl/util.py:75-88 | with the thread gone, the status is cleared and the spinner stops; otherwise the bar is shown and the counter steps, turning at either end and staying in the bar |
| Util.SpinnerBarWidth | texpl/util.py:80-85 | the two paddings fill the bar around a single `=` at the counter |
| Util.AbbreviateDir | texpl/util.py:142-149 | a leading user directory becomes `~`; other paths are unchanged |
| Util.AbbreviateRoundTrip | texpl/util.py:142-149 | expanding `~` again gives the directory back |
| Util.ReadableDateDeltaCases | texpl/util.py:154-178 | days whatever the seconds; else the hours `seconds // 3600` and the minutes past them; else the minutes; seconds only under a minute |
| Util.MergeMeaning | texpl/util.py:238-244 | every key of either side is present; keys only in the first side are unchanged; non-dictionary values from the second overwrite; dictionaries on both sides are merged, not replaced |
| Util.MergeSelf | texpl/util.py:238-244 | merging a dictionary into itself changes nothing |
| Util.MergeTwice | texpl/util.py:238-244 | merging the same dictionary twice is merging it once |
| Util.MergeDeep | texpl/util.py:238-244 | the key-by-key loop gives the merge the specification defines, or fails where a value cannot be merged into |
| Util.MergeValue | texpl/util.py:243-244 | the recursive call on a value holding a dictionary |
| Suites.SuiteIds | texpl/suites.py:48 | the ids of the existing suites, in order; none when some suite has no id |
| Suites.CandidatesCount | texpl/suites.py:50-54 | the first `k` candidate names are distinct |
| Suites.TakenBound | texpl/suites.py:50-54 | the candidates cannot all be taken beyond the number of existing ids, so the search ends |
| Suites.SelectSuiteId | texpl/suites.py:38-61 | a negative index does nothing; otherwise the settings name the framework, and the proposed name is the framework followed by the smallest number from 1 that no existing suite uses |
| Suites.AddSuite | texpl/suites.py:21-35 | the typed id is set in the settings, exactly one entry is appended, and the list is merged into the project data |
| Suites.AddSuitePreservesSettings | texpl/suites.py:25-35 | the merge replaces only the suite list and keeps every other setting, at every level; it fails only on non-dictionary `settings` or `TestManager` values |
| TestSuite.FromJson | texpl/test_suite.py:24-36 | a missing id is an error, checked before a missing framework; defaults are no custom prefix and the `full` style; the whole settings go to the framework |
| TestSuite.FromJsonDelegates | texpl/test_suite.py:38-42 | a suite discovers and runs exactly what its framework does |
| TestFramework.Lookup | texpl/test_framework.py:14-21 | a missing type and an unregistered type are errors; otherwise the registered factory applied to the same JSON |
| TestFramework.LookupAfterRegister | texpl/test_framework.py:8-21 | after registering a name, its type builds with the new factory, and every other lookup is as before |
| TestFramework.Registry.constructor | texpl/test_framework.py:6 | the registry starts empty |
| TestFramework.Registry.RegisterFramework | texpl/test_framework.py:8-10 | the factory is stored under the name, replacing any earlier one |
| TestFramework.Registry.FromJson | texpl/test_framework.py:14-21 | the lookup against the current registry |
| Jobs.Slot.constructor | texpl/process.py:54 | a new output slot is empty |
| Jobs.Delivered | texpl/process.py:63-74 | the job's value, or a JobError quoting what it raised, so the worker never raises |
| Jobs.DeliveredVersusInline | texpl/process.py:141-166 | inline and queued execution agree whenever the job returns; when it raises, both fail, the queue with a JobError quoting the original |
| Jobs.WorkQueue.constructor | texpl/process.py:41-46 | a new queue has handed out no ids and holds no slots |
| Jobs.WorkQueue.NextTaskId | texpl/process.py:89-92 | the id is one more than the last one handed out |
| Jobs.NextTaskIdsInARow | texpl/process.py:89-92 | ids drawn in a row from a fresh queue are 1, 2, 3, and so on, strictly increasing |
| Jobs.WorkQueue.GetOutputQueue | texpl/process.py:51-56 | an existing slot is returned as it is; otherwise a new empty slot is created and kept |
| Jobs.WorkQueue.ReleaseOutputQueue | texpl/process.py:58-61 | the task's slot is forgotten when present; nothing else changes |
| Jobs.WorkQueue.ProcessQueueOne | texpl/process.py:63-78 | the job's value, or a JobError for what it raised, is put in the task's empty slot |
| Jobs.WorkQueue.GetJobOutput | texpl/process.py:103-108 | the slot's value, or `queue.Empty` when there is none; either way the slot is released |
| Jobs.WorkQueue.WorkerRun | texpl/process.py:141-166 | an id is drawn unless one is given; on the worker thread the job runs inline, otherwise through its slot, which is then released |
| Jobs.FirstDecodingMeaning | texpl/process.py:126-138 | the result of the first encoding that succeeds, every earlier one having failed; nothing when all fail |
| Jobs.Decode | texpl/process.py:126-138 | non-bytes pass through; bytes give the first successful decoding of the primary then each fallback, else the primary's error again |
| Jobs.DecodedLines | texpl/process.py:202-207 | the reader receives at most one string per line |
| Jobs.ReadStream | texpl/process.py:199-209 | each line that decodes is handed to the reader, in order; a line that does not is skipped |
| Jobs.AllLinesDelivered | texpl/process.py:202-207 | when every line decodes, the reader receives each line decoded, one per line |
| Jobs.HandledFailure | texpl/process.py:239-248 | with errors ignored the job gives `(0, '', '')`; otherwise a JobError value tagged `[queue,thread,task]` |
| Jobs.HandledFailureAsWritten | texpl/process.py:239-248 | with errors ignored `(0, '', '')`; otherwise building the message raises a TypeError |
| Jobs.RunJob | texpl/process.py:179-248 | start and decoding errors go to the handler; other exceptions propagate; streamed output gives the polled code; captured output gives code, stdout and stderr decoded |
| Jobs.MissingExecutable | texpl/process.py:239-243 | as written, a missing executable ends in an "Unhandled exception" JobError; as intended, in one quoting the OSError |
| Jobs.CheckedStdout | texpl/process.py:254-264 | a JobError exactly when errors are not ignored and the code is not a success code; its text is exactly `Error when executing command "<command>" (exit code <code>` followed by `):`, two newlines and the quoted output (stderr, or stdout when stderr is none), or by `).` when that output is empty; otherwise stdout |
| Jobs.MergedStderrQuotesStdout | texpl/process.py:254-262 | with stderr merged into stdout, a failure quotes stdout |
| Jobs.CheckedStreamed | texpl/process.py:267-276 | an error exactly when errors are not ignored and the code is not a success code, quoting no output |
| Jobs.DecodingErrorLists | texpl/process.py:283-285 | the message lists the primary encoding and then each fallback, one per line |
| Cmd.CmdLines | texpl/cmd.py:226-228 | errors of the checked run propagate; a run that passes the check gives lines exactly when stdout was captured |
| Cmd.CmdLinesMeaning | texpl/cmd.py:226-228 | one line more than stdout has newlines; no line holds a newline; joining them with newlines gives stdout back |

## Left out

- Threads, subprocesses and timing are not modelled:
  - the worker loop, the blocking `queue.Queue` calls and their timeouts, `Popen`, the reader thread, stop-token polling and `kill`, and `dump_stack`;
  - the worker's taking a job off the queue is the call `ProcessQueueOne` between pushing and waiting;
  - a wait that gives up is an empty slot.
- Jobs.NextTaskIdsInARow: strictly increasing ids are claimed only for calls in a row, because `next_task_id` takes no lock.
- The queue registry `get_queue` is not modelled; a caller gets a `WorkQueue` object.
- The `job` wrapper's arguments are taken as parameters, not computed:
  - the thread identity, the command's `repr` and the process outcome;
  - stdin encoding and the environment copy;
  - `sublime.error_message` pop-ups are not modelled.
  - A codec name unknown to Python (LookupError) is not modelled.
- Libraries and missing files:
  - `json.loads`, `ElementTree` and `xml.sax` are not modelled. Inputs are parsed JSON values, XML elements, or streams of start, end and text events.
  - `XmlStreamHandler`, `get_file_prefix`, `get_generic_parser` and `discover_executables` are not part of this model. The file prefix is a function parameter.
- Paths and the environment:
  - `os.path.normpath`, `relpath` and `basename` are abstract operations.
  - `isabs` and `join` follow POSIX paths.
  - `glob`, `os.environ`, the user's directory and `TemporaryDirectory` are parameters.
- Dates are integers. `fromisoformat` is a parameter, and `datetime.now` is left out.
- TestData.ConvertField: the `fromIso` parameter is total, so the ValueError that `fromisoformat` raises on a malformed date string is not modelled.
- An exception raised while feeding a decoder is a `raised` flag on the step. The reader loop only logs it and goes on with the next line.
- Per-framework details:
  - Cargo.OutputParser.Feed: a `started` record whose `name` is not a string is never found in the report-id index.
  - Cargo.RunArgs requires exactly one group of tests, as the source asserts.
  - PhpUnit.OutputParser.Run: the flattening of grouped ids, `assert len == 1` and the choice of a generic parser are not modelled.
  - DoctestCpp: `self.content = {}` at the end of a test case is not modelled, since nothing reads `content`.
  - DoctestCpp.FilterRoundTrip holds only for a non-empty list of ids without backslashes. An empty list joins to `""`, which reads back as `[""]`. DoctestCpp.TrailingBackslashMerges shows what a backslash does.
  - GTest.Discover: the environment and working directory handed to the listing command are not modelled; running the command and parsing its output are the `runDiscovery` parameter.
  - Catch2.Discover: the environment and working directory handed to the listing command are not modelled; running the command and parsing its output are the `runDiscovery` parameter.
  - Catch2.ParseDiscovery and Catch2.DiscoveryShape use the corrected test parser, which keeps a text-only `ClassName` (see Findings). Catch2.ParseDiscoveredTestAsWritten alone models the code as written.
  - Pytest.ParseDiscoveredTest: a `line` that is not a JSON integer makes the test unparseable and discovery fail. Python stores whatever value the listing holds, `null` included.
  - Cargo.ParseDiscoveredTest: a `start_line` that is not a JSON integer makes the test unparseable and discovery fail. Python stores whatever value the listing holds.
  - GTest.ParseDiscoveredTest: a `line` that is not a JSON integer makes the test unparseable. So does a test name, a suite name, a `type_param` or a `value_param` that is not a string. Python stores or formats any value.
  - Doctest executable discovery and the per-executable grouping of `run` are not modelled.
  - Pytest.DecodeRecord: a `tests` field that is not a list is treated like any other exception.
  - The `from_json` of each framework, `get_phpunit` and `get_cargo` are not modelled.
- Test data:
  - TestData.Item: an absent `name` or `last_run` key is read like a `None` value. The source indexes these keys directly, so it raises KeyError there (`texpl/test_data.py:13` and 117), and the model gives results where Python raises. A missing status is excluded by `LeafReady`, as the source raises there too.
  - The demo data of the constructor and all file I/O are left out.
  - `convert_dates` works on the item datatype, not on raw dictionaries.
  - TestData.FindTest: the lookup runs over the root's children. As written, the source starts from the root dictionary, where the loop would fail.
  - TestData.GetTestStats: the statistics have no `crashed` or `stopped` buckets, as in the source.
- ExplorerList.StatsToString requires `crashed` and `stopped` keys. The statistics it is given in the source lack them.
- List view:
  - `build_info`'s summaries (statistics or last run) are a function parameter.
  - Regions are pairs of line bounds.
  - ExplorerList.StatusSymbol: the symbol for `passed` is the check mark `✓`. `texpl/list.py:51` holds the three characters `âœ“`, which are the UTF-8 bytes of `✓` read as cp1252. The model takes the check mark to be the intended symbol.
  - Selection, views, `move_to_point` and the commands around them are editor UI.
- Util:
  - `get_user_dir` is the user directory, given as a parameter.
  - Util.MergeDeep: when the merge raises, the model gives no result. It does not model the keys already merged into `dict1` before the raise.
  - Dictionary key order is not modelled.
  - `SettingsHelper` is not modelled.
- Suites:
  - `get_framework_default_settings` and the existing suites are parameters.
  - Suites.AddSuite returns the new list instead of appending to the caller's.
  - Suites.SelectSuiteId requires a framework index within the list, as the quick panel guarantees.
  - The panels and the project-data I/O are left out.
- TestSuite.FromJson: `create_framework` is a parameter and does not receive the suite itself.
- TestSuite.Run returns the framework's result, which the source discards.
- TestFramework.Lookup treats a type that is not a string as unregistered. Python would raise for an unhashable type.
- Framework registration is called with four arguments in `texpl/test_frameworks/phpunit.py:157`. This model follows the two-argument `register_framework`.

## Findings

| source | as written | input that shows it | evidently intended | confidence | as-written member | corrected member |
|---|---|---|---|---|---|---|
| texpl/process.py:243 | the message `"[%s,%s,%s] Could not execute command: %s"` has four `%s` for three values. The job raises TypeError, and the queue reports "Unhandled exception in queue command: not enough arguments for format string". The same holds at line 248 and at `texpl/cmd.py:205,210` | a command whose executable does not exist, with `ignore_errors` false | a JobError "[queue,thread,task] Could not execute command: <error>": the missing value is taken to be the queue name, which every other message of the job and the queue (lines 65 and 206) puts first | not executed | Jobs.HandledFailureAsWritten, Jobs.MissingExecutable | Jobs.HandledFailure |
| texpl/test_frameworks/catch2.py:80 | `if fixture and fixture.text` tests the element's truth value. An ElementTree element without subelements is false, so a `ClassName` holding only text is dropped | a `TestCase` with `Name` "adds" and a text-only `ClassName` "Calculator" | the path has "Calculator" before "adds" | not executed | Catch2.ParseDiscoveredTestAsWritten, Catch2.FixtureDropped | Catch2.ParseDiscoveredTest, Catch2.FixtureCaseKept |

=== FILE: cargo.dfy ===
/**
 * The Cargo framework: a decoder for the JSON-lines output of
 * `cargo test --format=json`, the discovery of tests from the `--list`
 * output, and the flattening of test ids into the run command.
 */
module Cargo {
  import opened Wrappers
  import opened Strings
  import opened Events
  import Common
  import Json

  /** A JSON record, as `json.loads` returns it for a line holding an object. */
  type Record = map<string, Json.Value>

  /** Python's `json.loads` on one line, left abstract: `None` where it raises. */
  type Loads = string -> Option<Record>

  /** `parse_test_id`: from index 12 on, stripped, up to the first space. */
  function ParseTestId(line: string): (r: string)
    ensures var rest := Strip(if |line| <= 12 then "" else line[12..]);
            StartsWith(rest, r) && !Contains(r, " ") && (|r| == |rest| || rest[|r|] == ' ')
  {
    var rest := Strip(if |line| <= 12 then "" else line[12..]);
    SplitPiecesFree(rest, " ");
    Split(rest, " ")[0]
  }

  /**
   * `get_json`: a record only for a line starting with `{` that parses and
   * has both `type` and `event`.
   */
  function GetJson(line: string, loads: Loads): (r: Option<Record>)
    ensures r.Some? <==> StartsWith(line, "{") && loads(line).Some?
                         && "type" in loads(line).value && "event" in loads(line).value
    ensures r.Some? ==> r.value == loads(line).value
  {
    if !StartsWith(line, "{") then None
    else match loads(line)
      case None => None
      case Some(m) => if "type" !in m || "event" !in m then None else Some(m)
  }

  /** The status each finishing event reports. */
  function FinishStatus(event: Json.Value): Option<TestStatus>
  {
    if event == Json.Str("ok") then Some(Passed)
    else if event == Json.Str("failed") then Some(Failed)
    else if event == Json.Str("ignored") then Some(Skipped)
    else None
  }

  /** The test list's report index and the framework id the parser was built with. */
  datatype Scope = Scope(index: ReportIndex, frameworkId: string)

  /** The lookup of a `started` record's name under executable `cargo`; a name that is not a string is never found. */
  function Lookup(sc: Scope, name: Json.Value): Option<Path>
  {
    match name
    case Str(n) => FindTestByReportId(sc.index, sc.frameworkId, "cargo", n)
    case _ => None
  }

  /** The new `current_test`, the events emitted, and whether `feed` raised. */
  datatype Step = Step(currentTest: Option<Path>, events: seq<Event>, raised: bool)

  /** One call of `feed`. */
  function FeedStep(sc: Scope, loads: Loads, current: Option<Path>, line: string): Step
  {
    match GetJson(line, loads)
    case None => Step(current, if IsTruthy(current) then [Output(current.value, line)] else [], false)
    case Some(m) =>
      if m["type"] != Json.Str("test") then Step(current, [], false)
      else if m["event"] == Json.Str("started") then
        if "name" !in m then Step(current, [], true)
        else
          var t := Lookup(sc, m["name"]);
          Step(t, if t.Some? then [Started(t.value)] else [], false)
      else match FinishStatus(m["event"])
        case None => Step(current, [], false)
        case Some(st) =>
          if current.None? then Step(current, [], false)
          else Step(None, [Finished(current.value, st)], false)
  }

  /** A line that is not a record is forwarded only while a test is current, and changes nothing. */
  lemma PlainLineForwarded(sc: Scope, loads: Loads, current: Option<Path>, line: string)
    requires GetJson(line, loads).None?
    ensures var r := FeedStep(sc, loads, current, line);
            && r.currentTest == current && !r.raised
            && (IsTruthy(current) ==> r.events == [Output(current.value, line)])
            && (!IsTruthy(current) ==> r.events == [])
  {
  }

  /** A record whose type is not `test` is ignored: no event, no change. */
  lemma OtherRecordIgnored(sc: Scope, loads: Loads, current: Option<Path>, line: string)
    requires GetJson(line, loads).Some? && GetJson(line, loads).value["type"] != Json.Str("test")
    ensures FeedStep(sc, loads, current, line) == Step(current, [], false)
  {
  }

  /**
   * A finishing record reports the open test with the status of its event
   * (`ok` PASSED, `failed` FAILED, `ignored` SKIPPED) and closes it; with no
   * open test it does nothing.
   */
  lemma FinishRecord(sc: Scope, loads: Loads, current: Option<Path>, line: string)
    requires GetJson(line, loads).Some?
    requires var m := GetJson(line, loads).value; m["type"] == Json.Str("test") && FinishStatus(m["event"]).Some?
    ensures var m := GetJson(line, loads).value;
            var r := FeedStep(sc, loads, current, line);
            && r.currentTest.None? && !r.raised
            && (current.Some? ==> r.events == [Finished(current.value, FinishStatus(m["event"]).value)])
            && (current.None? ==> r.events == [])
            && (m["event"] == Json.Str("ok") <==> FinishStatus(m["event"]) == Some(Passed))
            && (m["event"] == Json.Str("failed") <==> FinishStatus(m["event"]) == Some(Failed))
            && (m["event"] == Json.Str("ignored") <==> FinishStatus(m["event"]) == Some(Skipped))
  {
  }

  /**
   * A `started` record replaces the current test without finishing it: with
   * a test already open, the new start breaks the lifecycle the events
   * follow, and the earlier test is never reported finished by this call.
   */
  lemma StartedOverwrites(sc: Scope, loads: Loads, p: Path, line: string)
    requires GetJson(line, loads).Some?
    requires var m := GetJson(line, loads).value;
             m["type"] == Json.Str("test") && m["event"] == Json.Str("started") && "name" in m
             && Lookup(sc, m["name"]).Some?
    ensures var r := FeedStep(sc, loads, Some(p), line);
            && r.currentTest == Lookup(sc, GetJson(line, loads).value["name"])
            && r.events == [Started(r.currentTest.value)]
            && Replay(Some(p), r.events).None?
  {
  }

  /** Without a start while a test is open, each call keeps the lifecycle. */
  lemma FeedStepKeepsLifecycle(sc: Scope, loads: Loads, current: Option<Path>, line: string)
    requires current.Some? ==> !(GetJson(line, loads).Some?
                                 && GetJson(line, loads).value["type"] == Json.Str("test")
                                 && GetJson(line, loads).value["event"] == Json.Str("started"))
    ensures var r := FeedStep(sc, loads, current, line); Replay(current, r.events) == Some(r.currentTest)
  {
  }

  class OutputParser {
    const scope: Scope
    var currentTest: Option<Path>
    /** The calls made on the test data so far, in order. */
    var events: seq<Event>

    constructor (scope: Scope)
      ensures this.scope == scope && currentTest.None? && events == []
    {
      this.scope := scope;
      currentTest := None;
      events := [];
    }

    /** `feed`: returns whether the call raised (a `started` record without a name). */
    method Feed(line: string, loads: Loads) returns (raised: bool)
      modifies this
      ensures var r := FeedStep(scope, loads, old(currentTest), line);
              currentTest == r.currentTest && events == old(events) + r.events && raised == r.raised
    {
      raised := false;
      var record := GetJson(line, loads);
      if record.None? {
        if IsTruthy(currentTest) {
          events := events + [Output(currentTest.value, line)];
        }
        return;
      }
      var m := record.value;
      if m["type"] != Json.Str("test") {
        return;
      }
      if m["event"] == Json.Str("started") {
        if "name" !in m {
          raised := true;
          return;
        }
        currentTest := Lookup(scope, m["name"]);
        if currentTest.None? {
          return;
        }
        events := events + [Started(currentTest.value)];
      }
      if m["event"] == Json.Str("ok") {
        if currentTest.None? {
          return;
        }
        events := events + [Finished(currentTest.value, Passed)];
        currentTest := None;
      } else if m["event"] == Json.Str("failed") {
        if currentTest.None? {
          return;
        }
        events := events + [Finished(currentTest.value, Failed)];
        currentTest := None;
      } else if m["event"] == Json.Str("ignored") {
        if currentTest.None? {
          return;
        }
        events := events + [Finished(currentTest.value, Skipped)];
        currentTest := None;
      }
    }
  }

  // ---------------------------------------------------------------------
  // Discovery
  // ---------------------------------------------------------------------

  /** What `parse_discovered_test` reads from the framework: its id, prefix settings and project root. */
  datatype Settings = Settings(frameworkId: string, customPrefix: Option<string>, pathPrefixStyle: string, projectRootDir: string)

  /** The path segments the prefix style takes from the discovery file. */
  function StyleSegments(style: string, ops: Common.PathOps, discoveryFile: string): seq<string>
  {
    if style == "full" then Split(ops.normpath(discoveryFile), [ops.sep])
    else if style == "basename" then [ops.basename(discoveryFile)]
    else []
  }

  /**
   * `parse_discovered_test`: custom prefix, then the source file by style,
   * then the test name split on `::`; run and report id are the full name.
   * `None` where a field is missing or of the wrong JSON type.
   */
  function ParseDiscoveredTest(st: Settings, ops: Common.PathOps, record: Record, workingDirectory: string): (r: Option<DiscoveredTest>)
    ensures r.Some? <==> && "source_path" in record && record["source_path"].Str?
                         && "name" in record && record["name"].Str?
                         && "start_line" in record && record["start_line"].Int?
    ensures r.Some? ==>
              var name := record["name"].s;
              var n := |Split(name, "::")|;
              var prefix := PrefixSegments(st.customPrefix);
              var discoveryFile := ops.normpath(ops.relpath(Common.Join(workingDirectory, record["source_path"].s), st.projectRootDir));
              && |prefix| + n <= |r.value.fullName|
              && r.value.fullName[..|prefix|] == prefix
              && r.value.fullName[|r.value.fullName| - n..] == Split(name, "::")
              && Join(r.value.fullName[|r.value.fullName| - n..], "::") == name
              && (st.pathPrefixStyle == "full" ==>
                    r.value.fullName == prefix + Split(ops.normpath(discoveryFile), [ops.sep]) + Split(name, "::"))
              && (st.pathPrefixStyle == "basename" ==>
                    r.value.fullName == prefix + [ops.basename(discoveryFile)] + Split(name, "::"))
              && (st.pathPrefixStyle != "full" && st.pathPrefixStyle != "basename" ==>
                    r.value.fullName == prefix + Split(name, "::"))
              && r.value.runId == r.value.reportId == Some(name)
              && r.value.suiteId == Some(st.frameworkId)
              && r.value.location == TestLocation(Some("cargo"), record["source_path"].s, record["start_line"].i)
  {
    if "source_path" !in record || "name" !in record || "start_line" !in record then None
    else match (record["source_path"], record["name"], record["start_line"])
      case (Str(source), Str(name), Int(line)) =>
        var discoveryFile := ops.normpath(ops.relpath(Common.Join(workingDirectory, source), st.projectRootDir));
        var path := PrefixSegments(st.customPrefix) + StyleSegments(st.pathPrefixStyle, ops, discoveryFile) + Split(name, "::");
        JoinSplit(name, "::");
        assert path[|path| - |Split(name, "::")|..] == Split(name, "::");
        Some(DiscoveredTest(path, Some(st.frameworkId), Some(name), Some(name), TestLocation(Some("cargo"), source, line)))
      case _ => None
  }

  /** A line of the `--list` output that `parse_discovery` keeps: a record of type `test` and event `discovered`. */
  function LineRecord(line: string, loads: Loads): (r: Option<Record>)
    ensures r.Some? <==> && StartsWith(line, "{") && loads(line).Some?
                         && "type" in loads(line).value && "event" in loads(line).value
                         && loads(line).value["type"] == Json.Str("test")
                         && loads(line).value["event"] == Json.Str("discovered")
    ensures r.Some? ==> r == loads(line)
  {
    if !StartsWith(line, "{") then None
    else match loads(line)
      case None => None
      case Some(m) =>
        if "type" in m && "event" in m && m["type"] == Json.Str("test") && m["event"] == Json.Str("discovered")
        then Some(m) else None
  }

  /** The record test of one line, in the order `parse_discovery` makes its checks. */
  method ReadRecord(line: string, loads: Loads) returns (r: Option<Record>)
    ensures r == LineRecord(line, loads)
  {
    if !StartsWith(line, "{") {
      return None;
    }
    var parsed := loads(line);
    if parsed.None? {
      return None;
    }
    var m := parsed.value;
    if "type" !in m || "event" !in m {
      return None;
    }
    if m["type"] != Json.Str("test") || m["event"] != Json.Str("discovered") {
      return None;
    }
    return Some(m);
  }

  /** The kept records, in order. */
  function DiscoveryRecords(lines: seq<string>, loads: Loads): seq<Record>
    decreases |lines|
  {
    if |lines| == 0 then []
    else DiscoveryRecords(lines[..|lines| - 1], loads)
         + (match LineRecord(lines[|lines| - 1], loads) case None => [] case Some(m) => [m])
  }

  /** Keeping records commutes with concatenation: the kept records of each line, line after line. */
  lemma {:induction false} DiscoveryRecordsAppend(a: seq<string>, b: seq<string>, loads: Loads)
    ensures DiscoveryRecords(a + b, loads) == DiscoveryRecords(a, loads) + DiscoveryRecords(b, loads)
    decreases |b|
  {
    if |b| == 0 {
      assert a + b == a;
    } else {
      assert (a + b)[..|a + b| - 1] == a + b[..|b| - 1];
      DiscoveryRecordsAppend(a, b[..|b| - 1], loads);
    }
  }

  /** A single line contributes its record exactly when it is a discovery record. */
  lemma DiscoveryRecordsOne(line: string, loads: Loads)
    ensures DiscoveryRecords([line], loads) == (match LineRecord(line, loads) case None => [] case Some(m) => [m])
  {
    assert [line][..0] == [];
  }

  lemma DiscoveryRecordsSnoc(lines: seq<string>, i: nat, loads: Loads)
    requires i < |lines|
    ensures DiscoveryRecords(lines[..i + 1], loads)
            == DiscoveryRecords(lines[..i], loads) + (match LineRecord(lines[i], loads) case None => [] case Some(m) => [m])
  {
    assert lines[..i + 1][..i] == lines[..i];
  }

  /** A record that fails to parse fails the whole discovery, whatever lines follow. */
  lemma DiscoveryFailsFrom(lines: seq<string>, i: nat, loads: Loads, f: Record -> Option<DiscoveredTest>)
    requires i <= |lines|
    requires TryMap(DiscoveryRecords(lines[..i], loads), f).None?
    ensures TryMap(DiscoveryRecords(lines, loads), f).None?
  {
    assert lines == lines[..i] + lines[i..];
    DiscoveryRecordsAppend(lines[..i], lines[i..], loads);
    TryMapFailed(DiscoveryRecords(lines[..i], loads), DiscoveryRecords(lines[i..], loads), f);
  }

  function RecordParser(st: Settings, ops: Common.PathOps, workingDirectory: string): Record -> Option<DiscoveredTest>
  {
    record => ParseDiscoveredTest(st, ops, record, workingDirectory)
  }

  /** `parse_discovery`: the output split into lines, each kept record parsed and appended; `None` on a KeyError. */
  method ParseDiscovery(st: Settings, ops: Common.PathOps, loads: Loads, output: string, workingDirectory: string)
    returns (r: Option<seq<DiscoveredTest>>)
    ensures r == TryMap(DiscoveryRecords(Split(output, "\n"), loads), RecordParser(st, ops, workingDirectory))
  {
    var lines := Split(output, "\n");
    var f := RecordParser(st, ops, workingDirectory);
    var tests: seq<DiscoveredTest> := [];
    for i := 0 to |lines|
      invariant TryMap(DiscoveryRecords(lines[..i], loads), f) == Some(tests)
    {
      var line := lines[i];
      DiscoveryRecordsSnoc(lines, i, loads);
      ghost var done := DiscoveryRecords(lines[..i], loads);
      var record := ReadRecord(line, loads);
      if record.None? {
        assert DiscoveryRecords(lines[..i + 1], loads) == done;
        continue;
      }
      var m := record.value;
      assert DiscoveryRecords(lines[..i + 1], loads) == done + [m];
      TryMapSnoc(done, m, f);
      var d := f(m);
      if d.None? {
        DiscoveryFailsFrom(lines, i + 1, loads, f);
        return None;
      }
      tests := tests + [d.value];
      assert TryMap(done + [m], f) == Some(tests);
    }
    assert lines[..|lines|] == lines;
    r := Some(tests);
  }

  // ---------------------------------------------------------------------
  // run
  // ---------------------------------------------------------------------

  const RunFlags := ["test", "--", "--test-threads=1", "--nocapture", "--format=json", "-Z", "unstable-options"]

  /**
   * The command of `run`: cargo, the fixed flags, every test id of the one
   * group `run` accepts, then the framework's arguments and run arguments.
   */
  function RunArgs(cargo: seq<string>, groupedTests: seq<seq<string>>, args: seq<string>, runArgs: seq<string>): (r: seq<string>)
    requires |groupedTests| == 1
    ensures |r| == |cargo| + |RunFlags| + |Flatten(groupedTests)| + |args| + |runArgs|
    ensures r[..|cargo|] == cargo && r[|cargo|..|cargo| + |RunFlags|] == RunFlags
    ensures r[|r| - |args| - |runArgs|..] == args + runArgs
  {
    cargo + RunFlags + Flatten(groupedTests) + args + runArgs
  }

  /** The ids on the command line, between the flags and the extra arguments, are exactly those of the groups, in order. */
  lemma RunArgsCarriesIds(cargo: seq<string>, groupedTests: seq<seq<string>>, args: seq<string>, runArgs: seq<string>, id: string)
    requires |groupedTests| == 1
    ensures var r := RunArgs(cargo, groupedTests, args, runArgs);
            var ids := r[|cargo| + |RunFlags|..|cargo| + |RunFlags| + |Flatten(groupedTests)|];
            && ids == groupedTests[0]
            && (id in ids <==> exists i :: 0 <= i < |groupedTests| && id in groupedTests[i])
  {
    var r := RunArgs(cargo, groupedTests, args, runArgs);
    assert Flatten(groupedTests) == Flatten(groupedTests[..0]) + groupedTests[0];
    assert r[|cargo| + |RunFlags|..|cargo| + |RunFlags| + |Flatten(groupedTests)|] == Flatten(groupedTests);
    FlattenMembers(groupedTests, id);
  }
}

=== FILE: catch2.dfy ===
/**
 * The Catch2 framework: its working directory, and discovery from the XML
 * test listing of each executable.
 */
module Catch2 {
  import opened Wrappers
  import opened Strings
  import opened Events
  import Common
  import Xml

  /** `discover`'s working directory: the suite's directory made absolute under the project root, or the root itself. */
  function WorkingDirectory(cwd: Option<string>, projectRootDir: string): string
  {
    if cwd.Some? then
      if !Common.IsAbs(cwd.value) then Common.Join(projectRootDir, cwd.value) else cwd.value
    else projectRootDir
  }

  /** Catch2's own working-directory rule is the shared one of the frameworks. */
  lemma WorkingDirectoryAgrees(cwd: Option<string>, projectRootDir: string)
    ensures WorkingDirectory(cwd, projectRootDir) == Common.GetWorkingDirectory(cwd, projectRootDir)
    ensures cwd.None? ==> WorkingDirectory(cwd, projectRootDir) == projectRootDir
    ensures cwd.Some? && !Common.IsAbs(cwd.value) ==> StartsWith(WorkingDirectory(cwd, projectRootDir), projectRootDir)
  {
  }

  /** The text of the child with the given tag, when there is such a child and it has text. */
  function ChildText(e: Xml.Element, tag: string): Option<string>
  {
    match Xml.Find(e, tag)
    case None => None
    case Some(c) => c.text
  }

  /** The fields a listed test case must carry: its source file, its line and its name, each with text. */
  predicate Complete(test: Xml.Element) {
    && Xml.Find(test, "SourceInfo").Some?
    && ChildText(Xml.Find(test, "SourceInfo").value, "File").Some?
    && ChildText(Xml.Find(test, "SourceInfo").value, "Line").Some?
    && ParseInt(ChildText(Xml.Find(test, "SourceInfo").value, "Line").value).Some?
    && ChildText(test, "Name").Some?
  }

  /** The segments of a test's path: the normalised executable's, the fixture if any, then the name. */
  function TestFromFields(ops: Common.PathOps, test: Xml.Element, executable: string, projectDirectory: string,
                          fixture: seq<string>): (r: DiscoveredTest)
    requires Complete(test)
    ensures r.fullName == Split(ops.normpath(executable), [ops.sep]) + fixture + [ChildText(test, "Name").value]
    ensures r.suiteId.None? && r.runId.None? && r.reportId.None?
    ensures r.location == TestLocation(None, ops.relpath(ChildText(Xml.Find(test, "SourceInfo").value, "File").value, projectDirectory),
                                       ParseInt(ChildText(Xml.Find(test, "SourceInfo").value, "Line").value).value)
  {
    var location := Xml.Find(test, "SourceInfo").value;
    var file := ops.relpath(ChildText(location, "File").value, projectDirectory);
    var line := ParseInt(ChildText(location, "Line").value).value;
    var path := Split(ops.normpath(executable), [ops.sep]) + fixture + [ChildText(test, "Name").value];
    DiscoveredTest(path, None, None, None, TestLocation(None, file, line))
  }

  /**
   * `parse_discovered_test` as written: the fixture is appended when
   * `fixture and fixture.text` holds, and an ElementTree element is true
   * only when it has subelements, so a `ClassName` holding just text never
   * is. `None` where an asserted field is missing or the line is not an integer.
   */
  function ParseDiscoveredTestAsWritten(ops: Common.PathOps, test: Xml.Element, executable: string, projectDirectory: string)
    : (r: Option<DiscoveredTest>)
    ensures r.Some? <==> Complete(test)
  {
    if !Complete(test) then None
    else
      var fixture := Xml.Find(test, "ClassName");
      var segment := if fixture.Some? && Xml.Truthy(fixture.value) && fixture.value.text.Some? && fixture.value.text.value != ""
                     then [fixture.value.text.value] else [];
      Some(TestFromFields(ops, test, executable, projectDirectory, segment))
  }

  /**
   * `parse_discovered_test` as evidently intended: the fixture is appended
   * whenever a `ClassName` child exists with non-empty text.
   */
  function ParseDiscoveredTest(ops: Common.PathOps, test: Xml.Element, executable: string, projectDirectory: string)
    : (r: Option<DiscoveredTest>)
    ensures r.Some? <==> Complete(test)
    ensures r.Some? ==>
              var path := r.value.fullName;
              var exe := Split(ops.normpath(executable), [ops.sep]);
              var fixture := ChildText(test, "ClassName");
              var hasFixture := fixture.Some? && fixture.value != "";
              && |path| == |exe| + (if hasFixture then 2 else 1)
              && path[..|exe|] == exe
              && path[|path| - 1] == ChildText(test, "Name").value
              && (hasFixture ==> path[|path| - 2] == fixture.value)
              && r.value.suiteId.None? && r.value.runId.None? && r.value.reportId.None?
              && r.value.location == TestLocation(None, ops.relpath(ChildText(Xml.Find(test, "SourceInfo").value, "File").value, projectDirectory),
                                                  ParseInt(ChildText(Xml.Find(test, "SourceInfo").value, "Line").value).value)
  {
    if !Complete(test) then None
    else
      var fixture := ChildText(test, "ClassName");
      var segment := if fixture.Some? && fixture.value != "" then [fixture.value] else [];
      Some(TestFromFields(ops, test, executable, projectDirectory, segment))
  }

  /** A test case whose fixture is given as text only. */
  const FixtureCase := Xml.Element("TestCase", map[], None, [
    Xml.Element("Name", map[], Some("adds"), []),
    Xml.Element("ClassName", map[], Some("Calculator"), []),
    Xml.Element("SourceInfo", map[], None, [
      Xml.Element("File", map[], Some("calc.cpp"), []),
      Xml.Element("Line", map[], Some("12"), [])])])

  /** As written, the fixture of `FixtureCase` is lost: its path is the executable's segments and the name. */
  lemma FixtureDropped(ops: Common.PathOps, executable: string, projectDirectory: string)
    ensures var r := ParseDiscoveredTestAsWritten(ops, FixtureCase, executable, projectDirectory);
            r.Some? && r.value.fullName == Split(ops.normpath(executable), [ops.sep]) + ["adds"]
  {
    FixtureCaseComplete();
    TextOnlyFixtureDropped(ops, FixtureCase, executable, projectDirectory, "adds");
  }

  /** As intended, the same test case keeps its fixture before the name. */
  lemma FixtureCaseKept(ops: Common.PathOps, executable: string, projectDirectory: string)
    ensures var r := ParseDiscoveredTest(ops, FixtureCase, executable, projectDirectory);
            r.Some? && r.value.fullName == Split(ops.normpath(executable), [ops.sep]) + ["Calculator", "adds"]
  {
    FixtureCaseComplete();
    FixtureKept(ops, FixtureCase, executable, projectDirectory, "Calculator", "adds");
  }

  /** As written, a fixture element without subelements never contributes a segment. */
  lemma TextOnlyFixtureDropped(ops: Common.PathOps, test: Xml.Element, executable: string, projectDirectory: string,
                               name: string)
    requires Complete(test) && ChildText(test, "Name") == Some(name)
    requires Xml.Find(test, "ClassName").Some? ==> !Xml.Truthy(Xml.Find(test, "ClassName").value)
    ensures var r := ParseDiscoveredTestAsWritten(ops, test, executable, projectDirectory);
            r.Some? && r.value.fullName == Split(ops.normpath(executable), [ops.sep]) + [name]
  {
    var fixture := Xml.Find(test, "ClassName");
    assert !(fixture.Some? && Xml.Truthy(fixture.value));
    var written := TestFromFields(ops, test, executable, projectDirectory, []);
    assert ParseDiscoveredTestAsWritten(ops, test, executable, projectDirectory) == Some(written);
    assert Split(ops.normpath(executable), [ops.sep]) + [] + [name] == Split(ops.normpath(executable), [ops.sep]) + [name];
  }

  /** As intended, a fixture with non-empty text is the segment before the name. */
  lemma FixtureKept(ops: Common.PathOps, test: Xml.Element, executable: string, projectDirectory: string,
                    fixture: string, name: string)
    requires Complete(test) && ChildText(test, "Name") == Some(name)
    requires ChildText(test, "ClassName") == Some(fixture) && fixture != ""
    ensures var r := ParseDiscoveredTest(ops, test, executable, projectDirectory);
            r.Some? && r.value.fullName == Split(ops.normpath(executable), [ops.sep]) + [fixture, name]
  {
    var intended := TestFromFields(ops, test, executable, projectDirectory, [fixture]);
    assert ParseDiscoveredTest(ops, test, executable, projectDirectory) == Some(intended);
    assert Split(ops.normpath(executable), [ops.sep]) + [fixture] + [name] == Split(ops.normpath(executable), [ops.sep]) + [fixture, name];
  }

  /** `FixtureCase` carries every asserted field, a text-only fixture and the line 12. */
  lemma FixtureCaseComplete()
    ensures Complete(FixtureCase)
    ensures ChildText(FixtureCase, "ClassName") == Some("Calculator")
    ensures ChildText(FixtureCase, "Name") == Some("adds")
    ensures Xml.Find(FixtureCase, "ClassName").Some? && !Xml.Truthy(Xml.Find(FixtureCase, "ClassName").value)
  {
    var children := FixtureCase.children;
    assert Xml.Find(FixtureCase, "Name") == Some(children[0]);
    assert Xml.Find(FixtureCase, "ClassName") == Some(children[1]);
    assert Xml.Find(FixtureCase, "SourceInfo") == Some(children[2]);
    var location := children[2];
    assert Xml.Find(location, "File") == Some(location.children[0]);
    assert Xml.Find(location, "Line") == Some(location.children[1]);
    assert IntToString(12) == "12" by {
      assert NatToString(12) == NatToString(1) + [DigitChar(2)];
    }
    ParseIntRoundTrip(12);
  }

  function TestParser(ops: Common.PathOps, executable: string, projectDirectory: string): Xml.Element -> Option<DiscoveredTest>
  {
    t => ParseDiscoveredTest(ops, t, executable, projectDirectory)
  }

  /** `parse_discovery`: each `TestCase` child of the listing's root, parsed in order; other tags are skipped. */
  method ParseDiscovery(ops: Common.PathOps, root: Xml.Element, executable: string, projectDirectory: string)
    returns (r: Option<seq<DiscoveredTest>>)
    ensures r == TryMap(Xml.Tagged(root.children, "TestCase"), TestParser(ops, executable, projectDirectory))
  {
    var f := TestParser(ops, executable, projectDirectory);
    var tests: seq<DiscoveredTest> := [];
    for i := 0 to |root.children|
      invariant TryMap(Xml.Tagged(root.children[..i], "TestCase"), f) == Some(tests)
    {
      var t := root.children[i];
      if t.tag == "TestCase" {
        var d := f(t);
        if d.None? {
          Xml.TaggedFailsAt(root.children, i, "TestCase", f);
          return None;
        }
        Xml.TaggedGrows(root.children, i, "TestCase", f, tests);
        tests := tests + [d.value];
      } else {
        Xml.TaggedGrows(root.children, i, "TestCase", f, tests);
      }
    }
    assert root.children[..|root.children|] == root.children;
    r := Some(tests);
  }

  /** The listing yields one test per `TestCase` child, in order, and nothing for other tags; or fails as a whole. */
  lemma DiscoveryShape(ops: Common.PathOps, root: Xml.Element, executable: string, projectDirectory: string)
    ensures var cases := Xml.Tagged(root.children, "TestCase");
            var r := TryMap(cases, TestParser(ops, executable, projectDirectory));
            && (r.Some? <==> forall k :: 0 <= k < |cases| ==> Complete(cases[k]))
            && (r.Some? ==> |r.value| == |cases|
                            && forall k :: 0 <= k < |cases| ==>
                                 ParseDiscoveredTest(ops, cases[k], executable, projectDirectory) == Some(r.value[k]))
            && (forall e :: e in cases <==> e in root.children && e.tag == "TestCase")
  {
    var cases := Xml.Tagged(root.children, "TestCase");
    TryMapShape(cases, TestParser(ops, executable, projectDirectory));
    Xml.TaggedMembers(root.children, "TestCase");
  }

  const ERRORS_MESSAGE := "Error when discovering tests. See panel for more information"

  /**
   * `discover`: the executables the pattern names, each listed in turn by
   * running it with `-r xml --list-tests` and the suite's arguments;
   * `runDiscovery` gives what running and parsing that command line for an
   * executable ends with, and the errors are raised together at the end.
   */
  method Discover(pattern: string, args: seq<string>, glob: string -> seq<string>,
                  runDiscovery: (string, seq<string>) -> Discovery) returns (r: Discovery)
    ensures var exes := Executables(pattern, glob);
            r == Aggregated(seq(|exes|, k requires 0 <= k < |exes| =>
                                  runDiscovery(exes[k], [exes[k], "-r", "xml", "--list-tests"] + args)),
                            ERRORS_MESSAGE)
  {
    var executables := Executables(pattern, glob);
    var listTests := exe => runDiscovery(exe, [exe, "-r", "xml", "--list-tests"] + args);
    r := DiscoverAll(executables, listTests, ERRORS_MESSAGE);
    assert seq(|executables|, k requires 0 <= k < |executables| => listTests(executables[k]))
        == seq(|executables|, k requires 0 <= k < |executables| =>
                 runDiscovery(executables[k], [executables[k], "-r", "xml", "--list-tests"] + args));
  }
}

=== FILE: cmd.dfy ===
/** `Cmd.cmd_lines`, the one caller `cmd.py` adds to the shared runner. */
module Cmd {
  import opened Wrappers
  import opened Strings
  import Jobs

  /**
   * `cmd_lines`: the checked stdout split on newlines; without captured
   * stdout, calling `split` on `None` raises.
   */
  function CmdLines(command: seq<string>, ignoreErrors: bool, successCodes: seq<int>,
                    run: Result<Jobs.Outputs, Jobs.Exception>)
    : (r: Result<seq<string>, Jobs.Exception>)
    ensures Jobs.CheckedStdout(command, ignoreErrors, successCodes, run).Err? ==>
              r == Err(Jobs.CheckedStdout(command, ignoreErrors, successCodes, run).error)
    ensures r.Ok? ==> run.Ok? && run.value.stdout.Some?
    ensures Jobs.CheckedStdout(command, ignoreErrors, successCodes, run).Ok? ==>
              (r.Ok? <==> Jobs.CheckedStdout(command, ignoreErrors, successCodes, run).value.Some?)
    ensures run.Ok? && run.value.stdout.Some? && (ignoreErrors || !Jobs.Failing(run.value.code, successCodes)) ==>
              r.Ok?
  {
    match Jobs.CheckedStdout(command, ignoreErrors, successCodes, run)
    case Err(e) => Err(e)
    case Ok(stdout) =>
      if stdout.None? then Err(Jobs.Exception(Jobs.OtherKind, "'NoneType' object has no attribute 'split'"))
      else Ok(Split(stdout.value, "\n"))
  }

  /**
   * The lines have one element more than stdout has newlines, none of
   * them holds a newline, and joining them with newlines gives stdout back.
   */
  lemma CmdLinesMeaning(command: seq<string>, ignoreErrors: bool, successCodes: seq<int>,
                        run: Result<Jobs.Outputs, Jobs.Exception>)
    requires CmdLines(command, ignoreErrors, successCodes, run).Ok?
    ensures var lines := CmdLines(command, ignoreErrors, successCodes, run).value;
            var stdout := run.value.stdout.value;
            && |lines| == Count(stdout, '\n') + 1
            && (forall k :: 0 <= k < |lines| ==> '\n' !in lines[k])
            && Join(lines, "\n") == stdout
  {
    var stdout := run.value.stdout.value;
    SplitCharCount(stdout, '\n');
    SplitCharPiecesFree(stdout, '\n');
    JoinSplit(stdout, "\n");
  }
}

=== FILE: common.dfy ===
/**
 * Path helpers shared by the frameworks. Paths follow POSIX rules
 * (`posixpath.isabs`, `posixpath.join`); the normalisation and relative-path
 * functions of the operating system stay abstract.
 */
module Common {
  import opened Wrappers
  import opened Strings

  /** `os.path.isabs`: the path starts with a slash. */
  predicate IsAbs(p: string) {
    |p| > 0 && p[0] == '/'
  }

  /** `os.path.join(a, b)`: an absolute `b` replaces `a`; otherwise one slash goes between them unless `a` is empty or ends with one. */
  function Join(a: string, b: string): (r: string)
    ensures IsAbs(b) ==> r == b
    ensures !IsAbs(b) ==> StartsWith(r, a) && |b| <= |r| && r[|r| - |b|..] == b
  {
    if IsAbs(b) then b
    else if |a| == 0 || a[|a| - 1] == '/' then a + b
    else a + "/" + b
  }

  /** The operating-system path functions the frameworks call, left abstract. */
  datatype PathOps = PathOps(
    sep: char,
    normpath: string -> string,
    relpath: (string, string) -> string,
    basename: string -> string)

  /**
   * `get_working_directory`: the project root without a user directory, an
   * absolute user directory as it is, a relative one under the root.
   */
  function GetWorkingDirectory(userCwd: Option<string>, projectRootDir: string): (r: string)
    ensures userCwd.None? ==> r == projectRootDir
    ensures userCwd.Some? && IsAbs(userCwd.value) ==> r == userCwd.value
    ensures userCwd.Some? && !IsAbs(userCwd.value) ==> r == Join(projectRootDir, userCwd.value)
  {
    match userCwd
    case None => projectRootDir
    case Some(cwd) => if !IsAbs(cwd) then Join(projectRootDir, cwd) else cwd
  }

  /** `make_executable_path`: relative executables are resolved under the project root. */
  function MakeExecutablePath(executable: string, projectRootDir: string): string
  {
    if !IsAbs(executable) then Join(projectRootDir, executable) else executable
  }

  /** With an absolute project root every working directory is absolute, and a relative one lies under the root. */
  lemma WorkingDirectoryUnderRoot(userCwd: Option<string>, projectRootDir: string)
    requires IsAbs(projectRootDir)
    ensures IsAbs(GetWorkingDirectory(userCwd, projectRootDir))
    ensures userCwd.Some? && !IsAbs(userCwd.value) ==> StartsWith(GetWorkingDirectory(userCwd, projectRootDir), projectRootDir)
  {
  }

  /**
   * With an absolute project root, the resolved executable is absolute,
   * ends with the given path, and resolving it again changes nothing; a
   * relative executable is joined under the root, an absolute one kept.
   */
  lemma MakeExecutablePathResolves(executable: string, projectRootDir: string)
    requires IsAbs(projectRootDir)
    ensures var r := MakeExecutablePath(executable, projectRootDir);
            && IsAbs(r)
            && |executable| <= |r| && r[|r| - |executable|..] == executable
            && MakeExecutablePath(r, projectRootDir) == r
            && (IsAbs(executable) ==> r == executable)
            && (!IsAbs(executable) ==> r == Join(projectRootDir, executable) && StartsWith(r, projectRootDir))
  {
    var r := MakeExecutablePath(executable, projectRootDir);
    if !IsAbs(executable) {
      assert r[0] == projectRootDir[0];
    }
  }
}

=== FILE: doctest_cpp.dfy ===
/**
 * The doctest C++ framework: a decoder driven by the start and end events
 * of doctest's XML reporter, the discovery of test cases from the XML test
 * listing, and the escaping of test ids into doctest's `-tc=` filter.
 */
module DoctestCpp {
  import opened Wrappers
  import opened Strings
  import opened Events
  import Common
  import Xml

  /** The attributes of an XML start event. */
  type Attrs = map<string, string>

  /** One XML event as the SAX stream handler delivers it. */
  datatype XmlEvent =
    | StartElement(name: string, attrs: Attrs)
    | EndElement(name: string, content: string)
    | Characters(content: string)

  /** The list of test ids the run was started for, the report index, the framework id and the executable. */
  datatype Scope = Scope(index: ReportIndex, framework: string, executable: string, testIds: seq<string>)

  /** Every field of the decoder that its handlers read or write. */
  datatype State = State(
    currentTest: Option<Path>,
    hasOutput: bool,
    currentExpression: Option<Attrs>,
    currentSections: seq<Attrs>,
    currentInfos: seq<string>,
    currentException: Option<Attrs>,
    lastExpressionContent: map<string, string>)

  const Initial := State(None, false, None, [], [], None, map[])

  /** The new state, the events emitted, and whether the handler raised (a missing key, a pop of an empty list). */
  datatype Step = Step(state: State, events: seq<Event>, raised: bool)

  // ---------------------------------------------------------------------
  // Report texts
  // ---------------------------------------------------------------------

  /** 64 dashes and a newline, around every report. */
  const Separator := Repeat('-', 64) + "\n"

  /** One `  in subcase "<name>"` line per open subcase, outermost first; `None` where a subcase has no name. */
  function SubcaseLines(sections: seq<Attrs>): (r: Option<string>)
    decreases |sections|
    ensures r.Some? <==> forall k :: 0 <= k < |sections| ==> "name" in sections[k]
  {
    if |sections| == 0 then Some("")
    else
      var init := sections[..|sections| - 1];
      var last := sections[|sections| - 1];
      assert forall k :: 0 <= k < |init| ==> init[k] == sections[k];
      match SubcaseLines(init)
      case None => None
      case Some(text) =>
        if "name" in last then Some(text + "  in subcase \"" + last["name"] + "\"\n") else None
  }

  /** One `  with "<info>"` line per pending info text. */
  function InfoLines(infos: seq<string>): string
    decreases |infos|
  {
    if |infos| == 0 then "" else InfoLines(infos[..|infos| - 1]) + "  with \"" + infos[|infos| - 1] + "\"\n"
  }

  /** The info lines of two runs of infos are those of the first, then those of the second. */
  lemma {:induction false} InfoLinesAppend(a: seq<string>, b: seq<string>)
    ensures InfoLines(a + b) == InfoLines(a) + InfoLines(b)
    decreases |b|
  {
    if |b| == 0 {
      assert a + b == a;
    } else {
      var b' := b[..|b| - 1];
      assert (a + b)[..|a + b| - 1] == a + b';
      InfoLinesAppend(a, b');
    }
  }

  /** The subcase lines of nested sections are those of the outer ones, then those of the inner ones. */
  lemma {:induction false} SubcaseLinesAppend(outer: seq<Attrs>, inner: seq<Attrs>)
    requires SubcaseLines(outer + inner).Some?
    ensures SubcaseLines(outer).Some? && SubcaseLines(inner).Some?
    ensures SubcaseLines(outer + inner).value == SubcaseLines(outer).value + SubcaseLines(inner).value
    decreases |inner|
  {
    var all := outer + inner;
    if |inner| == 0 {
      assert all == outer;
    } else {
      var inner' := inner[..|inner| - 1];
      var last := inner[|inner| - 1];
      assert all[..|all| - 1] == outer + inner';
      assert all[|all| - 1] == last;
      SubcaseLinesAppend(outer, inner');
      var text := SubcaseLines(outer + inner').value;
      assert SubcaseLines(all) == Some(text + "  in subcase \"" + last["name"] + "\"\n");
      assert SubcaseLines(inner) == Some(SubcaseLines(inner').value + "  in subcase \"" + last["name"] + "\"\n");
    }
  }

  /** `content.get(key, '')`. */
  function Get(content: map<string, string>, key: string): string
  {
    if key in content then content[key] else ""
  }

  /** `FAILED` exactly when the expression's `success` attribute is `false`. */
  function ExpressionVerdict(expression: Attrs): string
    requires "success" in expression
  {
    if expression["success"] == "false" then "FAILED" else "PASSED"
  }

  /**
   * The text reported for a finished `Expression`: verdict, location,
   * subcases and infos, the expected and the actual expression. `None`
   * where an attribute it reads is missing.
   */
  function ExpressionReport(expression: Attrs, s: State): (r: Option<string>)
    ensures r.Some? <==> && "filename" in expression && "line" in expression && "success" in expression
                         && "type" in expression && SubcaseLines(s.currentSections).Some?
    ensures r.Some? ==>
              && StartsWith(r.value, Separator + ExpressionVerdict(expression) + "\n  at "
                                     + expression["filename"] + ":" + expression["line"] + "\n")
              && EndsWith(r.value, "Actual:   " + Get(s.lastExpressionContent, "Expanded") + "\n" + Separator)
              && r.value == (Separator + ExpressionVerdict(expression) + "\n"
                             + "  at " + expression["filename"] + ":" + expression["line"] + "\n")
                            + (SubcaseLines(s.currentSections).value + InfoLines(s.currentInfos) + "\n"
                               + "Expected: " + expression["type"] + "(" + Get(s.lastExpressionContent, "Original") + ")\n")
                            + ("Actual:   " + Get(s.lastExpressionContent, "Expanded") + "\n" + Separator)
  {
    if "filename" !in expression || "line" !in expression || "success" !in expression || "type" !in expression then None
    else match SubcaseLines(s.currentSections)
      case None => None
      case Some(subcases) =>
        var original := Get(s.lastExpressionContent, "Original");
        var expanded := Get(s.lastExpressionContent, "Expanded");
        var head := Separator + ExpressionVerdict(expression) + "\n"
                    + "  at " + expression["filename"] + ":" + expression["line"] + "\n";
        var middle := subcases + InfoLines(s.currentInfos) + "\n"
                      + "Expected: " + expression["type"] + "(" + original + ")\n";
        var tail := "Actual:   " + expanded + "\n" + Separator;
        Framed(head, middle, tail);
        Some(head + middle + tail)
  }

  /** `EXCEPTION` when the exception's `crash` attribute is `false`, otherwise `CRASH`. */
  function ExceptionVerdict(exception: Attrs): string
    requires "crash" in exception
  {
    if exception["crash"] == "false" then "EXCEPTION" else "CRASH"
  }

  /** The text reported for a finished `Exception`: verdict, subcases, infos and the stripped message. */
  function ExceptionReport(exception: Attrs, s: State, content: string): (r: Option<string>)
    ensures r.Some? <==> "crash" in exception && SubcaseLines(s.currentSections).Some?
    ensures r.Some? ==>
              && StartsWith(r.value, Separator + ExceptionVerdict(exception) + "\n")
              && EndsWith(r.value, Strip(content) + "\n" + Separator)
              && r.value == (Separator + ExceptionVerdict(exception) + "\n")
                            + (SubcaseLines(s.currentSections).value + InfoLines(s.currentInfos))
                            + (Strip(content) + "\n" + Separator)
  {
    if "crash" !in exception then None
    else match SubcaseLines(s.currentSections)
      case None => None
      case Some(subcases) =>
        var head := Separator + ExceptionVerdict(exception) + "\n";
        var tail := Strip(content) + "\n" + Separator;
        var middle := subcases + InfoLines(s.currentInfos);
        Framed(head, middle, tail);
        Some(head + middle + tail)
  }

  /** The two verdicts of an expression report can never be confused. */
  lemma ExpressionVerdictDecides(expression: Attrs, s: State)
    requires ExpressionReport(expression, s).Some?
    ensures StartsWith(ExpressionReport(expression, s).value, Separator + "FAILED\n")
            <==> expression["success"] == "false"
  {
    var r := ExpressionReport(expression, s).value;
    var n := |Separator|;
    var verdict := ExpressionVerdict(expression);
    var head := Separator + verdict + "\n";
    assert StartsWith(r, head);
    assert r[..n + 7] == head[..n + 7] == Separator + verdict + "\n";
    assert r[n] == head[n] == verdict[0];
    assert (Separator + "FAILED\n")[n] == 'F';
  }

  // ---------------------------------------------------------------------
  // Handlers
  // ---------------------------------------------------------------------

  /** `startElement`. */
  function StartStep(sc: Scope, s: State, name: string, attrs: Attrs): Step
  {
    if name == "TestCase" then
      if "name" !in attrs then Step(s, [], true)
      else if attrs["name"] !in sc.testIds then Step(s, [], false)
      else match FindTestByReportId(sc.index, sc.framework, sc.executable, attrs["name"])
        case None => Step(s.(currentTest := None), [], false)
        case Some(p) =>
          if "skipped" in attrs && attrs["skipped"] == "true"
          then Step(s.(currentTest := None), [Started(p), Finished(p, Skipped)], false)
          else Step(s.(currentTest := Some(p)), [Started(p)], false)
    else if name == "OverallResultsAsserts" then
      if s.currentTest.None? then Step(s, [], false)
      else
        var status := if "test_case_success" in attrs && attrs["test_case_success"] == "true" then Passed else Failed;
        Step(s.(currentTest := None, hasOutput := false), [Finished(s.currentTest.value, status)], false)
    else if name == "Expression" then Step(s.(currentExpression := Some(attrs)), [], false)
    else if name == "Exception" then Step(s.(currentException := Some(attrs)), [], false)
    else if name == "SubCase" then Step(s.(currentSections := s.currentSections + [attrs]), [], false)
    else Step(s, [], false)
  }

  /** `endElement`. */
  function EndStep(s: State, name: string, content: string): Step
  {
    if name == "Original" || name == "Expanded" then
      Step(s.(lastExpressionContent := s.lastExpressionContent[name := Strip(content)]), [], false)
    else if name == "Expression" then
      if s.currentTest.None? || s.currentExpression.None? then Step(s, [], false)
      else match ExpressionReport(s.currentExpression.value, s)
        case None => Step(s, [], true)
        case Some(text) =>
          Step(s.(hasOutput := true, currentExpression := None, currentInfos := [], lastExpressionContent := map[]),
               [Output(s.currentTest.value, text)], false)
    else if name == "Exception" then
      if s.currentTest.None? || s.currentException.None? then Step(s, [], false)
      else match ExceptionReport(s.currentException.value, s, content)
        case None => Step(s, [], true)
        case Some(text) =>
          Step(s.(hasOutput := true, currentException := None, currentInfos := []),
               [Output(s.currentTest.value, text)], false)
    else if name == "SubCase" then
      if |s.currentSections| == 0 then Step(s, [], true)
      else Step(s.(currentSections := s.currentSections[..|s.currentSections| - 1]), [], false)
    else if name == "Info" then Step(s.(currentInfos := s.currentInfos + [Strip(content)]), [], false)
    else Step(s, [], false)
  }

  /** `output`: free text goes to the current test, if any. */
  function OutputStep(s: State, content: string): Step
  {
    Step(s, if s.currentTest.Some? then [Output(s.currentTest.value, content)] else [], false)
  }

  function Apply(sc: Scope, s: State, ev: XmlEvent): Step
  {
    match ev
    case StartElement(name, attrs) => StartStep(sc, s, name, attrs)
    case EndElement(name, content) => EndStep(s, name, content)
    case Characters(content) => OutputStep(s, content)
  }

  /** Items handled one after the other by `step`, each from the state the previous ones left; events are appended. */
  function Fold<X>(step: (State, X) -> Step, s: State, xs: seq<X>): Step
    decreases |xs|
  {
    if |xs| == 0 then Step(s, [], false)
    else
      var r := Fold(step, s, xs[..|xs| - 1]);
      var t := step(r.state, xs[|xs| - 1]);
      Step(t.state, r.events + t.events, r.raised || t.raised)
  }

  /** The SAX handler as a step function. */
  function Handler(sc: Scope): (State, XmlEvent) -> Step {
    (st: State, ev: XmlEvent) => Apply(sc, st, ev)
  }

  /** A stream of events, each handled in turn; a handler that raises does not stop the stream. */
  function Run(sc: Scope, s: State, evs: seq<XmlEvent>): Step {
    Fold(Handler(sc), s, evs)
  }

  /** One more event: handled from the state the events before it leave. */
  lemma RunSnoc(sc: Scope, s: State, evs: seq<XmlEvent>)
    requires |evs| > 0
    ensures Run(sc, s, evs).state == Apply(sc, Run(sc, s, evs[..|evs| - 1]).state, evs[|evs| - 1]).state
  {
  }

  // ---------------------------------------------------------------------
  // Properties of the handlers
  // ---------------------------------------------------------------------

  /** A `TestCase` that the run was not started for produces nothing and changes nothing. */
  lemma UnlistedTestCaseIgnored(sc: Scope, s: State, attrs: Attrs)
    requires "name" in attrs && attrs["name"] !in sc.testIds
    ensures StartStep(sc, s, "TestCase", attrs) == Step(s, [], false)
  {
  }

  /**
   * A listed `TestCase` found in the index is started; marked skipped, it is
   * at once finished SKIPPED and nothing is left current.
   */
  lemma ResolvedTestCase(sc: Scope, s: State, attrs: Attrs)
    requires "name" in attrs && attrs["name"] in sc.testIds
    requires (sc.framework, sc.executable, attrs["name"]) in sc.index
    ensures var p := sc.index[(sc.framework, sc.executable, attrs["name"])];
            var r := StartStep(sc, s, "TestCase", attrs);
            && !r.raised && |r.events| >= 1 && r.events[0] == Started(p)
            && ("skipped" in attrs && attrs["skipped"] == "true"
                ==> r.events == [Started(p), Finished(p, Skipped)] && r.state.currentTest.None?)
            && (!("skipped" in attrs && attrs["skipped"] == "true")
                ==> r.events == [Started(p)] && r.state.currentTest == Some(p))
  {
  }

  /** The overall results finish the current test PASSED exactly when `test_case_success` is `true`, then clear it. */
  lemma OverallResultsFinish(sc: Scope, s: State, attrs: Attrs)
    ensures var r := StartStep(sc, s, "OverallResultsAsserts", attrs);
            && !r.raised && r.state.currentTest.None?
            && (s.currentTest.None? ==> r == Step(s, [], false))
            && (s.currentTest.Some? ==>
                  && |r.events| == 1 && r.events[0].Finished? && r.events[0].path == s.currentTest.value
                  && (r.events[0].status == Passed <==> "test_case_success" in attrs && attrs["test_case_success"] == "true")
                  && (r.events[0].status == Passed || r.events[0].status == Failed))
  {
  }

  /** Info texts accumulate, stripped, until an expression or exception report takes and clears them. */
  lemma InfosAccumulateAndClear(s: State, name: string, content: string)
    ensures name == "Info" ==> EndStep(s, name, content).state.currentInfos == s.currentInfos + [Strip(content)]
    ensures (name == "Expression" || name == "Exception") && |EndStep(s, name, content).events| > 0
            ==> EndStep(s, name, content).state.currentInfos == []
  {
  }

  /**
   * An expression report goes out only with a current test and a pending
   * expression; it is one output to that test, and the pending expression,
   * infos and captured contents are gone afterwards.
   */
  lemma ExpressionReported(s: State, content: string)
    ensures var r := EndStep(s, "Expression", content);
            && (|r.events| > 0 ==> s.currentTest.Some? && s.currentExpression.Some?)
            && (|r.events| > 0 ==>
                  && r.events == [Output(s.currentTest.value, ExpressionReport(s.currentExpression.value, s).value)]
                  && r.state.currentExpression.None? && r.state.currentInfos == []
                  && r.state.lastExpressionContent == map[] && r.state.hasOutput)
            && (s.currentTest.Some? && s.currentExpression.Some? && !r.raised ==> |r.events| == 1)
  {
  }

  /** Free text is forwarded only while a test is current. */
  lemma OutputForwardedWhileCurrent(s: State, content: string)
    ensures OutputStep(s, content).events == [] <==> s.currentTest.None?
    ensures s.currentTest.Some? ==> OutputStep(s, content).events == [Output(s.currentTest.value, content)]
  {
  }

  /** The subcase stack: pushed by a `SubCase` start, popped by its end, untouched by every other event. */
  lemma SectionsStep(sc: Scope, s: State, ev: XmlEvent)
    ensures var sections := Apply(sc, s, ev).state.currentSections;
            && (ev.StartElement? && ev.name == "SubCase" ==> sections == s.currentSections + [ev.attrs])
            && (ev.EndElement? && ev.name == "SubCase" && |s.currentSections| > 0
                ==> sections == s.currentSections[..|s.currentSections| - 1])
            && (!((ev.StartElement? || ev.EndElement?) && ev.name == "SubCase") ==> sections == s.currentSections)
  {
    match ev
    case StartElement(name, attrs) => StartSections(sc, s, name, attrs);
    case EndElement(name, content) => EndSections(s, name, content);
    case Characters(_) =>
  }

  lemma StartSections(sc: Scope, s: State, name: string, attrs: Attrs)
    ensures StartStep(sc, s, name, attrs).state.currentSections
            == if name == "SubCase" then s.currentSections + [attrs] else s.currentSections
  {
    if name == "TestCase" && "name" in attrs && attrs["name"] in sc.testIds {
      match FindTestByReportId(sc.index, sc.framework, sc.executable, attrs["name"])
      case None =>
      case Some(p) =>
    }
  }

  lemma EndSections(s: State, name: string, content: string)
    ensures var sections := EndStep(s, name, content).state.currentSections;
            && (name == "SubCase" && |s.currentSections| > 0 ==> sections == s.currentSections[..|s.currentSections| - 1])
            && (name != "SubCase" ==> sections == s.currentSections)
  {
    if name == "Expression" && s.currentTest.Some? && s.currentExpression.Some? {
      match ExpressionReport(s.currentExpression.value, s)
      case None =>
      case Some(_) =>
    } else if name == "Exception" && s.currentTest.Some? && s.currentException.Some? {
      match ExceptionReport(s.currentException.value, s, content)
      case None =>
      case Some(_) =>
    }
  }

  /** Opened minus closed `SubCase` elements. */
  function Depth(evs: seq<XmlEvent>): int
    decreases |evs|
  {
    if |evs| == 0 then 0
    else
      var last := evs[|evs| - 1];
      Depth(evs[..|evs| - 1])
      + (if last.StartElement? && last.name == "SubCase" then 1
         else if last.EndElement? && last.name == "SubCase" then -1
         else 0)
  }

  /** No prefix closes more subcases than it opened. */
  predicate WellNested(evs: seq<XmlEvent>) {
    forall k :: 0 <= k <= |evs| ==> Depth(evs[..k]) >= 0
  }

  /** The attributes of the subcases still open after the events, outermost first. */
  function OpenSubCases(evs: seq<XmlEvent>): seq<Attrs>
    decreases |evs|
  {
    if |evs| == 0 then []
    else
      var last := evs[|evs| - 1];
      var open := OpenSubCases(evs[..|evs| - 1]);
      if last.StartElement? && last.name == "SubCase" then open + [last.attrs]
      else if last.EndElement? && last.name == "SubCase" && |open| > 0 then open[..|open| - 1]
      else open
  }

  /**
   * `current_sections` follows the XML nesting: after a well-nested stream it
   * is the sections held before, followed by the subcases the stream left open.
   */
  lemma {:induction false} SectionsFollowNesting(sc: Scope, s: State, evs: seq<XmlEvent>)
    requires WellNested(evs)
    ensures Run(sc, s, evs).state.currentSections == s.currentSections + OpenSubCases(evs)
    ensures |OpenSubCases(evs)| == Depth(evs)
    decreases |evs|
  {
    if |evs| > 0 {
      var init := evs[..|evs| - 1];
      forall k | 0 <= k <= |init| ensures Depth(init[..k]) >= 0 {
        assert init[..k] == evs[..k];
      }
      SectionsFollowNesting(sc, s, init);
      assert evs[..|evs|] == evs;
      RunSnoc(sc, s, evs);
      SectionsStep(sc, Run(sc, s, init).state, evs[|evs| - 1]);
    }
  }

  /** Handling two streams one after the other is handling their concatenation. */
  lemma {:induction false} FoldAppend<X>(step: (State, X) -> Step, s: State, a: seq<X>, b: seq<X>)
    ensures Fold(step, s, a + b).state == Fold(step, Fold(step, s, a).state, b).state
    decreases |b|
  {
    if |b| == 0 {
      assert a + b == a;
    } else {
      assert (a + b)[..|a + b| - 1] == a + b[..|b| - 1];
      assert (a + b)[|a + b| - 1] == b[|b| - 1];
      FoldAppend(step, s, a, b[..|b| - 1]);
    }
  }

  /** Handling two streams one after the other is handling their concatenation. */
  lemma RunAppend(sc: Scope, s: State, a: seq<XmlEvent>, b: seq<XmlEvent>)
    ensures Run(sc, s, a + b).state == Run(sc, Run(sc, s, a).state, b).state
  {
    FoldAppend(Handler(sc), s, a, b);
  }

  /**
   * A `SubCase` element around a well-nested body: inside it, its attributes
   * are the innermost section; after its end, the sections are as before.
   */
  lemma SubCaseBlock(sc: Scope, s: State, a: Attrs, body: seq<XmlEvent>, content: string)
    requires WellNested(body) && Depth(body) == 0
    ensures var inside := Run(sc, s, [StartElement("SubCase", a)] + body).state.currentSections;
            |inside| > 0 && inside[|inside| - 1] == a
    ensures Run(sc, s, [StartElement("SubCase", a)] + body + [EndElement("SubCase", content)]).state.currentSections
            == s.currentSections
  {
    var startEv := [StartElement("SubCase", a)];
    assert startEv[..0] == [];
    SectionsStep(sc, s, StartElement("SubCase", a));
    assert Run(sc, s, startEv[..0]) == Step(s, [], false);
    assert startEv[|startEv| - 1] == StartElement("SubCase", a);
    var s1 := Run(sc, s, startEv).state;
    assert s1 == Apply(sc, s, StartElement("SubCase", a)).state;
    assert s1.currentSections == s.currentSections + [a];
    RunAppend(sc, s, startEv, body);
    SectionsFollowNesting(sc, s1, body);
    var s2 := Run(sc, s, startEv + body).state;
    assert s2.currentSections == s.currentSections + [a];
    RunAppend(sc, s, startEv + body, [EndElement("SubCase", content)]);
    assert [EndElement("SubCase", content)][..0] == [];
    assert (s.currentSections + [a])[..|s.currentSections|] == s.currentSections;
  }

  /** Without a `TestCase` start while a test is open, each event keeps the lifecycle the events follow. */
  lemma ApplyKeepsLifecycle(sc: Scope, s: State, ev: XmlEvent)
    requires s.currentTest.Some? ==> !(ev.StartElement? && ev.name == "TestCase")
    ensures var r := Apply(sc, s, ev); Replay(s.currentTest, r.events) == Some(r.state.currentTest)
  {
    match ev
    case StartElement(name, attrs) => StartKeepsLifecycle(sc, s, name, attrs);
    case EndElement(name, content) => EndKeepsLifecycle(s, name, content);
    case Characters(content) =>
  }

  lemma StartKeepsLifecycle(sc: Scope, s: State, name: string, attrs: Attrs)
    requires s.currentTest.Some? ==> name != "TestCase"
    ensures var r := StartStep(sc, s, name, attrs); Replay(s.currentTest, r.events) == Some(r.state.currentTest)
  {
    if name == "TestCase" {
      var r := StartStep(sc, s, name, attrs);
      if |r.events| == 2 {
        var p := r.events[0].path;
        assert r.events == [Started(p), Finished(p, Skipped)];
        assert Advance(None, Started(p)) == Some(Some(p));
        assert r.events[1..] == [Finished(p, Skipped)];
        assert Replay(Some(p), r.events[1..]) == Replay(None, r.events[1..][1..]);
        assert r.events[1..][1..] == [];
      }
    }
  }

  lemma EndKeepsLifecycle(s: State, name: string, content: string)
    ensures var r := EndStep(s, name, content); Replay(s.currentTest, r.events) == Some(r.state.currentTest)
  {
  }

  class OutputParser {
    const scope: Scope
    var currentTest: Option<Path>
    var hasOutput: bool
    var currentExpression: Option<Attrs>
    var currentSections: seq<Attrs>
    var currentInfos: seq<string>
    var currentException: Option<Attrs>
    var lastExpressionContent: map<string, string>
    /** The calls made on the test data so far, in order. */
    var events: seq<Event>

    function Snapshot(): State
      reads this
    {
      State(currentTest, hasOutput, currentExpression, currentSections, currentInfos, currentException, lastExpressionContent)
    }

    constructor (scope: Scope)
      ensures this.scope == scope && Snapshot() == Initial && events == []
    {
      this.scope := scope;
      currentTest := None;
      hasOutput := false;
      currentExpression := None;
      currentSections := [];
      currentInfos := [];
      currentException := None;
      lastExpressionContent := map[];
      events := [];
    }

    /** `startElement`: returns whether it raised. */
    method StartElement(name: string, attrs: Attrs) returns (raised: bool)
      modifies this
      ensures var r := StartStep(scope, old(Snapshot()), name, attrs);
              Snapshot() == r.state && events == old(events) + r.events && raised == r.raised
    {
      raised := false;
      if name == "TestCase" {
        if "name" !in attrs {
          return true;
        }
        var testId := attrs["name"];
        if testId !in scope.testIds {
          return;
        }
        currentTest := FindTestByReportId(scope.index, scope.framework, scope.executable, testId);
        if currentTest.None? {
          return;
        }
        events := events + [Started(currentTest.value)];
        if "skipped" in attrs && attrs["skipped"] == "true" {
          events := events + [Finished(currentTest.value, Skipped)];
          currentTest := None;
        }
      } else if name == "OverallResultsAsserts" {
        if currentTest.None? {
          return;
        }
        var status := Failed;
        if "test_case_success" in attrs && attrs["test_case_success"] == "true" {
          status := Passed;
        }
        events := events + [Finished(currentTest.value, status)];
        currentTest := None;
        hasOutput := false;
      } else if name == "Expression" {
        currentExpression := Some(attrs);
      } else if name == "Exception" {
        currentException := Some(attrs);
      } else if name == "SubCase" {
        currentSections := currentSections + [attrs];
      }
    }

    /** `endElement`: returns whether it raised. */
    method EndElement(name: string, content: string) returns (raised: bool)
      modifies this
      ensures var r := EndStep(old(Snapshot()), name, content);
              Snapshot() == r.state && events == old(events) + r.events && raised == r.raised
    {
      raised := false;
      if name == "Original" || name == "Expanded" {
        lastExpressionContent := lastExpressionContent[name := Strip(content)];
      } else if name == "Expression" {
        raised := EndExpression(content);
      } else if name == "Exception" {
        raised := EndException(content);
      } else if name == "SubCase" {
        if |currentSections| == 0 {
          return true;
        }
        currentSections := currentSections[..|currentSections| - 1];
      } else if name == "Info" {
        currentInfos := currentInfos + [Strip(content)];
      }
    }

    /** The `Expression` branch of `endElement`: the report of a finished expression. */
    method EndExpression(content: string) returns (raised: bool)
      modifies this
      ensures var r := EndStep(old(Snapshot()), "Expression", content);
              Snapshot() == r.state && events == old(events) + r.events && raised == r.raised
    {
      raised := false;
      if currentTest.None? || currentExpression.None? {
        return;
      }
      var text := ExpressionReport(currentExpression.value, Snapshot());
      if text.None? {
        return true;
      }
      events := events + [Events.Output(currentTest.value, text.value)];
      hasOutput := true;
      currentExpression := None;
      currentInfos := [];
      lastExpressionContent := map[];
    }

    /** The `Exception` branch of `endElement`: the report of a finished exception. */
    method EndException(content: string) returns (raised: bool)
      modifies this
      ensures var r := EndStep(old(Snapshot()), "Exception", content);
              Snapshot() == r.state && events == old(events) + r.events && raised == r.raised
    {
      raised := false;
      if currentTest.None? || currentException.None? {
        return;
      }
      var text := ExceptionReport(currentException.value, Snapshot(), content);
      if text.None? {
        return true;
      }
      events := events + [Events.Output(currentTest.value, text.value)];
      hasOutput := true;
      currentException := None;
      currentInfos := [];
    }

    /** `output`. */
    method Output(content: string)
      modifies this
      ensures var r := OutputStep(old(Snapshot()), content);
              Snapshot() == r.state && events == old(events) + r.events
    {
      if currentTest.Some? {
        events := events + [Events.Output(currentTest.value, content)];
      }
    }
  }

  // ---------------------------------------------------------------------
  // Discovery
  // ---------------------------------------------------------------------

  /** What `parse_discovered_test` reads from the framework. */
  datatype Settings = Settings(frameworkId: string, customPrefix: Option<string>, projectRootDir: string)

  /**
   * `parse_discovered_test`: custom prefix, the executable's file prefix,
   * the test suite when it is non-empty, then the test name; run and report
   * id are the name. `None` where `filename`, `line` or `name` is missing or
   * the line is not an integer.
   */
  function ParseDiscoveredTest(st: Settings, ops: Common.PathOps, filePrefix: string -> seq<string>,
                               test: Xml.Element, executable: string): (r: Option<DiscoveredTest>)
    ensures r.Some? <==> && "filename" in test.attrib && "line" in test.attrib && "name" in test.attrib
                         && ParseInt(test.attrib["line"]).Some?
    ensures r.Some? ==>
              var path := r.value.fullName;
              var prefix := PrefixSegments(st.customPrefix) + filePrefix(executable);
              var hasSuite := "testsuite" in test.attrib && test.attrib["testsuite"] != "";
              && |path| == |prefix| + (if hasSuite then 2 else 1)
              && path[..|prefix|] == prefix
              && path[|path| - 1] == test.attrib["name"]
              && (hasSuite ==> path[|path| - 2] == test.attrib["testsuite"])
              && r.value.runId == r.value.reportId == Some(test.attrib["name"])
              && r.value.suiteId == Some(st.frameworkId)
              && r.value.location == TestLocation(Some(executable), ops.relpath(test.attrib["filename"], st.projectRootDir),
                                                  ParseInt(test.attrib["line"]).value)
  {
    if "filename" !in test.attrib || "line" !in test.attrib || "name" !in test.attrib then None
    else match ParseInt(test.attrib["line"])
      case None => None
      case Some(line) =>
        var file := ops.relpath(test.attrib["filename"], st.projectRootDir);
        var suite := if "testsuite" in test.attrib && test.attrib["testsuite"] != "" then [test.attrib["testsuite"]] else [];
        var name := test.attrib["name"];
        var prefix := PrefixSegments(st.customPrefix) + filePrefix(executable);
        var path := prefix + suite + [name];
        assert path[..|prefix|] == prefix;
        Some(DiscoveredTest(path, Some(st.frameworkId), Some(name), Some(name), TestLocation(Some(executable), file, line)))
  }

  function TestParser(st: Settings, ops: Common.PathOps, filePrefix: string -> seq<string>, executable: string): Xml.Element -> Option<DiscoveredTest>
  {
    t => ParseDiscoveredTest(st, ops, filePrefix, t, executable)
  }

  /** `parse_discovery`: each `TestCase` child of the listing's root, parsed in order; `None` if one fails. */
  method ParseDiscovery(st: Settings, ops: Common.PathOps, filePrefix: string -> seq<string>, root: Xml.Element, executable: string)
    returns (r: Option<seq<DiscoveredTest>>)
    ensures r == TryMap(Xml.Tagged(root.children, "TestCase"), TestParser(st, ops, filePrefix, executable))
  {
    var f := TestParser(st, ops, filePrefix, executable);
    var tests: seq<DiscoveredTest> := [];
    for i := 0 to |root.children|
      invariant TryMap(Xml.Tagged(root.children[..i], "TestCase"), f) == Some(tests)
    {
      var t := root.children[i];
      if t.tag == "TestCase" {
        var d := f(t);
        if d.None? {
          Xml.TaggedFailsAt(root.children, i, "TestCase", f);
          return None;
        }
        Xml.TaggedGrows(root.children, i, "TestCase", f, tests);
        tests := tests + [d.value];
      } else {
        Xml.TaggedGrows(root.children, i, "TestCase", f, tests);
      }
    }
    assert root.children[..|root.children|] == root.children;
    r := Some(tests);
  }

  // ---------------------------------------------------------------------
  // The test filter of `run`
  // ---------------------------------------------------------------------

  /** `test.replace(',', '\\,')`: each comma of an id escaped with a backslash. */
  function Escape(id: string): string
  {
    Replace(id, ",", "\\,")
  }

  /** `','.join(...)` of the escaped ids: the value given to `-tc=`. */
  function TestFilter(ids: seq<string>): string
    decreases |ids|
  {
    if |ids| == 0 then ""
    else if |ids| == 1 then Escape(ids[0])
    else Escape(ids[0]) + "," + TestFilter(ids[1..])
  }

  /** `x` in front of the first of a non-empty list of parts. */
  function PrependTo(x: string, parts: seq<string>): seq<string>
    requires |parts| > 0
  {
    [x + parts[0]] + parts[1..]
  }

  /**
   * Reading a filter back: split at each comma not preceded by a backslash,
   * and read `\,` as a comma inside a name.
   */
  function ParseFilter(s: string): (r: seq<string>)
    decreases |s|
    ensures |r| > 0
  {
    if |s| == 0 then [""]
    else if |s| >= 2 && s[0] == '\\' && s[1] == ',' then PrependTo(",", ParseFilter(s[2..]))
    else if s[0] == ',' then [""] + ParseFilter(s[1..])
    else PrependTo([s[0]], ParseFilter(s[1..]))
  }

  lemma PrependToTwice(x: string, y: string, parts: seq<string>)
    requires |parts| > 0
    ensures PrependTo(x, PrependTo(y, parts)) == PrependTo(x + y, parts)
    ensures PrependTo("", parts) == parts
  {
    assert x + (y + parts[0]) == (x + y) + parts[0];
    assert "" + parts[0] == parts[0];
    assert [parts[0]] + parts[1..] == parts;
  }

  /** Text without commas or backslashes reads back as itself, in front of what follows. */
  lemma {:induction false} ParsePlain(p: string, rest: string)
    requires ',' !in p && '\\' !in p
    ensures ParseFilter(p + rest) == PrependTo(p, ParseFilter(rest))
    decreases |p|
  {
    PrependToTwice(p, "", ParseFilter(rest));
    if |p| > 0 {
      var s := p + rest;
      assert s[0] == p[0] && s[1..] == p[1..] + rest;
      assert p[0] != ',' && p[0] != '\\';
      assert ParseFilter(s) == PrependTo([p[0]], ParseFilter(p[1..] + rest));
      ParsePlain(p[1..], rest);
      PrependToTwice([p[0]], p[1..], ParseFilter(rest));
      assert [p[0]] + p[1..] == p;
    } else {
      assert p + rest == rest;
    }
  }

  /** Pieces without commas or backslashes, joined with `\,`, read back as one name: the pieces joined with a comma. */
  lemma {:induction false} ParseEscapedPieces(pieces: seq<string>, rest: string)
    requires |pieces| > 0
    requires forall k :: 0 <= k < |pieces| ==> ',' !in pieces[k] && '\\' !in pieces[k]
    ensures ParseFilter(Join(pieces, "\\,") + rest) == PrependTo(Join(pieces, ","), ParseFilter(rest))
    decreases |pieces|
  {
    if |pieces| == 1 {
      ParsePlain(pieces[0], rest);
    } else {
      var tail := Join(pieces[1..], "\\,") + rest;
      forall k | 0 <= k < |pieces[1..]| ensures ',' !in pieces[1..][k] && '\\' !in pieces[1..][k] {
        assert pieces[1..][k] == pieces[k + 1];
      }
      ParseEscapedPieces(pieces[1..], rest);
      var t := "\\," + tail;
      assert t[0] == '\\' && t[1] == ',' && t[2..] == tail;
      assert ParseFilter(t) == PrependTo(",", ParseFilter(tail));
      assert Join(pieces, "\\,") + rest == pieces[0] + t;
      ParsePlain(pieces[0], t);
      var pr := ParseFilter(rest);
      PrependToTwice(",", Join(pieces[1..], ","), pr);
      PrependToTwice(pieces[0], "," + Join(pieces[1..], ","), pr);
      assert Join(pieces, ",") == pieces[0] + ("," + Join(pieces[1..], ","));
    }
  }

  /** A character of a joined list comes from one of the parts or from the separator. */
  lemma {:induction false} JoinChars(parts: seq<string>, sep: string, c: char)
    requires c !in sep
    ensures c in Join(parts, sep) <==> exists k :: 0 <= k < |parts| && c in parts[k]
    decreases |parts|
  {
    if |parts| > 1 {
      JoinChars(parts[1..], sep, c);
      assert Join(parts, sep) == parts[0] + sep + Join(parts[1..], sep);
      if exists k :: 0 <= k < |parts| && c in parts[k] {
        var k :| 0 <= k < |parts| && c in parts[k];
        if k > 0 { assert parts[k] == parts[1..][k - 1]; }
      }
      if c in Join(parts[1..], sep) {
        var k :| 0 <= k < |parts[1..]| && c in parts[1..][k];
        assert parts[1..][k] == parts[k + 1];
      }
    }
  }

  /** An escaped id without backslashes reads back as the id, in front of what follows. */
  lemma ParseEscaped(id: string, rest: string)
    requires '\\' !in id
    ensures ParseFilter(Escape(id) + rest) == PrependTo(id, ParseFilter(rest))
  {
    var pieces := Split(id, ",");
    JoinSplit(id, ",");
    SplitPiecesFree(id, ",");
    forall k | 0 <= k < |pieces| ensures ',' !in pieces[k] && '\\' !in pieces[k] {
      assert pieces[k] in pieces;
      NotContainsChar(pieces[k], ',');
      JoinChars(pieces, ",", '\\');
    }
    ParseEscapedPieces(pieces, rest);
  }

  /**
   * The filter `run` builds reads back as exactly the ids it was built from,
   * for a non-empty list of ids without backslashes.
   */
  lemma {:induction false} FilterRoundTrip(ids: seq<string>)
    requires |ids| > 0
    requires forall k :: 0 <= k < |ids| ==> '\\' !in ids[k]
    ensures ParseFilter(TestFilter(ids)) == ids
    decreases |ids|
  {
    if |ids| == 1 {
      ParseEscaped(ids[0], "");
      assert Escape(ids[0]) + "" == Escape(ids[0]) == TestFilter(ids);
      assert ParseFilter("") == [""];
      assert PrependTo(ids[0], [""]) == [ids[0] + ""];
      assert ids[0] + "" == ids[0];
      assert [ids[0]] == ids;
    } else {
      forall k | 0 <= k < |ids[1..]| ensures '\\' !in ids[1..][k] {
        assert ids[1..][k] == ids[k + 1];
      }
      FilterRoundTrip(ids[1..]);
      var t := TestFilter(ids[1..]);
      FilterStep(ids[0], t, ids[1..]);
      assert TestFilter(ids) == Escape(ids[0]) + ("," + t);
      assert [ids[0]] + ids[1..] == ids;
    }
  }

  /** One more id in front: the filter reads back with that id first. */
  lemma FilterStep(id: string, t: string, tail: seq<string>)
    requires '\\' !in id && ParseFilter(t) == tail
    ensures ParseFilter(Escape(id) + ("," + t)) == [id] + tail
  {
    var rest := "," + t;
    ParseEscaped(id, rest);
    assert rest[0] == ',' && rest[1..] == t;
    assert ParseFilter(rest) == [""] + tail;
    assert id + "" == id;
  }

  /** An id ending in a backslash merges with the next one: the filter does not read back. */
  lemma TrailingBackslashMerges()
    ensures ParseFilter(TestFilter(["a\\", "b"])) == ["a,b"]
  {
    var f := TestFilter(["a\\", "b"]);
    assert Escape("a\\") == "a\\" by {
      assert IndexFrom("a\\", ",", 0).None? by {
        var x := "a\\";
        assert x[0..1][0] == 'a' && x[1..2][0] == '\\';
        assert !OccursAt(x, ",", 0) && !OccursAt(x, ",", 1);
      }
    }
    assert Escape("b") == "b" by {
      assert !OccursAt("b", ",", 0);
    }
    assert f == "a\\,b";
    assert ParseFilter("") == [""];
    assert ParseFilter("b") == PrependTo("b", ParseFilter("b"[1..]));
    assert "b"[1..] == "";
    assert "b" + "" == "b";
    assert ParseFilter("b") == ["b"];
    var t := "\\,b";
    assert t[0] == '\\' && t[1] == ',' && t[2..] == "b";
    assert "," + "b" == ",b";
    assert ParseFilter(t) == [",b"];
    assert f[0] == 'a' && f[1..] == t;
    assert ParseFilter(f) == PrependTo("a", ParseFilter(t));
    assert "a" + ",b" == "a,b";
  }
}

=== FILE: events.dfy ===
/**
 * The vocabulary shared by the result decoders and the discovery parsers:
 * test statuses, the lifecycle events a decoder reports to the test data
 * (`notify_test_started`, `notify_test_output`, `notify_test_finished`),
 * the report-id lookup `find_test_by_report_id`, and discovered tests.
 */
module Events {
  import opened Wrappers
  import opened Strings
  import Json

  /** Separator of the segments of a test's full name. */
  const TEST_SEPARATOR := "/"

  datatype TestStatus = NotRun | Stopped | Skipped | Passed | Failed | Crashed

  /** A test's full name, one element per tree level. */
  type Path = seq<string>

  /** One call a decoder makes on the test data, in the order it makes them. */
  datatype Event =
    | Started(path: Path)
    | Output(path: Path, text: string)
    | Finished(path: Path, status: TestStatus)

  /**
   * The report-id index of the test list: (suite or framework id, executable,
   * report id) to the test's path. `find_test_by_report_id` answers from it.
   */
  type ReportIndex = map<(string, string, string), Path>

  function FindTestByReportId(index: ReportIndex, suiteId: string, executable: string, reportId: string): (r: Option<Path>)
    ensures r.Some? <==> (suiteId, executable, reportId) in index
    ensures r.Some? ==> r.value == index[(suiteId, executable, reportId)]
  {
    if (suiteId, executable, reportId) in index then Some(index[(suiteId, executable, reportId)]) else None
  }

  /** Python's `if current_test:` for an optional path: set and not the empty list. */
  predicate IsTruthy(current: Option<Path>) {
    current.Some? && |current.value| > 0
  }

  /**
   * The lifecycle a consumer of the events expects: a test is started only
   * when none is open, output and the finish go to the open test. `Advance`
   * gives the open test after one event, `None` when the event breaks the
   * lifecycle.
   */
  function Advance(open: Option<Path>, e: Event): Option<Option<Path>>
  {
    match e
    case Started(p) => if open.None? then Some(Some(p)) else None
    case Output(p, _) => if open == Some(p) then Some(open) else None
    case Finished(p, _) => if open == Some(p) then Some(None) else None
  }

  /** The open test after a whole log of events, `None` if the log breaks the lifecycle. */
  function Replay(open: Option<Path>, events: seq<Event>): Option<Option<Path>>
    decreases |events|
  {
    if |events| == 0 then Some(open)
    else match Advance(open, events[0])
      case None => None
      case Some(next) => Replay(next, events[1..])
  }

  /** Every started test is finished, nothing else is finished, and no test is left open. */
  predicate Balanced(events: seq<Event>) {
    Replay(None, events) == Some(None)
  }

  /** Replaying two logs one after the other is replaying their concatenation. */
  lemma {:induction false} ReplayAppend(open: Option<Path>, a: seq<Event>, b: seq<Event>)
    ensures Replay(open, a + b) == (match Replay(open, a) case None => None case Some(o) => Replay(o, b))
    decreases |a|
  {
    if |a| == 0 {
      assert a + b == b;
    } else {
      assert (a + b)[0] == a[0];
      assert (a + b)[1..] == a[1..] + b;
      match Advance(open, a[0])
      case None =>
      case Some(next) => ReplayAppend(next, a[1..], b);
    }
  }

  /** From an open test `p`, a log that ends with nothing open finishes `p` after output to `p` only. */
  lemma {:induction false} OpenTestFinishes(p: Path, events: seq<Event>)
    requires Replay(Some(p), events) == Some(None)
    ensures exists j :: 0 <= j < |events| && events[j].Finished? && events[j].path == p
                        && forall k :: 0 <= k < j ==> (events[k].Output? && events[k].path == p)
  {
    match events[0]
    case Finished(_, _) =>
    case Output(q, t) =>
      OpenTestFinishes(p, events[1..]);
      var j :| 0 <= j < |events[1..]| && events[1..][j].Finished? && events[1..][j].path == p
               && forall k :: 0 <= k < j ==> (events[1..][k].Output? && events[1..][k].path == p);
      assert events[j + 1].Finished? && events[j + 1].path == p;
      forall k | 0 <= k < j + 1 ensures (events[k].Output? && events[k].path == p) {
        if k > 0 { assert events[k] == events[1..][k - 1]; }
      }
  }

  /**
   * In a log that ends with nothing open, each `Started(p)` is followed by a
   * `Finished(p, _)` with only output to `p` in between: exactly one finish
   * belongs to each start.
   */
  lemma {:induction false} StartedIsFinishedOnce(open: Option<Path>, events: seq<Event>, i: nat)
    requires Replay(open, events) == Some(None)
    requires i < |events| && events[i].Started?
    decreases i
    ensures exists j :: i < j < |events| && events[j].Finished? && events[j].path == events[i].path
                        && forall k :: i < k < j ==> (events[k].Output? && events[k].path == events[i].path)
  {
    var next := Advance(open, events[0]).value;
    if i == 0 {
      var p := events[0].path;
      OpenTestFinishes(p, events[1..]);
      var j :| 0 <= j < |events[1..]| && events[1..][j].Finished? && events[1..][j].path == p
               && forall k :: 0 <= k < j ==> (events[1..][k].Output? && events[1..][k].path == p);
      assert events[j + 1] == events[1..][j];
      forall k | 0 < k < j + 1 ensures (events[k].Output? && events[k].path == p) {
        assert events[k] == events[1..][k - 1];
      }
    } else {
      StartedIsFinishedOnce(next, events[1..], i - 1);
      var j :| i - 1 < j < |events[1..]| && events[1..][j].Finished? && events[1..][j].path == events[1..][i - 1].path
               && forall k :: i - 1 < k < j ==> (events[1..][k].Output? && events[1..][k].path == events[1..][i - 1].path);
      assert events[j + 1] == events[1..][j];
      forall k | i < k < j + 1 ensures (events[k].Output? && events[k].path == events[i].path) {
        assert events[k] == events[1..][k - 1];
      }
    }
  }

  /** Where a discovered test lives: executable (when the framework has one), file and line. */
  datatype TestLocation = TestLocation(executable: Option<string>, file: string, line: int)

  /**
   * A test as a discovery parser reports it. `suiteId` holds the suite id or
   * framework id the framework passes; frameworks that pass none leave it and
   * the run and report ids unset.
   */
  datatype DiscoveredTest = DiscoveredTest(
    fullName: Path,
    suiteId: Option<string>,
    runId: Option<string>,
    reportId: Option<string>,
    location: TestLocation)

  /** `DiscoveryError(message, details)`: a discovery failure with its details, any JSON value. */
  datatype DiscoveryError = DiscoveryError(message: string, details: Json.Value)

  /** What a discovery call ends with: the tests, a `DiscoveryError`, or any other exception. */
  datatype Discovery =
    | Discovered(tests: seq<DiscoveredTest>)
    | Error(error: DiscoveryError)
    | OtherException

  /** `e.details if e.details else str(e)`: the entry a discovery loop collects for one failure. */
  function ErrorEntry(e: DiscoveryError): (v: Json.Value)
    ensures Json.Truthy(e.details) ==> v == e.details
    ensures !Json.Truthy(e.details) ==> v == Json.Str(e.message)
  {
    if Json.Truthy(e.details) then e.details else Json.Str(e.message)
  }

  /**
   * What a framework reads from its suite: the suite id, the optional custom
   * prefix and the path prefix style (`full`, `basename` or `none`).
   */
  datatype SuiteConfig = SuiteConfig(suiteId: string, customPrefix: Option<string>, pathPrefixStyle: string)

  /** `custom_prefix.split(TEST_SEPARATOR)`, or nothing without a custom prefix: the first segments of every discovered path. */
  function PrefixSegments(customPrefix: Option<string>): (r: seq<string>)
    ensures customPrefix.None? ==> r == []
    ensures customPrefix.Some? ==> |r| >= 1 && Join(r, TEST_SEPARATOR) == customPrefix.value
    ensures forall seg | seg in r :: !Contains(seg, TEST_SEPARATOR)
  {
    match customPrefix
    case None => []
    case Some(p) =>
      JoinSplit(p, TEST_SEPARATOR);
      SplitPiecesFree(p, TEST_SEPARATOR);
      Split(p, TEST_SEPARATOR)
  }

  /**
   * Applying a parse that can raise to each item in order, as a loop that
   * appends to a list does: the first failure aborts the whole list.
   */
  function TryMap<T, U>(items: seq<T>, f: T -> Option<U>): Option<seq<U>>
    decreases |items|
  {
    if |items| == 0 then Some([])
    else match TryMap(items[..|items| - 1], f)
      case None => None
      case Some(us) =>
        match f(items[|items| - 1])
        case None => None
        case Some(u) => Some(us + [u])
  }

  /** One more item: the list so far, extended with the item's result if both exist. */
  lemma TryMapSnoc<T, U>(a: seq<T>, x: T, f: T -> Option<U>)
    ensures TryMap(a + [x], f) == (if TryMap(a, f).Some? && f(x).Some? then Some(TryMap(a, f).value + [f(x).value]) else None)
  {
    assert (a + [x])[..|a|] == a;
  }

  /**
   * One step of a loop that appends each item's result to `acc`: while the
   * items parse, the list so far grows by the next item's result.
   */
  lemma TryMapGrows<T, U>(items: seq<T>, j: nat, f: T -> Option<U>, acc0: seq<U>, acc: seq<U>)
    requires j < |items| && TryMap(items[..j], f).Some? && acc == acc0 + TryMap(items[..j], f).value
    requires f(items[j]).Some?
    ensures TryMap(items[..j + 1], f).Some? && acc + [f(items[j]).value] == acc0 + TryMap(items[..j + 1], f).value
  {
    var prefix := items[..j];
    assert items[..j + 1] == prefix + [items[j]];
    TryMapSnoc(prefix, items[j], f);
    var us, u := TryMap(prefix, f).value, f(items[j]).value;
    assert acc + [u] == acc0 + (us + [u]);
  }

  /** A failing item fails the whole list, whatever follows it. */
  lemma TryMapFailsAt<T, U>(items: seq<T>, j: nat, f: T -> Option<U>)
    requires j < |items| && f(items[j]).None?
    ensures TryMap(items, f).None?
  {
    var next := items[..j + 1];
    assert next == items[..j] + [items[j]];
    TryMapSnoc(items[..j], items[j], f);
    TryMapFailed(next, items[j + 1..], f);
    assert next + items[j + 1..] == items;
  }

  /** The mapped list exists exactly when every item parses, and then holds each item's result at its position. */
  lemma {:induction false} TryMapShape<T, U>(items: seq<T>, f: T -> Option<U>)
    ensures var r := TryMap(items, f);
            && (r.Some? <==> forall k :: 0 <= k < |items| ==> f(items[k]).Some?)
            && (r.Some? ==> |r.value| == |items| && forall k :: 0 <= k < |items| ==> f(items[k]) == Some(r.value[k]))
    decreases |items|
  {
    if |items| > 0 {
      var init := items[..|items| - 1];
      TryMapShape(init, f);
      assert forall k :: 0 <= k < |init| ==> init[k] == items[k];
    }
  }

  /** Once an item fails, nothing appended afterwards recovers the list. */
  lemma {:induction false} TryMapFailed<T, U>(a: seq<T>, b: seq<T>, f: T -> Option<U>)
    requires TryMap(a, f).None?
    ensures TryMap(a + b, f).None?
    decreases |b|
  {
    if |b| == 0 {
      assert a + b == a;
    } else {
      assert (a + b)[..|a + b| - 1] == a + b[..|b| - 1];
      TryMapFailed(a, b[..|b| - 1], f);
    }
  }

  /** `[test for tests in grouped.values() for test in tests]`: the groups' ids, group after group. */
  function Flatten(groups: seq<seq<string>>): (r: seq<string>)
    decreases |groups|
  {
    if |groups| == 0 then [] else Flatten(groups[..|groups| - 1]) + groups[|groups| - 1]
  }

  /** An id is in the flattened list exactly when it is in one of the groups. */
  lemma {:induction false} FlattenMembers(groups: seq<seq<string>>, id: string)
    ensures id in Flatten(groups) <==> exists i :: 0 <= i < |groups| && id in groups[i]
    decreases |groups|
  {
    if |groups| > 0 {
      var init := groups[..|groups| - 1];
      FlattenMembers(init, id);
      if id in Flatten(groups) && id !in groups[|groups| - 1] {
        var i :| 0 <= i < |init| && id in init[i];
        assert init[i] == groups[i];
      }
      if exists i :: 0 <= i < |groups| && id in groups[i] {
        var i :| 0 <= i < |groups| && id in groups[i];
        if i < |init| {
          assert init[i] == groups[i];
        }
      }
    }
  }

  /** Each item's list of results, concatenated in order; the first failure aborts the whole. */
  function TryFlatMap<T, U>(items: seq<T>, f: T -> Option<seq<U>>): Option<seq<U>>
    decreases |items|
  {
    if |items| == 0 then Some([])
    else match TryFlatMap(items[..|items| - 1], f)
      case None => None
      case Some(us) =>
        match f(items[|items| - 1])
        case None => None
        case Some(more) => Some(us + more)
  }

  lemma TryFlatMapSnoc<T, U>(items: seq<T>, i: nat, f: T -> Option<seq<U>>)
    requires i < |items|
    ensures TryFlatMap(items[..i + 1], f)
            == (if TryFlatMap(items[..i], f).Some? && f(items[i]).Some?
                then Some(TryFlatMap(items[..i], f).value + f(items[i]).value) else None)
  {
    assert items[..i + 1][..i] == items[..i];
  }

  /** Once an item fails, nothing after it recovers the whole. */
  lemma {:induction false} TryFlatMapFailed<T, U>(items: seq<T>, i: nat, f: T -> Option<seq<U>>)
    requires i <= |items| && TryFlatMap(items[..i], f).None?
    ensures TryFlatMap(items, f).None?
    decreases |items| - i
  {
    if i < |items| {
      TryFlatMapSnoc(items, i, f);
      TryFlatMapFailed(items, i + 1, f);
    } else {
      assert items[..i] == items;
    }
  }

  /** The whole succeeds exactly when every item does. */
  lemma {:induction false} TryFlatMapSome<T, U>(items: seq<T>, f: T -> Option<seq<U>>)
    ensures TryFlatMap(items, f).Some? <==> forall k :: 0 <= k < |items| ==> f(items[k]).Some?
    decreases |items|
  {
    if |items| > 0 {
      var init := items[..|items| - 1];
      TryFlatMapSome(init, f);
      assert forall k :: 0 <= k < |init| ==> init[k] == items[k];
    }
  }

  // ---------------------------------------------------------------------
  // Discovery over several executables
  // ---------------------------------------------------------------------

  /** The tests and error entries of the executables so far; `None` once one raised another exception. */
  function Collect(results: seq<Discovery>): Option<(seq<DiscoveredTest>, seq<Json.Value>)>
    decreases |results|
  {
    if |results| == 0 then Some(([], []))
    else match Collect(results[..|results| - 1])
      case None => None
      case Some(acc) =>
        match results[|results| - 1]
        case Discovered(tests) => Some((acc.0 + tests, acc.1))
        case Error(e) => Some((acc.0, acc.1 + [ErrorEntry(e)]))
        case OtherException => None
  }

  /** How many executables ended with a `DiscoveryError`. */
  function ErrorCount(results: seq<Discovery>): nat
    decreases |results|
  {
    if |results| == 0 then 0
    else ErrorCount(results[..|results| - 1]) + (if results[|results| - 1].Error? then 1 else 0)
  }

  /**
   * Collecting succeeds exactly when no executable raised another exception,
   * and then holds one error entry per failed executable.
   */
  lemma {:induction false} CollectShape(results: seq<Discovery>)
    ensures Collect(results).Some? <==> forall k :: 0 <= k < |results| ==> !results[k].OtherException?
    ensures Collect(results).Some? ==> |Collect(results).value.1| == ErrorCount(results)
    decreases |results|
  {
    if |results| > 0 {
      var init := results[..|results| - 1];
      CollectShape(init);
      assert forall k :: 0 <= k < |init| ==> init[k] == results[k];
    }
  }

  /** One executable: its tests and no entry, its error entry and no test, or nothing collected when it raised otherwise. */
  lemma CollectSingle(d: Discovery)
    ensures d.Discovered? ==> Collect([d]) == Some((d.tests, []))
    ensures d.Error? ==> Collect([d]) == Some(([], [ErrorEntry(d.error)]))
    ensures d.OtherException? ==> Collect([d]).None?
  {
    assert [d][..0] == [];
    match d
    case Discovered(tests) => assert [] + tests == tests;
    case Error(e) => assert [] + [ErrorEntry(e)] == [ErrorEntry(e)];
    case OtherException =>
  }

  /**
   * Collecting over the executables of two runs succeeds exactly when both
   * do, and then gives the tests of the first run followed by those of the
   * second, and the error entries likewise, in order.
   */
  lemma {:induction false} CollectAppend(a: seq<Discovery>, b: seq<Discovery>)
    ensures Collect(a + b).Some? <==> Collect(a).Some? && Collect(b).Some?
    ensures Collect(a).Some? && Collect(b).Some? ==>
              Collect(a + b) == Some((Collect(a).value.0 + Collect(b).value.0, Collect(a).value.1 + Collect(b).value.1))
    decreases |b|
  {
    if |b| == 0 {
      assert a + b == a;
      if Collect(a).Some? {
        assert Collect(a).value.0 + [] == Collect(a).value.0;
        assert Collect(a).value.1 + [] == Collect(a).value.1;
      }
    } else {
      var b' := b[..|b| - 1];
      var last := b[|b| - 1];
      assert (a + b)[..|a + b| - 1] == a + b';
      assert (a + b)[|a + b| - 1] == last;
      CollectAppend(a, b');
      if Collect(a).Some? && Collect(b').Some? {
        var x := Collect(a).value;
        var y := Collect(b').value;
        match last
        case Discovered(tests) =>
          assert (x.0 + y.0) + tests == x.0 + (y.0 + tests);
        case Error(e) =>
          assert (x.1 + y.1) + [ErrorEntry(e)] == x.1 + (y.1 + [ErrorEntry(e)]);
        case OtherException =>
      }
    }
  }

  /**
   * The end of a `discover` over several executables: the errors collected,
   * if any, raised together as one `DiscoveryError`; otherwise every test.
   */
  function Aggregated(results: seq<Discovery>, message: string): Discovery
  {
    match Collect(results)
    case None => OtherException
    case Some(acc) => if |acc.1| > 0 then Error(DiscoveryError(message, Json.Array(acc.1))) else Discovered(acc.0)
  }

  /** The aggregate is an error exactly when some executable failed with a `DiscoveryError` and none raised anything else. */
  lemma AggregatedError(results: seq<Discovery>, message: string)
    ensures Aggregated(results, message).Error? <==>
              (forall k :: 0 <= k < |results| ==> !results[k].OtherException?) && ErrorCount(results) > 0
    ensures Aggregated(results, message).Error? ==>
              Aggregated(results, message).error.details.Array?
              && |Aggregated(results, message).error.details.items| == ErrorCount(results)
  {
    CollectShape(results);
  }

  /**
   * `discover` of gtest and Catch2: `run_discovery` for each executable in
   * turn, `DiscoveryError`s collected, any other exception propagated.
   */
  method DiscoverAll(executables: seq<string>, runDiscovery: string -> Discovery, message: string) returns (r: Discovery)
    ensures r == Aggregated(seq(|executables|, k requires 0 <= k < |executables| => runDiscovery(executables[k])), message)
  {
    ghost var results := seq(|executables|, k requires 0 <= k < |executables| => runDiscovery(executables[k]));
    var errors: seq<Json.Value> := [];
    var tests: seq<DiscoveredTest> := [];
    for i := 0 to |executables|
      invariant Collect(results[..i]) == Some((tests, errors))
    {
      assert results[..i + 1][..i] == results[..i];
      var outcome := runDiscovery(executables[i]);
      assert results[..i + 1][i] == outcome;
      match outcome {
        case Discovered(more) =>
          tests := tests + more;
        case Error(e) =>
          errors := errors + [ErrorEntry(e)];
        case OtherException =>
          assert Collect(results[..i + 1]).None?;
          CollectFailed(results, i + 1);
          assert results[..|results|] == results;
          return OtherException;
      }
    }
    assert results[..|results|] == results;
    if |errors| > 0 {
      return Error(DiscoveryError(message, Json.Array(errors)));
    }
    return Discovered(tests);
  }

  lemma {:induction false} CollectFailed(results: seq<Discovery>, i: nat)
    requires i <= |results| && Collect(results[..i]).None?
    ensures Collect(results).None?
    decreases |results| - i
  {
    if i < |results| {
      assert results[..i + 1][..i] == results[..i];
      CollectFailed(results, i + 1);
    } else {
      assert results[..i] == results;
    }
  }

  /** `glob(pattern)` when the pattern holds `*`, otherwise the pattern itself: the executables discovery runs. */
  function Executables(pattern: string, glob: string -> seq<string>): (r: seq<string>)
    ensures !Contains(pattern, "*") ==> r == [pattern]
    ensures Contains(pattern, "*") ==> r == glob(pattern)
  {
    if Contains(pattern, "*") then glob(pattern) else [pattern]
  }
}

=== FILE: gtest.dfy ===
/**
 * The GoogleTest framework: discovery from the JSON listing gtest writes,
 * with the renaming of type- and value-parameterised tests.
 */
module GTest {
  import opened Wrappers
  import opened Strings
  import opened Events
  import Common
  import Json

  /** What `parse_discovered_test` reads from the framework. */
  datatype Settings = Settings(pathPrefixStyle: string, customPrefix: Option<string>)

  /** `'/'.join(s.split('/')[:-1])`: everything before the last slash, or nothing without one. */
  function DropLastSegment(s: string): string
  {
    var segments := Split(s, "/");
    Join(segments[..|segments| - 1], "/")
  }

  /** With a slash, the dropped part, a slash and a slash-free last segment make up the string; without one, nothing is kept. */
  lemma DropLastSegmentShape(s: string)
    ensures var segments := Split(s, "/");
            var last := segments[|segments| - 1];
            && '/' !in last
            && (|segments| == 1 ==> DropLastSegment(s) == "" && s == last)
            && (|segments| > 1 ==> DropLastSegment(s) + "/" + last == s)
  {
    var segments := Split(s, "/");
    var n := |segments|;
    JoinSplit(s, "/");
    assert "/" == ['/'];
    SplitCharPiecesFree(s, '/');
    if n > 1 {
      assert segments == segments[..n - 1] + [segments[n - 1]];
      JoinSnoc(segments[..n - 1], segments[n - 1], "/");
    }
  }

  /**
   * `'/'.join(s.split('/')[:-1]) + tail`, the renaming of a typed suite
   * (tail `<type_param>`) and of a value-parameterised test (tail
   * `[value_param]`): the last segment gives way to the tail.
   */
  function ReplaceLastSegment(s: string, tail: string): (r: string)
    ensures StartsWith(r, DropLastSegment(s)) && EndsWith(r, tail)
    ensures |r| == |DropLastSegment(s)| + |tail|
  {
    var head := DropLastSegment(s);
    assert (head + tail)[..|head|] == head;
    assert (head + tail)[|head + tail| - |tail|..] == tail;
    head + tail
  }

  /** The segments the prefix style takes from the executable. */
  function StyleSegments(style: string, ops: Common.PathOps, executable: string): seq<string>
  {
    if style == "full" then Split(ops.normpath(executable), [ops.sep])
    else if style == "basename" then [ops.basename(executable)]
    else []
  }

  /** An optional string field is absent or a string. */
  predicate OptionalStr(fields: map<string, Json.Value>, key: string) {
    key in fields ==> fields[key].Str?
  }

  /**
   * `parse_discovered_test`: the custom prefix, the executable by style,
   * then exactly the suite and the name, each renamed when the test is
   * type- or value-parameterised. `None` where a field is missing or of
   * another JSON type.
   */
  function ParseDiscoveredTest(st: Settings, ops: Common.PathOps, test: Json.Value, suite: Json.Value,
                               executable: string, projectDirectory: string): (r: Option<DiscoveredTest>)
    ensures r.Some? <==> && test.Object? && suite.Str?
                         && "file" in test.fields && test.fields["file"].Str?
                         && "line" in test.fields && test.fields["line"].Int?
                         && "name" in test.fields && test.fields["name"].Str?
                         && OptionalStr(test.fields, "type_param") && OptionalStr(test.fields, "value_param")
    ensures r.Some? ==>
              var f := test.fields;
              var path := r.value.fullName;
              var prefix := PrefixSegments(st.customPrefix) + StyleSegments(st.pathPrefixStyle, ops, executable);
              && |path| == |prefix| + 2
              && path[..|prefix|] == prefix
              && path[|path| - 2] == (if "type_param" in f then ReplaceLastSegment(suite.s, "<" + f["type_param"].s + ">") else suite.s)
              && path[|path| - 1] == (if "value_param" in f then ReplaceLastSegment(f["name"].s, "[" + f["value_param"].s + "]") else f["name"].s)
              && r.value.location == TestLocation(None, ops.relpath(f["file"].s, projectDirectory), f["line"].i)
  {
    match test
    case Object(f) =>
      if "file" !in f || "line" !in f || "name" !in f || !OptionalStr(f, "type_param") || !OptionalStr(f, "value_param") then None
      else (match (f["file"], f["line"], f["name"], suite)
        case (Str(file), Int(line), Str(name), Str(suiteName)) =>
          var prefix := PrefixSegments(st.customPrefix) + StyleSegments(st.pathPrefixStyle, ops, executable);
          var s := if "type_param" in f then ReplaceLastSegment(suiteName, "<" + f["type_param"].s + ">") else suiteName;
          var n := if "value_param" in f then ReplaceLastSegment(name, "[" + f["value_param"].s + "]") else name;
          Some(DiscoveredTest(prefix + [s, n], None, None, None, TestLocation(None, ops.relpath(file, projectDirectory), line)))
        case _ => None)
    case _ => None
  }

  /** The tests of one entry of `testsuites`: each test of its `testsuite` list, parsed under its `name`. */
  function SuiteTests(st: Settings, ops: Common.PathOps, executable: string, projectDirectory: string): Json.Value -> Option<seq<DiscoveredTest>>
  {
    (suite: Json.Value) =>
      if !suite.Object? || "testsuite" !in suite.fields then None
      else match Json.Elements(suite.fields["testsuite"])
        case None => None
        case Some(tests) => TryMap(tests, TestParser(st, ops, suite, executable, projectDirectory))
  }

  /** `parse_discovered_test(test, suite['name'], ...)`: a suite without a name raises. */
  function TestParser(st: Settings, ops: Common.PathOps, suite: Json.Value, executable: string, projectDirectory: string)
    : Json.Value -> Option<DiscoveredTest>
  {
    (test: Json.Value) =>
      if suite.Object? && "name" in suite.fields
      then ParseDiscoveredTest(st, ops, test, suite.fields["name"], executable, projectDirectory)
      else None
  }

  /** The listing's suites, `None` where `testsuites` is missing or iterating it raises (see `Json.Elements`). */
  function Suites(data: Json.Value): Option<seq<Json.Value>>
  {
    if !data.Object? || "testsuites" !in data.fields then None else Json.Elements(data.fields["testsuites"])
  }

  /** `parse_discovery`: every test of every suite, in order; `None` if anything raises. */
  function Discovery(st: Settings, ops: Common.PathOps, data: Json.Value, executable: string, projectDirectory: string)
    : Option<seq<DiscoveredTest>>
  {
    match Suites(data)
    case None => None
    case Some(suites) => TryFlatMap(suites, SuiteTests(st, ops, executable, projectDirectory))
  }

  /** The number of tests the listing holds, suite after suite. */
  function TestCount(suites: seq<Json.Value>): nat
    decreases |suites|
  {
    if |suites| == 0 then 0
    else
      var last := suites[|suites| - 1];
      TestCount(suites[..|suites| - 1])
      + (if last.Object? && "testsuite" in last.fields && Json.Elements(last.fields["testsuite"]).Some?
         then |Json.Elements(last.fields["testsuite"]).value| else 0)
  }

  /** A successful discovery yields exactly one test per entry of every suite. */
  lemma {:induction false} DiscoveryCount(st: Settings, ops: Common.PathOps, suites: seq<Json.Value>, executable: string, projectDirectory: string)
    requires TryFlatMap(suites, SuiteTests(st, ops, executable, projectDirectory)).Some?
    ensures |TryFlatMap(suites, SuiteTests(st, ops, executable, projectDirectory)).value| == TestCount(suites)
    decreases |suites|
  {
    if |suites| > 0 {
      var n := |suites|;
      var f := SuiteTests(st, ops, executable, projectDirectory);
      TryFlatMapSnoc(suites, n - 1, f);
      assert suites[..n - 1 + 1] == suites;
      DiscoveryCount(st, ops, suites[..n - 1], executable, projectDirectory);
      var last := suites[n - 1];
      var tests := Json.Elements(last.fields["testsuite"]).value;
      TryMapShape(tests, TestParser(st, ops, last, executable, projectDirectory));
    }
  }

  /** The inner loop: the tests of one suite appended to those so far. */
  method ParseSuite(st: Settings, ops: Common.PathOps, suite: Json.Value, executable: string, projectDirectory: string,
                    tests0: seq<DiscoveredTest>) returns (r: Option<seq<DiscoveredTest>>)
    ensures SuiteTests(st, ops, executable, projectDirectory)(suite).None? ==> r.None?
    ensures SuiteTests(st, ops, executable, projectDirectory)(suite).Some? ==>
              r == Some(tests0 + SuiteTests(st, ops, executable, projectDirectory)(suite).value)
  {
    if !suite.Object? || "testsuite" !in suite.fields {
      return None;
    }
    var items := Json.Elements(suite.fields["testsuite"]);
    if items.None? {
      return None;
    }
    var f := TestParser(st, ops, suite, executable, projectDirectory);
    var tests := tests0;
    var entries := items.value;
    assert SuiteTests(st, ops, executable, projectDirectory)(suite) == TryMap(entries, f);
    for j := 0 to |entries|
      invariant TryMap(entries[..j], f).Some? && tests == tests0 + TryMap(entries[..j], f).value
    {
      var d: Option<DiscoveredTest> := None;
      if "name" in suite.fields {
        d := ParseDiscoveredTest(st, ops, entries[j], suite.fields["name"], executable, projectDirectory);
      }
      assert d == f(entries[j]);
      if d.None? {
        TryMapFailsAt(entries, j, f);
        return None;
      }
      TryMapGrows(entries, j, f, tests0, tests);
      tests := tests + [d.value];
    }
    assert entries[..|entries|] == entries;
    r := Some(tests);
  }

  /** `parse_discovery` over the loaded listing: nested loops appending one test per entry. */
  method ParseDiscovery(st: Settings, ops: Common.PathOps, data: Json.Value, executable: string, projectDirectory: string)
    returns (r: Option<seq<DiscoveredTest>>)
    ensures r == Discovery(st, ops, data, executable, projectDirectory)
  {
    if !data.Object? || "testsuites" !in data.fields {
      return None;
    }
    var items := Json.Elements(data.fields["testsuites"]);
    if items.None? {
      return None;
    }
    var suites := items.value;
    var f := SuiteTests(st, ops, executable, projectDirectory);
    var tests: seq<DiscoveredTest> := [];
    for i := 0 to |suites|
      invariant TryFlatMap(suites[..i], f) == Some(tests)
    {
      TryFlatMapSnoc(suites, i, f);
      var more := ParseSuite(st, ops, suites[i], executable, projectDirectory, tests);
      if more.None? {
        TryFlatMapFailed(suites, i + 1, f);
        return None;
      }
      tests := more.value;
    }
    assert suites[..|suites|] == suites;
    r := Some(tests);
  }

  const ERRORS_MESSAGE := "Error when discovering tests. See panel for more information"

  /**
   * `discover`: the executables the pattern names, each listed in turn by
   * running it with `--gtest_output=json:<temp>/output.json
   * --gtest_list_tests` and the suite's arguments; `runDiscovery` gives
   * what running and parsing that command line for an executable ends
   * with, and the errors are raised together at the end.
   */
  method Discover(pattern: string, args: seq<string>, tempDir: string, glob: string -> seq<string>,
                  runDiscovery: (string, seq<string>) -> Discovery) returns (r: Discovery)
    ensures var exes := Executables(pattern, glob);
            var outputFile := Common.Join(tempDir, "output.json");
            r == Aggregated(seq(|exes|, k requires 0 <= k < |exes| =>
                                  runDiscovery(exes[k], [exes[k], "--gtest_output=json:" + outputFile, "--gtest_list_tests"] + args)),
                            ERRORS_MESSAGE)
  {
    var executables := Executables(pattern, glob);
    var outputFile := Common.Join(tempDir, "output.json");
    var listTests := exe => runDiscovery(exe, [exe, "--gtest_output=json:" + outputFile, "--gtest_list_tests"] + args);
    r := DiscoverAll(executables, listTests, ERRORS_MESSAGE);
    assert seq(|executables|, k requires 0 <= k < |executables| => listTests(executables[k]))
        == seq(|executables|, k requires 0 <= k < |executables| =>
                 runDiscovery(executables[k], [executables[k], "--gtest_output=json:" + outputFile, "--gtest_list_tests"] + args));
  }
}

=== FILE: jobs.dfy ===
/**
 * The command runner shared, nearly line for line, by `process.py` and
 * `cmd.py`: the work queue's task counter and output slots, the worker
 * that turns a job's outcome into the value left in its slot, running a
 * job inline or through the queue, decoding process output with fallback
 * encodings, and the exit-code checks of the callers.
 *
 * Threads are not modelled: the worker taking a job off the queue is the
 * call `ProcessQueueOne` made between pushing and waiting, and an empty
 * slot at the time of the wait stands for a wait that gives up.
 */
module Jobs {
  import opened Wrappers
  import opened Strings

  // ---------------------------------------------------------------------
  // Exceptions and outcomes
  // ---------------------------------------------------------------------

  /** The exception classes the runner tells apart. */
  datatype Kind = JobErrorKind | OSErrorKind | UnicodeDecodeErrorKind | QueueEmptyKind | TypeErrorKind | OtherKind

  /** An exception: its class and `str(e)`. */
  datatype Exception = Exception(kind: Kind, text: string)

  function JobError(message: string): Exception {
    Exception(JobErrorKind, message)
  }

  /** What calling a job did: returned a value (which may itself be an exception object) or raised. */
  datatype JobOutcome<T> = Returned(outputs: Result<T, Exception>) | Raised(error: Exception)

  /** The outputs of a command: exit code, then stdout and stderr (`None` when not captured). */
  datatype Outputs = Outputs(code: Option<int>, stdout: Option<string>, stderr: Option<string>)

  // ---------------------------------------------------------------------
  // `WorkQueue`
  // ---------------------------------------------------------------------

  /** A `queue.Queue(1)`: the slot a task's outputs are handed over in. */
  class Slot<T> {
    var item: Option<Result<T, Exception>>

    constructor()
      ensures item == None
    {
      item := None;
    }
  }

  /**
   * `process_queue_one`'s value for a job: what it returned, or a JobError
   * quoting what it raised, so that the worker never raises.
   */
  function Delivered<T>(job: JobOutcome<T>): (r: Result<T, Exception>)
    ensures job.Returned? ==> r == job.outputs
    ensures job.Raised? ==> r == Err(JobError("Unhandled exception in queue command: " + job.error.text))
  {
    match job
    case Returned(outputs) => outputs
    case Raised(e) => Err(JobError("Unhandled exception in queue command: " + e.text))
  }

  /** The job called on the current thread: its exception propagates as is. */
  function Inline<T>(job: JobOutcome<T>): Result<T, Exception> {
    match job
    case Returned(outputs) => outputs
    case Raised(e) => Err(e)
  }

  /**
   * The two ways of running a job give the same value whenever it
   * returns; when it raises, both end in an exception, the queue's being a
   * JobError that quotes the original.
   */
  lemma DeliveredVersusInline<T>(job: JobOutcome<T>)
    ensures Delivered(job).Ok? <==> Inline(job).Ok?
    ensures job.Returned? ==> Delivered(job) == Inline(job)
    ensures job.Raised? ==> Inline(job) == Err(job.error) && Delivered(job).error.kind == JobErrorKind
                            && EndsWith(Delivered(job).error.text, job.error.text)
  {
    if job.Raised? {
      var prefix := "Unhandled exception in queue command: ";
      var text := prefix + job.error.text;
      assert text[|text| - |job.error.text|..] == job.error.text;
    }
  }

  /** `WorkQueue`: the counter of task ids and the output slot of each waiting task. */
  class WorkQueue<T> {
    var lastTaskId: int
    var outputQueue: map<int, Slot<T>>

    constructor()
      ensures lastTaskId == 0 && outputQueue == map[]
    {
      lastTaskId := 0;
      outputQueue := map[];
    }

    /** `next_task_id`: one more than the last id handed out. */
    method NextTaskId() returns (taskId: int)
      modifies this
      ensures lastTaskId == old(lastTaskId) + 1 && taskId == lastTaskId
      ensures outputQueue == old(outputQueue)
    {
      lastTaskId := lastTaskId + 1;
      taskId := lastTaskId;
    }

    /** `get_output_queue`: the task's slot, created empty when it has none. */
    method GetOutputQueue(taskId: int) returns (slot: Slot<T>)
      modifies this
      ensures taskId in old(outputQueue) ==> outputQueue == old(outputQueue) && slot == old(outputQueue[taskId])
      ensures taskId !in old(outputQueue) ==> fresh(slot) && slot.item.None? && outputQueue == old(outputQueue)[taskId := slot]
      ensures lastTaskId == old(lastTaskId)
    {
      if taskId !in outputQueue {
        var created := new Slot();
        outputQueue := outputQueue[taskId := created];
      }
      slot := outputQueue[taskId];
    }

    /** `release_output_queue`: forgets the task's slot, if it has one. */
    method ReleaseOutputQueue(taskId: int)
      modifies this
      ensures outputQueue == old(outputQueue) - {taskId}
      ensures lastTaskId == old(lastTaskId)
    {
      if taskId in outputQueue {
        outputQueue := outputQueue - {taskId};
      }
    }

    /**
     * `process_queue_one` for a task the worker took off the queue: the
     * job's value, or a JobError for what it raised, goes into the task's
     * slot. A slot still holding an earlier value is left as it is (the
     * `put` times out and `process_queue` swallows the error).
     */
    method ProcessQueueOne(taskId: int, job: JobOutcome<T>)
      modifies this, outputQueue.Values
      ensures taskId in outputQueue && outputQueue == old(outputQueue)[taskId := outputQueue[taskId]]
      ensures taskId in old(outputQueue) ==> outputQueue[taskId] == old(outputQueue[taskId])
      ensures taskId !in old(outputQueue) ==> fresh(outputQueue[taskId])
      ensures taskId !in old(outputQueue) || old(outputQueue[taskId].item).None? ==>
                outputQueue[taskId].item == Some(Delivered(job))
      ensures taskId in old(outputQueue) && old(outputQueue[taskId].item).Some? ==>
                outputQueue[taskId].item == old(outputQueue[taskId].item)
      ensures lastTaskId == old(lastTaskId)
    {
      var outputs := Delivered(job);
      var slot := GetOutputQueue(taskId);
      if slot.item.None? {
        slot.item := Some(outputs);
      }
    }

    /**
     * `get_job_output`: takes the value out of the task's slot, or raises
     * `queue.Empty` when there is none; either way the slot is released.
     */
    method GetJobOutput(taskId: int) returns (r: Result<Result<T, Exception>, Exception>)
      modifies this, outputQueue.Values
      ensures outputQueue == old(outputQueue) - {taskId}
      ensures taskId in old(outputQueue) && old(outputQueue[taskId].item).Some? ==>
                r == Ok(old(outputQueue[taskId].item).value)
      ensures !(taskId in old(outputQueue) && old(outputQueue[taskId].item).Some?) ==>
                r == Err(Exception(QueueEmptyKind, ""))
      ensures lastTaskId == old(lastTaskId)
    {
      var slot := GetOutputQueue(taskId);
      if slot.item.Some? {
        r := Ok(slot.item.value);
        slot.item := None;
      } else {
        r := Err(Exception(QueueEmptyKind, ""));
      }
      ReleaseOutputQueue(taskId);
    }

    /**
     * `worker_run`: a task id is drawn unless a truthy one is given; on the
     * worker thread the job runs inline, elsewhere it goes through the
     * queue and its slot; an exception value is then raised rather than
     * returned.
     */
    method WorkerRun(job: JobOutcome<T>, taskId: Option<int>, onWorkerThread: bool) returns (r: Result<T, Exception>)
      modifies this, outputQueue.Values
      ensures var drawn := taskId.None? || taskId.value == 0;
              && lastTaskId == old(lastTaskId) + (if drawn then 1 else 0)
              && var tid := if drawn then old(lastTaskId) + 1 else taskId.value;
                 && (onWorkerThread ==> r == Inline(job) && outputQueue == old(outputQueue))
                 && (!onWorkerThread ==> outputQueue == old(outputQueue) - {tid})
                 && (!onWorkerThread && (tid !in old(outputQueue) || old(outputQueue[tid].item).None?) ==>
                       r == Delivered(job))
    {
      var tid: int;
      if taskId.None? || taskId.value == 0 {
        tid := NextTaskId();
      } else {
        tid := taskId.value;
      }
      if onWorkerThread {
        r := Inline(job);
      } else {
        ProcessQueueOne(tid, job);
        var got := GetJobOutput(tid);
        r := if got.Ok? then got.value else Err(JobError("Could not execute command: " + got.error.text));
      }
    }
  }

  /** Task ids handed out in a row are 1, 2, 3, … from a fresh queue, each larger than the one before. */
  method NextTaskIdsInARow<T>(q: WorkQueue<T>, n: nat) returns (ids: seq<int>)
    requires q.lastTaskId == 0
    modifies q
    ensures |ids| == n && forall i :: 0 <= i < n ==> ids[i] == i + 1
    ensures forall i, j :: 0 <= i < j < n ==> ids[i] < ids[j]
  {
    ids := [];
    while |ids| < n
      invariant |ids| <= n && q.lastTaskId == |ids|
      invariant forall i :: 0 <= i < |ids| ==> ids[i] == i + 1
    {
      var id := q.NextTaskId();
      ids := ids + [id];
    }
  }

  // ---------------------------------------------------------------------
  // `decode`
  // ---------------------------------------------------------------------

  /** A codec: decodes bytes with the named encoding, or fails with the message of the UnicodeDecodeError. */
  type Codec = (string, seq<bv8>) -> Result<string, string>

  /** What `decode` is handed: bytes, an already-decoded string, or `None`. */
  datatype Stream = Bytes(data: seq<bv8>) | Text(s: string) | NoStream

  /** The decoding by the first encoding that succeeds, if any does. */
  function FirstDecoding(codec: Codec, encodings: seq<string>, data: seq<bv8>): Option<string> {
    if |encodings| == 0 then None
    else match codec(encodings[0], data)
      case Ok(s) => Some(s)
      case Err(_) => FirstDecoding(codec, encodings[1..], data)
  }

  /**
   * `FirstDecoding` finds a string exactly when some encoding succeeds,
   * and then it is that encoding's result with every earlier one failing.
   */
  lemma {:induction false} FirstDecodingMeaning(codec: Codec, encodings: seq<string>, data: seq<bv8>)
    ensures FirstDecoding(codec, encodings, data).None? <==> forall i :: 0 <= i < |encodings| ==> codec(encodings[i], data).Err?
    ensures FirstDecoding(codec, encodings, data).Some? ==>
              exists i :: 0 <= i < |encodings| && codec(encodings[i], data) == Ok(FirstDecoding(codec, encodings, data).value)
                          && forall j :: 0 <= j < i ==> codec(encodings[j], data).Err?
  {
    if |encodings| > 0 {
      FirstDecodingMeaning(codec, encodings[1..], data);
      if codec(encodings[0], data).Err? && FirstDecoding(codec, encodings, data).Some? {
        var i :| 0 <= i < |encodings[1..]| && codec(encodings[1..][i], data) == Ok(FirstDecoding(codec, encodings, data).value)
                 && forall j :: 0 <= j < i ==> codec(encodings[1..][j], data).Err?;
        assert codec(encodings[i + 1], data) == Ok(FirstDecoding(codec, encodings, data).value);
        assert forall j :: 1 <= j < i + 1 ==> codec(encodings[j], data).Err? by {
          forall j | 1 <= j < i + 1
            ensures codec(encodings[j], data).Err?
          {
            assert encodings[j] == encodings[1..][j - 1];
          }
        }
      }
      if FirstDecoding(codec, encodings, data).None? {
        forall i | 0 <= i < |encodings|
          ensures codec(encodings[i], data).Err?
        {
          if i > 0 {
            assert encodings[i] == encodings[1..][i - 1];
          }
        }
      }
    }
  }

  /**
   * `decode`: anything without a `decode` method is returned as it is;
   * bytes are decoded with the primary encoding, then each fallback in
   * turn, and when all fail the primary encoding's error is raised again.
   */
  method Decode(stream: Stream, encoding: string, fallbacks: seq<string>, codec: Codec)
    returns (r: Result<Option<string>, Exception>)
    ensures stream.Text? ==> r == Ok(Some(stream.s))
    ensures stream.NoStream? ==> r == Ok(None)
    ensures stream.Bytes? && FirstDecoding(codec, [encoding] + fallbacks, stream.data).Some? ==>
              r == Ok(FirstDecoding(codec, [encoding] + fallbacks, stream.data))
    ensures stream.Bytes? && FirstDecoding(codec, [encoding] + fallbacks, stream.data).None? ==>
              codec(encoding, stream.data).Err? && r == Err(Exception(UnicodeDecodeErrorKind, codec(encoding, stream.data).error))
  {
    match stream
    case Text(s) => return Ok(Some(s));
    case NoStream => return Ok(None);
    case Bytes(data) =>
      var primary := codec(encoding, data);
      if primary.Ok? {
        return Ok(Some(primary.value));
      }
      assert ([encoding] + fallbacks)[1..] == fallbacks;
      var i := 0;
      while i < |fallbacks|
        invariant 0 <= i <= |fallbacks|
        invariant FirstDecoding(codec, [encoding] + fallbacks, data) == FirstDecoding(codec, fallbacks[i..], data)
      {
        var attempt := codec(fallbacks[i], data);
        if attempt.Ok? {
          return Ok(Some(attempt.value));
        }
        assert fallbacks[i..][1..] == fallbacks[i + 1..];
        i := i + 1;
      }
      r := Err(Exception(UnicodeDecodeErrorKind, primary.error));
  }

  /** The strings a stream reader receives: each line that decodes, decoded, in order. */
  function DecodedLines(codec: Codec, encodings: seq<string>, lines: seq<seq<bv8>>): (r: seq<string>)
    ensures |r| <= |lines|
  {
    if |lines| == 0 then []
    else
      var last := FirstDecoding(codec, encodings, lines[|lines| - 1]);
      DecodedLines(codec, encodings, lines[..|lines| - 1]) + (if last.Some? then [last.value] else [])
  }

  /**
   * The reading loop of a streamed command: each line of the process's
   * output is decoded and handed to the stream reader; a line that cannot
   * be decoded only logs an error and the loop goes on.
   */
  method ReadStream(lines: seq<seq<bv8>>, encoding: string, fallbacks: seq<string>, codec: Codec)
    returns (delivered: seq<string>)
    ensures delivered == DecodedLines(codec, [encoding] + fallbacks, lines)
  {
    delivered := [];
    for i := 0 to |lines|
      invariant delivered == DecodedLines(codec, [encoding] + fallbacks, lines[..i])
    {
      var line := Decode(Bytes(lines[i]), encoding, fallbacks, codec);
      if line.Ok? {
        delivered := delivered + [line.value.value];
      }
      assert lines[..i + 1][..i] == lines[..i];
    }
    assert lines[..|lines|] == lines;
  }

  /** When every line decodes, the reader receives one string per line, each the line decoded. */
  lemma {:induction false} AllLinesDelivered(codec: Codec, encodings: seq<string>, lines: seq<seq<bv8>>)
    requires forall i :: 0 <= i < |lines| ==> FirstDecoding(codec, encodings, lines[i]).Some?
    ensures |DecodedLines(codec, encodings, lines)| == |lines|
    ensures forall i :: 0 <= i < |lines| ==> DecodedLines(codec, encodings, lines)[i] == FirstDecoding(codec, encodings, lines[i]).value
  {
    if |lines| > 0 {
      AllLinesDelivered(codec, encodings, lines[..|lines| - 1]);
    }
  }

  // ---------------------------------------------------------------------
  // The job of `run` / `Cmd.cmd`
  // ---------------------------------------------------------------------

  /** What the subprocess did, as seen by the job. */
  datatype Process =
      /** `Popen` or `communicate` raised. */
    | Failed(error: Exception)
      /** Output was streamed to a reader; `poll()` at the end. */
    | Streamed(poll: Option<int>)
      /** Output was captured: the return code and the two captured streams. */
    | Communicated(returncode: int, stdout: Stream, stderr: Stream)

  /** `(0, '', '')`, what the job gives for a failure when errors are ignored. */
  const IGNORED: Outputs := Outputs(Some(0), Some(""), Some(""))

  /**
   * The `[queue,thread,task]` tag the intended error messages start with,
   * the same three fields every other message of the job and the queue carries.
   */
  function Tag(queueName: string, threadIdent: int, taskId: int): string {
    "[" + queueName + "," + IntToString(threadIdent) + "," + IntToString(taskId) + "] "
  }

  /**
   * The job's handling of an OSError or a UnicodeDecodeError as evidently
   * intended: ignored errors give `(0, '', '')`, others a JobError value
   * (not raised) quoting the error or, for a decoding failure, the command.
   */
  function HandledFailure(e: Exception, ignoreErrors: bool, queueName: string, threadIdent: int, taskId: int, commandRepr: string)
    : (r: JobOutcome<Outputs>)
    requires e.kind == OSErrorKind || e.kind == UnicodeDecodeErrorKind
    ensures r.Returned?
    ensures ignoreErrors <==> r.outputs == Ok(IGNORED)
    ensures !ignoreErrors ==> r.outputs.Err? && r.outputs.error.kind == JobErrorKind
  {
    if ignoreErrors then Returned(Ok(IGNORED))
    else if e.kind == OSErrorKind then Returned(Err(JobError(Tag(queueName, threadIdent, taskId) + "Could not execute command: " + e.text)))
    else Returned(Err(JobError(Tag(queueName, threadIdent, taskId) + "Could not execute command: " + commandRepr)))
  }

  /** `str()` of the TypeError raised by `%` with too few values. */
  const FORMAT_ARGUMENTS_ERROR: string := "not enough arguments for format string"

  /**
   * The same handling as written: the message's format string has four
   * `%s` for three values, so building it raises a TypeError instead.
   */
  function HandledFailureAsWritten(e: Exception, ignoreErrors: bool): (r: JobOutcome<Outputs>)
    requires e.kind == OSErrorKind || e.kind == UnicodeDecodeErrorKind
    ensures ignoreErrors <==> r == Returned(Ok(IGNORED))
    ensures !ignoreErrors ==> r.Raised? && r.error.kind == TypeErrorKind
  {
    if ignoreErrors then Returned(Ok(IGNORED))
    else Raised(Exception(TypeErrorKind, FORMAT_ARGUMENTS_ERROR))
  }

  /** The corrected handler the job is run with. */
  function Handler(ignoreErrors: bool, queueName: string, threadIdent: int, taskId: int, commandRepr: string): Exception -> JobOutcome<Outputs> {
    (e: Exception) => if e.kind == OSErrorKind || e.kind == UnicodeDecodeErrorKind then HandledFailure(e, ignoreErrors, queueName, threadIdent, taskId, commandRepr)
         else Raised(e)
  }

  /** The handler as written. */
  function HandlerAsWritten(ignoreErrors: bool): Exception -> JobOutcome<Outputs> {
    (e: Exception) => if e.kind == OSErrorKind || e.kind == UnicodeDecodeErrorKind then HandledFailureAsWritten(e, ignoreErrors)
         else Raised(e)
  }

  /**
   * The job of `run`: its outputs from what the subprocess did; OSError
   * and UnicodeDecodeError, including one from decoding the captured
   * output, go through `handle`, and any other exception propagates.
   */
  method RunJob(process: Process, ignoreErrors: bool, encoding: string, fallbacks: seq<string>, codec: Codec,
                handle: Exception -> JobOutcome<Outputs>)
    returns (r: JobOutcome<Outputs>)
    ensures process.Failed? && (process.error.kind == OSErrorKind || process.error.kind == UnicodeDecodeErrorKind) ==>
              r == handle(process.error)
    ensures process.Failed? && !(process.error.kind == OSErrorKind || process.error.kind == UnicodeDecodeErrorKind) ==>
              r == Raised(process.error)
    ensures process.Streamed? ==> r == Returned(Ok(Outputs(process.poll, None, None)))
    ensures process.Communicated? ==>
              var out := StreamDecoding(process.stdout, [encoding] + fallbacks, codec);
              var err := StreamDecoding(process.stderr, [encoding] + fallbacks, codec);
              && (out.Some? && err.Some? ==> r == Returned(Ok(Outputs(Some(process.returncode), out.value, err.value))))
              && (out.None? ==> r == handle(Exception(UnicodeDecodeErrorKind, codec(encoding, process.stdout.data).error)))
              && (out.Some? && err.None? ==> r == handle(Exception(UnicodeDecodeErrorKind, codec(encoding, process.stderr.data).error)))
  {
    match process
    case Failed(e) =>
      if e.kind == OSErrorKind || e.kind == UnicodeDecodeErrorKind {
        r := handle(e);
      } else {
        r := Raised(e);
      }
    case Streamed(poll) =>
      r := Returned(Ok(Outputs(poll, None, None)));
    case Communicated(returncode, stdout, stderr) =>
      var out := Decode(stdout, encoding, fallbacks, codec);
      if out.Err? {
        return handle(out.error);
      }
      var err := Decode(stderr, encoding, fallbacks, codec);
      if err.Err? {
        return handle(err.error);
      }
      r := Returned(Ok(Outputs(Some(returncode), out.value, err.value)));
  }

  /** What `decode` makes of a stream: `Some` of its value, or `None` when it raises. */
  function StreamDecoding(stream: Stream, encodings: seq<string>, codec: Codec): Option<Option<string>> {
    match stream
    case Text(s) => Some(Some(s))
    case NoStream => Some(None)
    case Bytes(data) =>
      var d := FirstDecoding(codec, encodings, data);
      if d.Some? then Some(d) else None
  }

  /**
   * A command that cannot be started, with errors not ignored: as written
   * the job raises a TypeError, which the queue turns into an "Unhandled
   * exception" JobError; as intended it returns a JobError quoting the
   * OSError, which is what the caller then raises.
   */
  lemma MissingExecutable(e: Exception, queueName: string, threadIdent: int, taskId: int, commandRepr: string)
    requires e.kind == OSErrorKind
    ensures Delivered(HandledFailureAsWritten(e, false))
            == Err(JobError("Unhandled exception in queue command: " + FORMAT_ARGUMENTS_ERROR))
    ensures Delivered(HandledFailure(e, false, queueName, threadIdent, taskId, commandRepr))
            == Err(JobError(Tag(queueName, threadIdent, taskId) + "Could not execute command: " + e.text))
    ensures Inline(HandledFailureAsWritten(e, false)).error.kind == TypeErrorKind
  {
  }

  // ---------------------------------------------------------------------
  // Exit-code checks of the callers
  // ---------------------------------------------------------------------

  /** `str(error_code)`: `poll()` may give `None`. */
  function CodeText(code: Option<int>): string {
    if code.Some? then IntToString(code.value) else "None"
  }

  /** The exit code counts as a failure: `error_code not in success_codes`. */
  predicate Failing(code: Option<int>, successCodes: seq<int>) {
    code.None? || code.value !in successCodes
  }

  /** The head of the failure message. */
  function FailureHead(command: seq<string>, code: Option<int>): string {
    "Error when executing command \"" + Join(command, " ") + "\" (exit code " + CodeText(code)
  }

  /** The output quoted by a failure: stderr, unless it is `None`, then stdout. */
  function Quoted(outputs: Outputs): Option<string> {
    if outputs.stderr.None? then outputs.stdout else outputs.stderr
  }

  /**
   * `get_output` / `cmd_string` on what the command run gave: it raises a
   * JobError exactly when errors are not ignored and the exit code is not
   * a success code, quoting the output when there is some; otherwise it
   * returns stdout.
   */
  function CheckedStdout(command: seq<string>, ignoreErrors: bool, successCodes: seq<int>,
                         run: Result<Outputs, Exception>)
    : (r: Result<Option<string>, Exception>)
    ensures run.Err? ==> r == Err(run.error)
    ensures run.Ok? ==> (r.Err? <==> !ignoreErrors && Failing(run.value.code, successCodes))
    ensures run.Ok? && r.Ok? ==> r.value == run.value.stdout
    ensures run.Ok? && r.Err? ==>
              && r.error.kind == JobErrorKind
              && StartsWith(r.error.text, FailureHead(command, run.value.code))
              && var q := Quoted(run.value);
                 && (q.Some? && q.value != "" ==>
                       && EndsWith(r.error.text, "):\n\n" + q.value)
                       && r.error.text == FailureHead(command, run.value.code) + "):\n\n" + q.value)
                 && (q.None? || q.value == "" ==> r.error.text == FailureHead(command, run.value.code) + ").")
  {
    match run
    case Err(e) => Err(e)
    case Ok(outputs) =>
      if !ignoreErrors && Failing(outputs.code, successCodes) then
        var head := FailureHead(command, outputs.code);
        var message := Quoted(outputs);
        if message.Some? && message.value != "" then
          var text := head + "):\n\n" + message.value;
          assert StartsWith(text, head) by { assert text[..|head|] == head; }
          assert EndsWith(text, "):\n\n" + message.value) by {
            assert text[|text| - |"):\n\n" + message.value|..] == "):\n\n" + message.value;
          }
          Err(JobError(text))
        else
          var text := head + ").";
          assert StartsWith(text, head) by { assert text[..|head|] == head; }
          Err(JobError(text))
      else Ok(outputs.stdout)
  }

  /** With stderr merged into stdout (`stderr=STDOUT`), `communicate` gives no stderr, so a failure quotes stdout. */
  lemma MergedStderrQuotesStdout(command: seq<string>, successCodes: seq<int>, code: Option<int>, stdout: string)
    requires stdout != "" && Failing(code, successCodes)
    ensures var r := CheckedStdout(command, false, successCodes, Ok(Outputs(code, Some(stdout), None)));
            r.Err? && r.error.text == FailureHead(command, code) + "):\n\n" + stdout
  {
  }

  /**
   * `get_output_streamed` / `cmd_streamed`: raises (the result) exactly
   * when errors are not ignored and the exit code is not a success code,
   * naming the command and code but quoting no output.
   */
  function CheckedStreamed(command: seq<string>, ignoreErrors: bool, successCodes: seq<int>,
                           run: Result<Outputs, Exception>)
    : (r: Option<Exception>)
    ensures run.Err? ==> r == Some(run.error)
    ensures run.Ok? ==> (r.Some? <==> !ignoreErrors && Failing(run.value.code, successCodes))
    ensures run.Ok? && r.Some? ==> r.value == JobError(FailureHead(command, run.value.code) + ").")
  {
    match run
    case Err(e) => Some(e)
    case Ok(outputs) =>
      if !ignoreErrors && Failing(outputs.code, successCodes) then Some(JobError(FailureHead(command, outputs.code) + ")."))
      else None
  }

  // ---------------------------------------------------------------------
  // `get_decoding_error`
  // ---------------------------------------------------------------------

  const DECODING_ERROR_HEAD: string := ". The following encodings were tried:\n\n"
  const DECODING_ERROR_TAIL: string := "\n\nTry adjusting the fallback_encodings setting."

  /** `get_decoding_error`: names the program and lists the encodings tried, one per line. */
  function DecodingError(bin: string, encoding: string, fallbacks: seq<string>): (r: string)
  {
    "Could not decode output from " + bin + DECODING_ERROR_HEAD + Join([encoding] + fallbacks, "\n") + DECODING_ERROR_TAIL
  }

  /**
   * The list in the message gives back the encodings tried, primary first,
   * when no encoding name holds a newline.
   */
  lemma DecodingErrorLists(bin: string, encoding: string, fallbacks: seq<string>)
    requires forall e :: e in [encoding] + fallbacks ==> '\n' !in e
    ensures var r := DecodingError(bin, encoding, fallbacks);
            var start := |"Could not decode output from " + bin + DECODING_ERROR_HEAD|;
            && start <= |r| - |DECODING_ERROR_TAIL|
            && Split(r[start..|r| - |DECODING_ERROR_TAIL|], "\n") == [encoding] + fallbacks
  {
    var encodings := [encoding] + fallbacks;
    var head := "Could not decode output from " + bin + DECODING_ERROR_HEAD;
    var listed := Join(encodings, "\n");
    var r := DecodingError(bin, encoding, fallbacks);
    assert r == head + listed + DECODING_ERROR_TAIL;
    assert r[|head|..|r| - |DECODING_ERROR_TAIL|] == listed;
    forall k | 0 <= k < |encodings|
      ensures '\n' !in encodings[k]
    {
      assert encodings[k] in encodings;
    }
    SplitJoinChar(encodings, '\n');
  }
}

=== FILE: json.dfy ===
/** Values as Python's `json.loads` returns them, and Python's truthiness of such values. */
module Json {
  import opened Wrappers

  datatype Value =
    | Null
    | Bool(b: bool)
    | Int(i: int)
    | Str(s: string)
    | Array(items: seq<Value>)
    | Object(fields: map<string, Value>)

  /** Python's `bool(v)`: false exactly for None, False, 0, and empty strings, lists and dicts. */
  predicate Truthy(v: Value) {
    match v
    case Null => false
    case Bool(b) => b
    case Int(i) => i != 0
    case Str(s) => |s| > 0
    case Array(items) => |items| > 0
    case Object(fields) => |fields| > 0
  }

  /**
   * Python's `for x in v` where each `x` is then indexed by a string key:
   * a list gives its items, an empty string or dict gives nothing, and
   * anything else raises (`None`) — a scalar is not iterable, and the
   * characters or keys a non-empty string or dict yields cannot be indexed
   * by a string.
   */
  function Elements(v: Value): (r: Option<seq<Value>>)
    ensures v.Array? ==> r == Some(v.items)
    ensures r.Some? && !v.Array? ==> r == Some([]) && !Truthy(v)
  {
    match v
    case Array(items) => Some(items)
    case Str(s) => if |s| == 0 then Some([]) else None
    case Object(fields) => if |fields| == 0 then Some([]) else None
    case _ => None
  }
}

=== FILE: list.dfy ===
/**
 * The test explorer's list view, apart from the editor: which items are
 * visible under the status filters, how single-child nodes fold into
 * their child's prefix, the text of each line and its padding, the status
 * and filter summaries, `goto` arguments, wrap-around navigation between
 * regions, and the filter toggles.
 */
module ExplorerList {
  import opened Wrappers
  import opened Strings
  import Events

  datatype LastStatus = NotRun | Failed | Crashed | Stopped | Skipped | Passed
  datatype RunStatus = NotRunning | Running | Queued

  function LastStatusValue(s: LastStatus): string {
    match s
    case NotRun => "not_run"
    case Failed => "failed"
    case Crashed => "crashed"
    case Stopped => "stopped"
    case Skipped => "skipped"
    case Passed => "passed"
  }

  function RunStatusValue(s: RunStatus): string {
    match s
    case NotRunning => "not_running"
    case Running => "running"
    case Queued => "queued"
  }

  /**
   * An item of the test list as the view sees it. `hasChildren` says
   * whether `children` is a dictionary (an internal node) rather than
   * `None` (a test); `children` lists the dictionary's values in order.
   */
  datatype ListItem = ListItem(name: string, lastStatus: LastStatus, runStatus: RunStatus,
                               hasChildren: bool, children: seq<ListItem>)

  /** The visibility filter: one flag per last status; empty stands for no filter (`None` or `{}`). */
  type Visibility = map<string, bool>

  /** A filter that can be looked up for every last status: empty, or holding all of them. */
  predicate Covers(visibility: Visibility) {
    |visibility| == 0 || forall s: LastStatus :: LastStatusValue(s) in visibility
  }

  const END_OF_NAME_MARKER: char := '​'

  /** `STATUS_SYMBOL`; `not_running` has none, and `item_display_status` never asks for it. */
  function StatusSymbol(status: string): Option<string> {
    if status == "not_run" then Some("_")
    else if status == "failed" then Some("X")
    else if status == "crashed" then Some("!")
    else if status == "stopped" then Some("?")
    else if status == "skipped" then Some("S")
    else if status == "passed" then Some("✓")
    else if status == "running" then Some("R")
    else if status == "queued" then Some("Q")
    else None
  }

  /** `STATUS_NAME`. */
  function StatusName(key: string): Option<string> {
    if key == "not_run" then Some("not-run")
    else if key in {"failed", "crashed", "stopped", "skipped", "passed", "total"} then Some(key)
    else None
  }

  // ---------------------------------------------------------------------
  // Prefixes, display status and visibility
  // ---------------------------------------------------------------------

  /** `add_prefix`: empty only when both parts are; otherwise both parts and one separator. */
  function AddPrefix(prefix: string, add: string): (r: string)
    ensures r == "" <==> prefix == "" && add == ""
    ensures r != "" ==> r == prefix + add + Events.TEST_SEPARATOR
    ensures r != "" ==> EndsWith(r, Events.TEST_SEPARATOR)
  {
    if |add| == 0 && |prefix| == 0 then ""
    else if |add| == 0 then prefix + Events.TEST_SEPARATOR
    else if |prefix| == 0 then add + Events.TEST_SEPARATOR
    else prefix + add + Events.TEST_SEPARATOR
  }

  /** `item_display_status`: the run status while the test is queued or running, else its last status. */
  function DisplayStatus(item: ListItem): (r: string)
    ensures StatusSymbol(r).Some?
  {
    if item.runStatus != NotRunning then RunStatusValue(item.runStatus) else LastStatusValue(item.lastStatus)
  }

  /** `item_is_visible`. */
  predicate Visible(item: ListItem, visibility: Visibility)
    requires Covers(visibility)
    decreases item
  {
    if |visibility| == 0 then true
    else if item.hasChildren then exists k :: 0 <= k < |item.children| && Visible(item.children[k], visibility)
    else if item.runStatus != NotRunning then true
    else visibility[LastStatusValue(item.lastStatus)]
  }

  /** The tests under an item, left to right; a test is its own only test. */
  function Leaves(item: ListItem): seq<ListItem>
    decreases item, 1, 0
  {
    if item.hasChildren then LeavesIn(item, |item.children|) else [item]
  }

  function LeavesIn(parent: ListItem, n: nat): seq<ListItem>
    requires n <= |parent.children|
    decreases parent, 0, n
  {
    if n == 0 then [] else LeavesIn(parent, n - 1) + Leaves(parent.children[n - 1])
  }

  /** A test passes the filter when it is queued or running, or when its last status is shown. */
  predicate LeafShown(leaf: ListItem, visibility: Visibility)
    requires Covers(visibility)
  {
    |visibility| == 0 || leaf.runStatus != NotRunning || visibility[LastStatusValue(leaf.lastStatus)]
  }

  /** Some test among `leaves` passes the filter. */
  predicate SomeShown(leaves: seq<ListItem>, visibility: Visibility)
    requires Covers(visibility)
  {
    exists k :: 0 <= k < |leaves| && !leaves[k].hasChildren && LeafShown(leaves[k], visibility)
  }

  lemma SomeShownAppend(a: seq<ListItem>, b: seq<ListItem>, visibility: Visibility)
    requires Covers(visibility)
    ensures SomeShown(a + b, visibility) <==> SomeShown(a, visibility) || SomeShown(b, visibility)
  {
    if SomeShown(a + b, visibility) {
      var k :| 0 <= k < |a + b| && !(a + b)[k].hasChildren && LeafShown((a + b)[k], visibility);
      if k >= |a| {
        assert (a + b)[k] == b[k - |a|];
      } else {
        assert (a + b)[k] == a[k];
      }
    }
    if SomeShown(a, visibility) {
      var k :| 0 <= k < |a| && !a[k].hasChildren && LeafShown(a[k], visibility);
      assert (a + b)[k] == a[k];
    }
    if SomeShown(b, visibility) {
      var k :| 0 <= k < |b| && !b[k].hasChildren && LeafShown(b[k], visibility);
      assert (a + b)[|a| + k] == b[k];
    }
  }

  /** Some of the first `n` children of `parent` is visible. */
  predicate AnyChildVisible(parent: ListItem, n: nat, visibility: Visibility)
    requires Covers(visibility) && n <= |parent.children|
  {
    exists k :: 0 <= k < n && Visible(parent.children[k], visibility)
  }

  /**
   * Under a filter, an item is visible exactly when some test under it
   * passes the filter; so a node without tests is hidden.
   */
  lemma {:induction false} VisibleIffShownLeaf(item: ListItem, visibility: Visibility)
    requires Covers(visibility) && |visibility| > 0
    ensures Visible(item, visibility) <==> SomeShown(Leaves(item), visibility)
    decreases item, 1, 0
  {
    if item.hasChildren {
      VisibleIffShownLeafIn(item, |item.children|, visibility);
      assert Visible(item, visibility) <==> AnyChildVisible(item, |item.children|, visibility);
    } else {
      assert Leaves(item) == [item];
      assert Visible(item, visibility) <==> LeafShown(item, visibility);
      assert SomeShown([item], visibility) <==> LeafShown([item][0], visibility);
    }
  }

  lemma {:induction false} VisibleIffShownLeafIn(parent: ListItem, n: nat, visibility: Visibility)
    requires Covers(visibility) && |visibility| > 0 && n <= |parent.children|
    ensures AnyChildVisible(parent, n, visibility) <==> SomeShown(LeavesIn(parent, n), visibility)
    decreases parent, 0, n
  {
    if n > 0 {
      VisibleIffShownLeafIn(parent, n - 1, visibility);
      VisibleIffShownLeaf(parent.children[n - 1], visibility);
      SomeShownAppend(LeavesIn(parent, n - 1), Leaves(parent.children[n - 1]), visibility);
      assert AnyChildVisible(parent, n, visibility)
             <==> AnyChildVisible(parent, n - 1, visibility) || Visible(parent.children[n - 1], visibility);
    }
  }

  /** The rules of `item_is_visible`, one by one. */
  lemma VisibleRules(item: ListItem, visibility: Visibility)
    requires Covers(visibility)
    ensures |visibility| == 0 ==> Visible(item, visibility)
    ensures |visibility| > 0 && item.hasChildren ==>
              (Visible(item, visibility) <==> exists k :: 0 <= k < |item.children| && Visible(item.children[k], visibility))
    ensures |visibility| > 0 && !item.hasChildren && item.runStatus != NotRunning ==> Visible(item, visibility)
    ensures |visibility| > 0 && !item.hasChildren && item.runStatus == NotRunning ==>
              (Visible(item, visibility) <==> visibility[LastStatusValue(item.lastStatus)])
  {
  }

  // ---------------------------------------------------------------------
  // Lines of the list (`build_item`, `build_items`, `build_tests`)
  // ---------------------------------------------------------------------

  /** `build_item`: indentation, the fold mark, the status symbol, then the prefixed name between two markers. */
  function BuildItem(item: ListItem, depth: nat, prefix: string): (r: string)
    ensures var n := 2 + 2 * depth;
            && |r| > n + 1
            && r[..n] == Repeat(' ', n)
            && (r[n] == '-' <==> item.hasChildren)
            && r[n + 1] == ' '
            && r[n + 2..] == "[" + StatusSymbol(DisplayStatus(item)).value + "] "
                             + [END_OF_NAME_MARKER] + prefix + item.name + [END_OF_NAME_MARKER]
  {
    var indent := Repeat(' ', 2 * depth);
    var symbol := "[" + StatusSymbol(DisplayStatus(item)).value + "]";
    var fold := if item.hasChildren then "- " else "  ";
    var head := "  " + indent;
    var tail := symbol + " " + [END_OF_NAME_MARKER] + prefix + item.name + [END_OF_NAME_MARKER];
    assert head == Repeat(' ', 2 + 2 * depth);
    assert tail == "[" + StatusSymbol(DisplayStatus(item)).value + "] " + [END_OF_NAME_MARKER] + prefix + item.name + [END_OF_NAME_MARKER];
    var r := head + fold + tail;
    assert r[..|head|] == head && r[|head|] == fold[0] && r[|head| + 1] == ' ' && r[|head| + 2..] == tail;
    r
  }

  /** One line of the list: the item it shows and its text. */
  datatype Line = Line(item: ListItem, text: string)

  /**
   * The lines `build_items` gives for an item: a node with more than one
   * child shows its own line (unless it is the hidden parent or is
   * invisible), then its children one level deeper under its name; a node
   * with one child shows no line, and its child stays at the same depth
   * with the node's name folded into its prefix.
   */
  function Lines(item: ListItem, depth: nat, prefix: string, visibility: Visibility, hideParent: bool): seq<Line>
    requires Covers(visibility)
    decreases item, 1, 0
  {
    if item.hasChildren && |item.children| > 0 then
      var fold := |item.children| == 1;
      var own := if !hideParent && !fold && Visible(item, visibility) then [Line(item, BuildItem(item, depth, prefix))] else [];
      var newDepth := if !hideParent && !fold then depth + 1 else depth;
      var newPrefix := if !hideParent then AddPrefix(prefix, item.name) else "";
      own + ChildLines(item, |item.children|, newDepth, newPrefix, visibility)
    else if !hideParent && Visible(item, visibility) then [Line(item, BuildItem(item, depth, prefix))]
    else []
  }

  /** The lines of the first `n` children of `parent`, in order, each child given the same depth and prefix. */
  function ChildLines(parent: ListItem, n: nat, depth: nat, prefix: string, visibility: Visibility): seq<Line>
    requires Covers(visibility) && n <= |parent.children|
    decreases parent, 0, n
  {
    if n == 0 then []
    else ChildLines(parent, n - 1, depth, prefix, visibility) + Lines(parent.children[n - 1], depth, prefix, visibility, false)
  }

  /** A node with a single child shows no line of its own: its child takes its depth, with the node's name folded into the prefix. */
  lemma SingleChildFolds(item: ListItem, depth: nat, prefix: string, visibility: Visibility)
    requires Covers(visibility) && item.hasChildren && |item.children| == 1
    ensures Lines(item, depth, prefix, visibility, false)
            == Lines(item.children[0], depth, AddPrefix(prefix, item.name), visibility, false)
  {
    assert ChildLines(item, 1, depth, AddPrefix(prefix, item.name), visibility)
           == Lines(item.children[0], depth, AddPrefix(prefix, item.name), visibility, false);
  }

  /** The hidden parent shows no line, and its children start at its depth with an empty prefix. */
  lemma HiddenParent(item: ListItem, depth: nat, prefix: string, visibility: Visibility)
    requires Covers(visibility)
    ensures Lines(item, depth, prefix, visibility, true)
            == if item.hasChildren then ChildLines(item, |item.children|, depth, "", visibility) else []
  {
    if item.hasChildren && |item.children| == 0 {
      assert ChildLines(item, 0, depth, "", visibility) == [];
    }
  }

  /** A node with several children shows its line, when visible, before those of its children one level deeper. */
  lemma SeveralChildrenIndent(item: ListItem, depth: nat, prefix: string, visibility: Visibility)
    requires Covers(visibility) && item.hasChildren && |item.children| > 1
    ensures Lines(item, depth, prefix, visibility, false)
            == (if Visible(item, visibility) then [Line(item, BuildItem(item, depth, prefix))] else [])
               + ChildLines(item, |item.children|, depth + 1, AddPrefix(prefix, item.name), visibility)
  {
  }

  /** A line of a visible item, and of a node with several children when it is a node at all. */
  predicate Shown(line: Line, visibility: Visibility)
    requires Covers(visibility)
  {
    Visible(line.item, visibility) && (line.item.hasChildren && |line.item.children| > 0 ==> |line.item.children| > 1)
  }

  predicate AllShown(lines: seq<Line>, visibility: Visibility)
    requires Covers(visibility)
  {
    forall k :: 0 <= k < |lines| ==> Shown(lines[k], visibility)
  }

  lemma ConcatShown(a: seq<Line>, b: seq<Line>, visibility: Visibility)
    requires Covers(visibility) && AllShown(a, visibility) && AllShown(b, visibility)
    ensures AllShown(a + b, visibility)
  {
    forall k | 0 <= k < |a + b|
      ensures Shown((a + b)[k], visibility)
    {
      if k < |a| {
        assert (a + b)[k] == a[k];
      } else {
        assert (a + b)[k] == b[k - |a|];
      }
    }
  }

  /** Every line the list shows is that of a visible item, and a shown node is one with several children. */
  lemma {:induction false} LinesVisible(item: ListItem, depth: nat, prefix: string, visibility: Visibility, hideParent: bool)
    requires Covers(visibility)
    ensures AllShown(Lines(item, depth, prefix, visibility, hideParent), visibility)
    decreases item, 1, 0
  {
    if item.hasChildren && |item.children| > 0 {
      var fold := |item.children| == 1;
      var own := if !hideParent && !fold && Visible(item, visibility) then [Line(item, BuildItem(item, depth, prefix))] else [];
      var newDepth := if !hideParent && !fold then depth + 1 else depth;
      var newPrefix := if !hideParent then AddPrefix(prefix, item.name) else "";
      ChildLinesVisible(item, |item.children|, newDepth, newPrefix, visibility);
      assert AllShown(own, visibility);
      ConcatShown(own, ChildLines(item, |item.children|, newDepth, newPrefix, visibility), visibility);
    }
  }

  lemma {:induction false} ChildLinesVisible(parent: ListItem, n: nat, depth: nat, prefix: string, visibility: Visibility)
    requires Covers(visibility) && n <= |parent.children|
    ensures AllShown(ChildLines(parent, n, depth, prefix, visibility), visibility)
    decreases parent, 0, n
  {
    if n > 0 {
      ChildLinesVisible(parent, n - 1, depth, prefix, visibility);
      LinesVisible(parent.children[n - 1], depth, prefix, visibility, false);
      ConcatShown(ChildLines(parent, n - 1, depth, prefix, visibility), Lines(parent.children[n - 1], depth, prefix, visibility, false), visibility);
    }
  }

  /** `build_items`: the item's own line if any, then each child's lines in turn. */
  method BuildItems(item: ListItem, depth: nat, prefix: string, visibility: Visibility, hideParent: bool)
    returns (lines: seq<Line>)
    requires Covers(visibility)
    ensures lines == Lines(item, depth, prefix, visibility, hideParent)
    decreases item, 1
  {
    lines := [];
    if item.hasChildren && |item.children| > 0 {
      var fold := |item.children| == 1;
      if !hideParent && !fold && Visible(item, visibility) {
        lines := lines + [Line(item, BuildItem(item, depth, prefix))];
      }
      var newDepth, newPrefix;
      if !hideParent {
        newDepth := if !fold then depth + 1 else depth;
        newPrefix := AddPrefix(prefix, item.name);
      } else {
        newDepth := depth;
        newPrefix := "";
      }
      var childLines := BuildChildItems(item, newDepth, newPrefix, visibility);
      LinesOfNode(item, depth, prefix, visibility, hideParent, lines, newDepth, newPrefix);
      lines := lines + childLines;
    } else {
      if !hideParent && Visible(item, visibility) {
        lines := lines + [Line(item, BuildItem(item, depth, prefix))];
      }
    }
  }

  /** The loop of `build_items` over the children: each child's lines in turn, all at the same depth and prefix. */
  method BuildChildItems(item: ListItem, depth: nat, prefix: string, visibility: Visibility) returns (lines: seq<Line>)
    requires Covers(visibility)
    ensures lines == ChildLines(item, |item.children|, depth, prefix, visibility)
    decreases item, 0
  {
    lines := [];
    for i := 0 to |item.children|
      invariant lines == ChildLines(item, i, depth, prefix, visibility)
    {
      ChildLinesSnoc(item, i, depth, prefix, visibility);
      var childLines := BuildItems(item.children[i], depth, prefix, visibility, false);
      lines := lines + childLines;
    }
  }

  /** The lines of one more child follow those of the children before it. */
  lemma ChildLinesSnoc(parent: ListItem, i: nat, depth: nat, prefix: string, visibility: Visibility)
    requires Covers(visibility) && i < |parent.children|
    ensures ChildLines(parent, i + 1, depth, prefix, visibility)
            == ChildLines(parent, i, depth, prefix, visibility) + Lines(parent.children[i], depth, prefix, visibility, false)
  {
  }

  /** How `Lines` unfolds on a node with children, in the terms `build_items` computes them. */
  lemma LinesOfNode(item: ListItem, depth: nat, prefix: string, visibility: Visibility, hideParent: bool,
                    own: seq<Line>, newDepth: nat, newPrefix: string)
    requires Covers(visibility) && item.hasChildren && |item.children| > 0
    requires own == if !hideParent && |item.children| != 1 && Visible(item, visibility)
                    then [Line(item, BuildItem(item, depth, prefix))] else []
    requires newDepth == if !hideParent && |item.children| != 1 then depth + 1 else depth
    requires newPrefix == if !hideParent then AddPrefix(prefix, item.name) else ""
    ensures Lines(item, depth, prefix, visibility, hideParent)
            == own + ChildLines(item, |item.children|, newDepth, newPrefix, visibility)
  {
  }

  /** The length of the longest text among the lines. */
  function MaxLength(lines: seq<Line>): (r: nat)
    ensures forall k :: 0 <= k < |lines| ==> |lines[k].text| <= r
    ensures |lines| > 0 ==> exists k :: 0 <= k < |lines| && |lines[k].text| == r
    decreases |lines|
  {
    if |lines| == 0 then 0
    else
      var m := MaxLength(lines[..|lines| - 1]);
      assert forall k :: 0 <= k < |lines| - 1 ==> lines[..|lines| - 1][k] == lines[k];
      if |lines[|lines| - 1].text| > m then |lines[|lines| - 1].text| else m
  }

  /** `build_info`: the line padded to `maxLength`, four spaces, then the item's summary. */
  function BuildInfo(line: Line, maxLength: nat, summary: ListItem -> string): (r: string)
    requires |line.text| <= maxLength
    ensures |r| == maxLength + 4 + |summary(line.item)|
    ensures r[..maxLength] == line.text + Repeat(' ', maxLength - |line.text|)
    ensures r[maxLength..] == "    " + summary(line.item)
  {
    line.text + Repeat(' ', maxLength - |line.text|) + "    " + summary(line.item)
  }

  /** Each line padded to the longest one and followed by its summary. */
  function PadLines(lines: seq<Line>, summary: ListItem -> string): (r: seq<string>)
    ensures |r| == |lines|
    ensures forall k :: 0 <= k < |r| ==> r[k] == BuildInfo(lines[k], MaxLength(lines), summary)
  {
    if |lines| == 0 then []
    else
      var m := MaxLength(lines);
      seq(|lines|, k requires 0 <= k < |lines| => BuildInfo(lines[k], m, summary))
  }

  /**
   * `build_tests`: the lines of the root's children with the root hidden,
   * padded (`summary` stands for the statistics of a node or the last run
   * of a test); nothing when no line is visible.
   */
  function BuildTests(root: ListItem, visibility: Visibility, summary: ListItem -> string): (r: seq<string>)
    requires Covers(visibility) && root.hasChildren
    ensures |r| == |Lines(root, 0, "", visibility, true)|
  {
    PadLines(Lines(root, 0, "", visibility, true), summary)
  }

  /**
   * Every padded line is its list line padded to the width of the longest
   * one, then four spaces and the summary; the longest line gets no padding.
   */
  lemma PaddedToLongest(lines: seq<Line>, summary: ListItem -> string)
    requires |lines| > 0
    ensures exists k :: 0 <= k < |lines| && PadLines(lines, summary)[k][..MaxLength(lines)] == lines[k].text
  {
    var r := PadLines(lines, summary);
    var m := MaxLength(lines);
    var k :| 0 <= k < |lines| && |lines[k].text| == m;
    assert r[k][..m] == lines[k].text + Repeat(' ', 0);
    assert lines[k].text + Repeat(' ', 0) == lines[k].text;
  }

  // ---------------------------------------------------------------------
  // Status and filter summaries
  // ---------------------------------------------------------------------

  const VISIBLE_DISPLAYS := ["failed", "skipped", "passed", "not_run"]

  /** The keys `stats_to_string` reads. */
  predicate StatsKeys(stats: map<string, int>) {
    forall k :: k in ["failed", "crashed", "skipped", "passed", "not_run", "stopped", "total"] ==> k in stats
  }

  function StatsField(key: string, count: int): string
    requires StatusName(key).Some?
  {
    StatusName(key).value + ":" + IntToString(count)
  }

  /**
   * `stats_to_string`: folds `crashed` into `failed` and `stopped` into
   * `not_run` in the caller's dictionary, then shows failed, skipped,
   * passed, not-run and total in that order.
   */
  method StatsToString(stats: map<string, int>) returns (updated: map<string, int>, text: string)
    requires StatsKeys(stats)
    ensures updated.Keys == stats.Keys
    ensures updated["failed"] == stats["failed"] + stats["crashed"]
    ensures updated["not_run"] == stats["not_run"] + stats["stopped"]
    ensures forall k :: k in stats && k != "failed" && k != "not_run" ==> updated[k] == stats[k]
    ensures text == Join([StatsField("failed", stats["failed"] + stats["crashed"]),
                          StatsField("skipped", stats["skipped"]),
                          StatsField("passed", stats["passed"]),
                          StatsField("not_run", stats["not_run"] + stats["stopped"]),
                          StatsField("total", stats["total"])], " | ")
  {
    updated := stats;
    updated := updated["failed" := updated["failed"] + updated["crashed"]];
    updated := updated["not_run" := updated["not_run"] + updated["stopped"]];
    text := Join([StatsField("failed", updated["failed"]),
                  StatsField("skipped", updated["skipped"]),
                  StatsField("passed", updated["passed"]),
                  StatsField("not_run", updated["not_run"]),
                  StatsField("total", updated["total"])], " | ");
  }

  /** Folding twice counts the crashed and stopped tests twice: the dictionary is changed, not copied. */
  lemma StatsFoldedTwice(stats: map<string, int>)
    requires StatsKeys(stats)
    ensures var once := stats["failed" := stats["failed"] + stats["crashed"]]["not_run" := stats["not_run"] + stats["stopped"]];
            var twice := once["failed" := once["failed"] + once["crashed"]]["not_run" := once["not_run"] + once["stopped"]];
            twice["failed"] == stats["failed"] + 2 * stats["crashed"]
  {
  }

  function VisibleField(key: string, shown: bool): string
    requires StatusName(key).Some?
  {
    (if shown then "[X] " else "[ ] ") + StatusName(key).value
  }

  /** `visible_to_string`: one box per status, checked exactly when the status is shown. */
  function VisibleToString(visibility: Visibility): (r: string)
    requires forall k :: k in VISIBLE_DISPLAYS ==> k in visibility
    ensures var fields := seq(|VISIBLE_DISPLAYS|, j requires 0 <= j < |VISIBLE_DISPLAYS| =>
                               VisibleField(VISIBLE_DISPLAYS[j], visibility[VISIBLE_DISPLAYS[j]]));
            && r == Join(fields, " | ")
            && forall j :: 0 <= j < |fields| ==> (fields[j][1] == 'X' <==> visibility[VISIBLE_DISPLAYS[j]])
  {
    var fields := seq(|VISIBLE_DISPLAYS|, j requires 0 <= j < |VISIBLE_DISPLAYS| =>
                        VisibleField(VISIBLE_DISPLAYS[j], visibility[VISIBLE_DISPLAYS[j]]));
    Join(fields, " | ")
  }

  // ---------------------------------------------------------------------
  // `goto` arguments and region navigation
  // ---------------------------------------------------------------------

  /** A `goto` field: an integer when `int()` accepts the text, the text otherwise. */
  datatype GotoField = Number(n: int) | Text(s: string)

  function GotoValue(s: string): (r: GotoField)
    ensures r.Number? <==> ParseInt(s).Some?
    ensures r.Number? ==> r.n == ParseInt(s).value
    ensures r.Text? ==> r.s == s
  {
    match ParseInt(s)
    case Some(n) => Number(n)
    case None => Text(s)
  }

  /** `parse_goto`: what, which and where, split on `:`; fields beyond the third are ignored. */
  function ParseGoto(goto: string): (r: (string, Option<GotoField>, Option<GotoField>))
    ensures r.0 == Split(goto, ":")[0]
    ensures r.1.Some? <==> |Split(goto, ":")| > 1
    ensures r.2.Some? <==> |Split(goto, ":")| > 2
    ensures r.1.Some? ==> r.1.value == GotoValue(Split(goto, ":")[1])
    ensures r.2.Some? ==> r.2.value == GotoValue(Split(goto, ":")[2])
  {
    var parts := Split(goto, ":");
    var which := if |parts| > 1 then Some(GotoValue(parts[1])) else None;
    var where := if |parts| > 2 then Some(GotoValue(parts[2])) else None;
    (parts[0], which, where)
  }

  /** A `goto` written as `what:which:where` with an integer position reads back as written. */
  lemma GotoRoundTrip(what: string, which: string, where: int)
    requires ':' !in what && ':' !in which
    ensures ParseGoto(what + ":" + which + ":" + IntToString(where))
            == (what, Some(GotoValue(which)), Some(Number(where)))
  {
    var text := IntToString(where);
    var goto := what + ":" + which + ":" + text;
    IntToStringNoColon(where);
    JoinThree(what, which, text);
    SplitJoinChar([what, which, text], ':');
    assert Split(goto, ":") == [what, which, text];
    ParseIntRoundTrip(where);
  }

  lemma JoinThree(a: string, b: string, c: string)
    ensures Join([a, b, c], [':']) == a + ":" + b + ":" + c
  {
    assert [a, b, c][1..] == [b, c] && [b, c][1..] == [c];
    assert Join([c], [':']) == c;
    assert Join([b, c], [':']) == b + [':'] + c;
    assert Join([a, b, c], [':']) == a + [':'] + (b + [':'] + c);
  }

  lemma IntToStringNoColon(i: int)
    ensures ':' !in IntToString(i)
  {
    var digits := NatToString(if i < 0 then -i else i);
    assert forall j :: 0 <= j < |digits| ==> IsDigit(digits[j]);
    if i < 0 {
      assert IntToString(i) == "-" + digits;
    }
  }

  /** A region of the view, by the start and end of its line. */
  datatype Region = Region(lineBegin: int, lineEnd: int)

  /**
   * `next_region`: the first region whose line begins after the point,
   * wrapping to the first one; `None` where there are no regions and
   * `regions[0]` raises IndexError.
   */
  function NextRegion(regions: seq<Region>, point: int): (r: Option<Region>)
    ensures r.None? <==> |regions| == 0
    ensures r.Some? ==>
              exists i :: 0 <= i < |regions| && regions[i] == r.value &&
                ((r.value.lineBegin > point && forall j :: 0 <= j < i ==> regions[j].lineBegin <= point)
                 || (i == 0 && forall j :: 0 <= j < |regions| ==> regions[j].lineBegin <= point))
  {
    var keep := (reg: Region) => reg.lineBegin > point;
    var after := Filter(regions, keep);
    FilterEmpty(regions, keep);
    if |after| > 0 then FilterFirst(regions, keep); Some(after[0])
    else if |regions| > 0 then Some(regions[0])
    else None
  }

  /**
   * `prev_region`: the last region whose line ends before the point,
   * wrapping to the last one; `None` where there are no regions and
   * `regions[-1]` raises IndexError.
   */
  function PrevRegion(regions: seq<Region>, point: int): (r: Option<Region>)
    ensures r.None? <==> |regions| == 0
    ensures r.Some? ==>
              exists i :: 0 <= i < |regions| && regions[i] == r.value &&
                ((r.value.lineEnd < point && forall j :: i < j < |regions| ==> regions[j].lineEnd >= point)
                 || (i == |regions| - 1 && forall j :: 0 <= j < |regions| ==> regions[j].lineEnd >= point))
  {
    var keep := (reg: Region) => reg.lineEnd < point;
    var before := Filter(regions, keep);
    FilterEmpty(regions, keep);
    if |before| > 0 then FilterLast(regions, keep); Some(before[|before| - 1])
    else if |regions| > 0 then Some(regions[|regions| - 1])
    else None
  }

  /** The elements that satisfy `keep`, in order. */
  function Filter<T>(s: seq<T>, keep: T -> bool): (r: seq<T>)
    ensures |r| <= |s|
    ensures forall x :: x in r ==> x in s && keep(x)
    decreases |s|
  {
    if |s| == 0 then []
    else Filter(s[..|s| - 1], keep) + (if keep(s[|s| - 1]) then [s[|s| - 1]] else [])
  }

  /** Nothing is kept exactly when no element satisfies `keep`. */
  lemma {:induction false} FilterEmpty<T>(s: seq<T>, keep: T -> bool)
    ensures |Filter(s, keep)| == 0 <==> forall j :: 0 <= j < |s| ==> !keep(s[j])
    decreases |s|
  {
    if |s| > 0 {
      var init := s[..|s| - 1];
      FilterEmpty(init, keep);
      assert forall j :: 0 <= j < |init| ==> init[j] == s[j];
    }
  }

  /** The first kept element is the first element that satisfies `keep`. */
  lemma {:induction false} FilterFirst<T>(s: seq<T>, keep: T -> bool)
    requires |Filter(s, keep)| > 0
    ensures exists i :: 0 <= i < |s| && s[i] == Filter(s, keep)[0] && keep(s[i]) && forall j :: 0 <= j < i ==> !keep(s[j])
    decreases |s|
  {
    var n := |s| - 1;
    var init := s[..n];
    assert forall j :: 0 <= j < |init| ==> init[j] == s[j];
    if |Filter(init, keep)| > 0 {
      FilterFirst(init, keep);
      var i :| 0 <= i < |init| && init[i] == Filter(init, keep)[0] && keep(init[i]) && forall j :: 0 <= j < i ==> !keep(init[j]);
      assert Filter(s, keep)[0] == Filter(init, keep)[0];
      assert s[i] == Filter(s, keep)[0];
    } else {
      FilterEmpty(init, keep);
      assert Filter(s, keep) == [s[n]];
      assert forall j :: 0 <= j < n ==> !keep(s[j]);
    }
  }

  /** The last kept element is the last element that satisfies `keep`. */
  lemma {:induction false} FilterLast<T>(s: seq<T>, keep: T -> bool)
    requires |Filter(s, keep)| > 0
    ensures exists i :: 0 <= i < |s| && s[i] == Filter(s, keep)[|Filter(s, keep)| - 1] && keep(s[i])
                        && forall j :: i < j < |s| ==> !keep(s[j])
    decreases |s|
  {
    var n := |s| - 1;
    var init := s[..n];
    var f := Filter(init, keep);
    if keep(s[n]) {
      assert Filter(s, keep) == f + [s[n]];
      assert s[n] == Filter(s, keep)[|Filter(s, keep)| - 1];
    } else {
      assert Filter(s, keep) == f;
      FilterLast(init, keep);
      var i :| 0 <= i < |init| && init[i] == f[|f| - 1] && keep(init[i]) && forall j :: i < j < |init| ==> !keep(init[j]);
      assert s[i] == init[i];
      forall j | i < j < |s|
        ensures !keep(s[j])
      {
        if j < n {
          assert s[j] == init[j];
        }
      }
    }
  }

  // ---------------------------------------------------------------------
  // Filter toggles (`TestExplorerToggleShowCommand.run`)
  // ---------------------------------------------------------------------

  /**
   * The toggle command: `all` shows everything when anything was hidden
   * and hides everything otherwise; any other key flips that status, and
   * flipping `failed` or `not_run` sets `crashed` or `stopped` alike.
   */
  method Toggle(visibility: Visibility, toggle: string) returns (r: Visibility)
    requires toggle != "all" ==> toggle in visibility
    ensures toggle == "all" ==> r.Keys == visibility.Keys
    ensures toggle == "all" && (exists k :: k in visibility && !visibility[k]) ==> forall k :: k in r ==> r[k]
    ensures toggle == "all" && (forall k :: k in visibility ==> visibility[k]) ==> forall k :: k in r ==> !r[k]
    ensures toggle != "all" ==>
              && toggle in r && r[toggle] == !visibility[toggle]
              && (toggle == "failed" ==> "crashed" in r && r["crashed"] == r["failed"])
              && (toggle == "not_run" ==> "stopped" in r && r["stopped"] == r["not_run"])
              && (forall k :: (k in r && k != toggle && !(toggle == "failed" && k == "crashed")
                                     && !(toggle == "not_run" && k == "stopped")) ==> k in visibility && r[k] == visibility[k])
              && visibility.Keys <= r.Keys
    ensures Covers(visibility) ==> Covers(r)
  {
    r := visibility;
    if toggle == "all" {
      if exists k :: k in visibility && !visibility[k] {
        r := map k | k in visibility :: true;
      } else {
        r := map k | k in visibility :: false;
      }
    } else {
      r := r[toggle := !visibility[toggle]];
      if toggle == "failed" {
        r := r["crashed" := r["failed"]];
      }
      if toggle == "not_run" {
        r := r["stopped" := r["not_run"]];
      }
    }
  }
}

=== FILE: phpunit.dfy ===
/**
 * The PHPUnit framework: a TeamCity decoder that also tracks the current
 * test suite and qualifies report ids with it, the discovery of tests from
 * the `--list-tests-xml` listing, and the run loop that closes the decoder
 * after each test.
 */
module PhpUnit {
  import opened Wrappers
  import opened Strings
  import opened Events
  import Teamcity
  import Xml

  const TestSuiteStartedPrefix := "##teamcity[testSuiteStarted"

  // ---------------------------------------------------------------------
  // parse_name: `re.search("name='([^']+)'", line).group(1)`
  // ---------------------------------------------------------------------

  /** The match anchored at `i`: the group runs to the next quote and holds at least one character. */
  function NameAt(line: string, i: nat): Option<string>
  {
    if OccursAt(line, Teamcity.NameOpen, i) then
      var start := i + |Teamcity.NameOpen|;
      match IndexFrom(line, "'", start)
      case None => None
      case Some(j) => if j > start then Some(line[start..j]) else None
    else None
  }

  function NameFrom(line: string, i: nat): Option<string>
    decreases |line| + 1 - i
  {
    if i > |line| then None
    else match NameAt(line, i)
      case Some(n) => Some(n)
      case None => NameFrom(line, i + 1)
  }

  /** `parse_name`; `None` where the search finds no match and `.group(1)` raises. */
  function ParseName(line: string): Option<string>
  {
    NameFrom(line, 0)
  }

  /**
   * The regular expression `name='([^']+)'` matches at `i`: the opening
   * `name='`, then a character that is not a quote, and a quote somewhere
   * after it.
   */
  predicate MatchesAt(line: string, i: nat) {
    && OccursAt(line, Teamcity.NameOpen, i)
    && i + |Teamcity.NameOpen| < |line|
    && line[i + |Teamcity.NameOpen|] != '\''
    && '\'' in line[i + |Teamcity.NameOpen|..]
  }

  /** The anchored match succeeds exactly where the regular expression matches. */
  lemma NameAtMatches(line: string, i: nat)
    ensures NameAt(line, i).Some? <==> MatchesAt(line, i)
  {
    if OccursAt(line, Teamcity.NameOpen, i) {
      var start := i + |Teamcity.NameOpen|;
      if start < |line| {
        assert line[start..start + 1] == [line[start]];
        assert OccursAt(line, "'", start) <==> line[start] == '\'';
      }
      if NameAt(line, i).Some? {
        var j := IndexFrom(line, "'", start).value;
        assert line[j..j + 1] == "'";
        assert line[start..][j - start] == '\'';
      }
      if MatchesAt(line, i) {
        var k :| 0 <= k < |line[start..]| && line[start..][k] == '\'';
        assert line[start + k..start + k + 1] == [line[start + k]];
        assert OccursAt(line, "'", start + k);
      }
    }
  }

  lemma {:induction false} NameFromShape(line: string, i: nat)
    ensures NameFrom(line, i).None? <==> forall q: nat :: i <= q ==> !MatchesAt(line, q)
    ensures NameFrom(line, i).Some? ==>
              var n := NameFrom(line, i).value;
              && |n| > 0
              && (forall k :: 0 <= k < |n| ==> n[k] != '\'')
              && exists p: nat :: && i <= p
                                  && OccursAt(line, Teamcity.NameOpen + n + "'", p)
                                  && forall q: nat :: i <= q < p ==> !MatchesAt(line, q)
    decreases |line| + 1 - i
  {
    if i <= |line| {
      NameAtMatches(line, i);
      match NameAt(line, i)
      case None =>
        NameFromShape(line, i + 1);
        if NameFrom(line, i).Some? {
          var n := NameFrom(line, i).value;
          var p: nat :| && i + 1 <= p
                        && OccursAt(line, Teamcity.NameOpen + n + "'", p)
                        && forall q: nat :: i + 1 <= q < p ==> !MatchesAt(line, q);
          assert forall q: nat :: i <= q < p ==> !MatchesAt(line, q);
        }
      case Some(n) =>
        NameAtShape(line, i);
        assert forall q: nat :: i <= q < i ==> !MatchesAt(line, q);
    }
  }

  /** An anchored match at `i` yields a non-empty, quote-free name found as `name='<name>'` at `i`. */
  lemma NameAtShape(line: string, i: nat)
    requires NameAt(line, i).Some?
    ensures var n := NameAt(line, i).value;
            && |n| > 0
            && (forall k :: 0 <= k < |n| ==> n[k] != '\'')
            && OccursAt(line, Teamcity.NameOpen + n + "'", i)
  {
    var n := NameAt(line, i).value;
    var start := i + |Teamcity.NameOpen|;
    var j := IndexFrom(line, "'", start).value;
    assert n == line[start..j];
    forall k | 0 <= k < |n| ensures n[k] != '\'' {
      assert !OccursAt(line, "'", start + k);
      assert line[start + k..start + k + 1] == [line[start + k]];
    }
    assert line[j..j + 1] == "'";
    assert line[i..j + 1] == line[i..start] + line[start..j] + line[j..j + 1];
  }

  /**
   * `parse_name` raises exactly when the regular expression matches nowhere;
   * otherwise the name is the group of the leftmost match: not empty, free
   * of quotes, found as `name='<name>'` with no match starting earlier.
   */
  lemma ParseNameShape(line: string)
    ensures ParseName(line).None? <==> forall q: nat :: !MatchesAt(line, q)
    ensures ParseName(line).Some? ==>
              var n := ParseName(line).value;
              && |n| > 0
              && (forall k :: 0 <= k < |n| ==> n[k] != '\'')
              && exists p: nat :: && OccursAt(line, Teamcity.NameOpen + n + "'", p)
                                  && forall q: nat :: q < p ==> !MatchesAt(line, q)
  {
    NameFromShape(line, 0);
  }

  /** `parse_test_id`: the bare name outside a suite, `suite::name` inside one. */
  function TestId(currentSuite: Option<string>, line: string): (r: Option<string>)
    ensures r.Some? <==> ParseName(line).Some?
    ensures r.Some? && currentSuite.None? ==> r.value == ParseName(line).value
    ensures r.Some? && currentSuite.Some? ==> r.value == currentSuite.value + "::" + ParseName(line).value
  {
    match ParseName(line)
    case None => None
    case Some(n) => Some(if currentSuite.None? then n else currentSuite.value + "::" + n)
  }

  /** The id extraction the inherited `feed` calls, bound to the suite current at the time of the call. */
  function IdOf(currentSuite: Option<string>): string -> Option<string>
  {
    line => TestId(currentSuite, line)
  }

  // ---------------------------------------------------------------------
  // feed
  // ---------------------------------------------------------------------

  /** `current_suite` and the inherited `current_test`/`current_status`. */
  datatype State = State(currentSuite: Option<string>, inner: Teamcity.State)

  const Initial := State(None, Teamcity.Initial)

  datatype Step = Step(state: State, events: seq<Event>, raised: bool)

  /**
   * `feed`: the inherited TeamCity logic first; only when it did not raise,
   * a `testSuiteStarted` line then records the suite name.
   */
  function FeedStep(sc: Teamcity.Scope, s: State, line: string): (r: Step)
    ensures r.state.currentSuite != s.currentSuite ==>
              StartsWith(line, TestSuiteStartedPrefix) && r.state.currentSuite == ParseName(line)
  {
    var t := Teamcity.FeedStep(sc, IdOf(s.currentSuite), s.inner, line);
    if t.raised then Step(State(s.currentSuite, t.state), t.events, true)
    else if StartsWith(line, TestSuiteStartedPrefix) then
      match ParseName(line)
      case None => Step(State(s.currentSuite, t.state), t.events, true)
      case Some(n) => Step(State(Some(n), t.state), t.events, false)
    else Step(State(s.currentSuite, t.state), t.events, false)
  }

  /**
   * A `testSuiteStarted` line is only forwarded by the TeamCity logic (it is
   * none of its lifecycle messages); afterwards its name becomes the suite.
   */
  lemma SuiteLineStep(sc: Teamcity.Scope, s: State, line: string)
    requires StartsWith(line, TestSuiteStartedPrefix)
    ensures FeedStep(sc, s, line) == Step(
              State(if ParseName(line).Some? then ParseName(line) else s.currentSuite, s.inner),
              Teamcity.Forward(s.inner, line),
              ParseName(line).None?)
  {
    assert line[15] == 'S' && line[16] == 'u';
    assert line[..11] == line[..|TestSuiteStartedPrefix|][..11];
    Teamcity.PrefixesExclusive(line);
    assert !StartsWith(line, Teamcity.TestStartedPrefix) by { assert Teamcity.TestStartedPrefix[16] == 't'; }
    assert !StartsWith(line, Teamcity.TestFinishedPrefix) by { assert Teamcity.TestFinishedPrefix[15] == 'F'; }
    assert !StartsWith(line, Teamcity.TestIgnoredPrefix) by { assert Teamcity.TestIgnoredPrefix[15] == 'I'; }
    assert !StartsWith(line, Teamcity.TestFailedPrefix) by { assert Teamcity.TestFailedPrefix[15] == 'F'; }
  }

  lemma FeedStepKeepsLifecycle(sc: Teamcity.Scope, s: State, line: string)
    ensures var r := FeedStep(sc, s, line); Replay(s.inner.currentTest, r.events) == Some(r.state.inner.currentTest)
  {
    Teamcity.FeedStepKeepsLifecycle(sc, IdOf(s.currentSuite), s.inner, line);
  }

  /** Items handled one after the other by `step`, each from the state the previous ones left; events are appended. */
  function Fold<X>(step: (State, X) -> Step, s: State, xs: seq<X>): Step
    decreases |xs|
  {
    if |xs| == 0 then Step(s, [], false)
    else
      var r := Fold(step, s, xs[..|xs| - 1]);
      var t := step(r.state, xs[|xs| - 1]);
      Step(t.state, r.events + t.events, r.raised || t.raised)
  }

  /** One more item: its step taken from the state the items before it leave, its events appended to theirs. */
  lemma FoldGrows<X>(step: (State, X) -> Step, s: State, xs: seq<X>, k: nat, e0: seq<Event>, ev: seq<Event>)
    requires k < |xs| && ev == e0 + Fold(step, s, xs[..k]).events
    ensures var t := step(Fold(step, s, xs[..k]).state, xs[k]);
            && Fold(step, s, xs[..k + 1]).state == t.state
            && ev + t.events == e0 + Fold(step, s, xs[..k + 1]).events
  {
    assert xs[..k + 1][..k] == xs[..k];
    var r := Fold(step, s, xs[..k]);
    var t := step(r.state, xs[k]);
    assert ev + t.events == e0 + (r.events + t.events);
  }

  /** `feed` as a step function. */
  function Feeder(sc: Teamcity.Scope): (State, string) -> Step {
    (st: State, line: string) => FeedStep(sc, st, line)
  }

  /** Feeding the lines of one command's output. */
  function FeedAll(sc: Teamcity.Scope, s: State, lines: seq<string>): Step {
    Fold(Feeder(sc), s, lines)
  }

  lemma {:induction false} FeedAllKeepsLifecycle(sc: Teamcity.Scope, s: State, lines: seq<string>)
    ensures var r := FeedAll(sc, s, lines); Replay(s.inner.currentTest, r.events) == Some(r.state.inner.currentTest)
    decreases |lines|
  {
    if |lines| > 0 {
      var r := FeedAll(sc, s, lines[..|lines| - 1]);
      FeedAllKeepsLifecycle(sc, s, lines[..|lines| - 1]);
      assert FeedAll(sc, s, lines).events == r.events + FeedStep(sc, r.state, lines[|lines| - 1]).events;
      var t := FeedStep(sc, r.state, lines[|lines| - 1]);
      FeedStepKeepsLifecycle(sc, r.state, lines[|lines| - 1]);
      ReplayAppend(s.inner.currentTest, r.events, t.events);
    }
  }

  /** One iteration of the run loop: the output of the test's invocation is fed, then the decoder is closed. */
  function RunOne(sc: Teamcity.Scope, s: State, lines: seq<string>): Step
  {
    var r := FeedAll(sc, s, lines);
    var c := Teamcity.FinishCurrent(r.state.inner);
    Step(State(r.state.currentSuite, c.state), r.events + c.events, r.raised)
  }

  /** One invocation per test id as a step function; `outputOf` gives the lines each invocation prints. */
  function Runner(sc: Teamcity.Scope, outputOf: string -> seq<string>): (State, string) -> Step {
    (st: State, id: string) => RunOne(sc, st, outputOf(id))
  }

  /** The whole run loop, one invocation per test id. */
  function RunAll(sc: Teamcity.Scope, s: State, testIds: seq<string>, outputOf: string -> seq<string>): Step {
    Fold(Runner(sc, outputOf), s, testIds)
  }

  /** After each invocation nothing is open: a test left open was reported CRASHED before the next invocation. */
  lemma RunOneCloses(sc: Teamcity.Scope, s: State, lines: seq<string>)
    ensures var r := RunOne(sc, s, lines);
            && r.state.inner.currentTest.None?
            && Replay(s.inner.currentTest, r.events) == Some(None)
  {
    var r := FeedAll(sc, s, lines);
    FeedAllKeepsLifecycle(sc, s, lines);
    var c := Teamcity.FinishCurrent(r.state.inner);
    ReplayAppend(s.inner.currentTest, r.events, c.events);
  }

  /** Running any tests from a state with nothing open reports every start with exactly one finish. */
  lemma {:induction false} RunAllBalanced(sc: Teamcity.Scope, s: State, testIds: seq<string>, outputOf: string -> seq<string>)
    requires s.inner.currentTest.None?
    ensures var r := RunAll(sc, s, testIds, outputOf); Balanced(r.events) && r.state.inner.currentTest.None?
    decreases |testIds|
  {
    if |testIds| > 0 {
      var r := RunAll(sc, s, testIds[..|testIds| - 1], outputOf);
      RunAllBalanced(sc, s, testIds[..|testIds| - 1], outputOf);
      var t := RunOne(sc, r.state, outputOf(testIds[|testIds| - 1]));
      assert RunAll(sc, s, testIds, outputOf) == Step(t.state, r.events + t.events, r.raised || t.raised);
      RunOneCloses(sc, r.state, outputOf(testIds[|testIds| - 1]));
      ReplayAppend(None, r.events, t.events);
    }
  }

  class OutputParser {
    const base: Teamcity.OutputParser
    var currentSuite: Option<string>

    function Snapshot(): State
      reads this, base
    {
      State(currentSuite, base.Snapshot())
    }

    ghost predicate Valid()
      reads this, base
    {
      base.Valid()
    }

    constructor (scope: Teamcity.Scope)
      ensures fresh(base) && base.scope == scope && Snapshot() == Initial && base.events == []
      ensures Valid()
    {
      base := new Teamcity.OutputParser(scope);
      currentSuite := None;
    }

    method Feed(line: string) returns (raised: bool)
      modifies this, base
      ensures var r := FeedStep(base.scope, old(Snapshot()), line);
              Snapshot() == r.state && base.events == old(base.events) + r.events && raised == r.raised
      ensures old(Valid()) ==> Valid()
    {
      raised := base.FeedWith(line, IdOf(currentSuite));
      if raised {
        return;
      }
      if StartsWith(line, TestSuiteStartedPrefix) {
        var name := ParseName(line);
        if name.None? {
          raised := true;
          return;
        }
        currentSuite := name;
      }
    }

    method Close()
      modifies base
      ensures var c := Teamcity.FinishCurrent(old(base.Snapshot()));
              Snapshot() == State(old(currentSuite), c.state) && base.events == old(base.events) + c.events
      ensures old(Valid()) ==> Valid()
    {
      base.Close();
    }

    /** Feeding one invocation's output, line by line, as the stream reader does. */
    method FeedLines(lines: seq<string>)
      modifies this, base
      ensures var r := FeedAll(base.scope, old(Snapshot()), lines);
              Snapshot() == r.state && base.events == old(base.events) + r.events
      ensures old(Valid()) ==> Valid()
    {
      ghost var s0 := Snapshot();
      ghost var e0 := base.events;
      for k := 0 to |lines|
        invariant Snapshot() == FeedAll(base.scope, s0, lines[..k]).state
        invariant base.events == e0 + FeedAll(base.scope, s0, lines[..k]).events
        invariant old(Valid()) ==> Valid()
      {
        FoldGrows(Feeder(base.scope), s0, lines, k, e0, base.events);
        var _ := Feed(lines[k]);
      }
      assert lines[..|lines|] == lines;
    }

    /** One invocation: its output fed line by line, then `close()`. */
    method RunTest(lines: seq<string>)
      modifies this, base
      ensures var r := RunOne(base.scope, old(Snapshot()), lines);
              Snapshot() == r.state && base.events == old(base.events) + r.events
      ensures old(Valid()) ==> Valid()
    {
      ghost var e0 := base.events;
      FeedLines(lines);
      ghost var e1 := base.events;
      Close();
      assert e1 + (base.events[|e1|..]) == base.events;
    }

    /** The loop of `run`: one invocation per test id, each followed by `close()`. */
    method Run(testIds: seq<string>, outputOf: string -> seq<string>)
      modifies this, base
      ensures var r := RunAll(base.scope, old(Snapshot()), testIds, outputOf);
              Snapshot() == r.state && base.events == old(base.events) + r.events
      ensures old(Valid()) ==> Valid()
    {
      ghost var s0 := Snapshot();
      ghost var e0 := base.events;
      for i := 0 to |testIds|
        invariant Snapshot() == RunAll(base.scope, s0, testIds[..i], outputOf).state
        invariant base.events == e0 + RunAll(base.scope, s0, testIds[..i], outputOf).events
        invariant old(Valid()) ==> Valid()
      {
        FoldGrows(Runner(base.scope, outputOf), s0, testIds, i, e0, base.events);
        RunTest(outputOf(testIds[i]));
      }
      assert testIds[..|testIds|] == testIds;
    }
  }

  // ---------------------------------------------------------------------
  // Discovery from the `--list-tests-xml` listing
  // ---------------------------------------------------------------------

  /**
   * `parse_discovered_test`: the custom-prefix segments, then the class and
   * method names; run and report id are both `class::method`. `None` where
   * the method element has no `name` attribute (a KeyError).
   */
  function ParseDiscoveredTest(suite: SuiteConfig, test: Xml.Element, className: string): (r: Option<DiscoveredTest>)
    ensures r.Some? <==> "name" in test.attrib
    ensures r.Some? ==> && |r.value.fullName| >= 2
                        && r.value.fullName[..|r.value.fullName| - 2] == PrefixSegments(suite.customPrefix)
                        && r.value.fullName[|r.value.fullName| - 2..] == [className, test.attrib["name"]]
    ensures r.Some? ==> r.value.runId == r.value.reportId == Some(className + "::" + test.attrib["name"])
  {
    if "name" !in test.attrib then None
    else
      var name := test.attrib["name"];
      var path := PrefixSegments(suite.customPrefix) + [className, name];
      var runId := className + "::" + name;
      Some(DiscoveredTest(path, Some(suite.suiteId), Some(runId), Some(runId), TestLocation(Some("phpunit"), "", 0)))
  }

  /**
   * The report id a discovered test gets is the id the decoder computes when
   * the run prints `testSuiteStarted` with the class name and then
   * `testStarted` with the method name: the decoder finds the test it listed.
   */
  lemma DiscoveredTestMatchesRunId(suite: SuiteConfig, test: Xml.Element, className: string, suiteLine: string, startLine: string)
    requires ParseDiscoveredTest(suite, test, className).Some?
    requires ParseName(suiteLine) == Some(className) && ParseName(startLine) == Some(test.attrib["name"])
    ensures var s := FeedStep(Teamcity.Scope(map[], suite.suiteId, "phpunit"), Initial, suiteLine).state;
            StartsWith(suiteLine, TestSuiteStartedPrefix) ==>
              TestId(s.currentSuite, startLine) == ParseDiscoveredTest(suite, test, className).value.reportId
  {
    if StartsWith(suiteLine, TestSuiteStartedPrefix) {
      SuiteLineStep(Teamcity.Scope(map[], suite.suiteId, "phpunit"), Initial, suiteLine);
    }
  }

  /** The (class, method) pairs of `testCaseClass`/`testCaseMethod` elements, in document order. */
  function MethodsOf(c: Xml.Element, methods: seq<Xml.Element>): seq<(Xml.Element, Xml.Element)>
    decreases |methods|
  {
    if |methods| == 0 then []
    else MethodsOf(c, methods[..|methods| - 1])
         + (if methods[|methods| - 1].tag == "testCaseMethod" then [(c, methods[|methods| - 1])] else [])
  }

  function Entries(classes: seq<Xml.Element>): seq<(Xml.Element, Xml.Element)>
    decreases |classes|
  {
    if |classes| == 0 then []
    else Entries(classes[..|classes| - 1])
         + (if classes[|classes| - 1].tag == "testCaseClass" then MethodsOf(classes[|classes| - 1], classes[|classes| - 1].children) else [])
  }

  lemma {:induction false} MethodsOfAppend(c: Xml.Element, a: seq<Xml.Element>, b: seq<Xml.Element>)
    ensures MethodsOf(c, a + b) == MethodsOf(c, a) + MethodsOf(c, b)
    decreases |b|
  {
    if |b| == 0 {
      assert a + b == a;
    } else {
      assert (a + b)[..|a + b| - 1] == a + b[..|b| - 1];
      MethodsOfAppend(c, a, b[..|b| - 1]);
    }
  }

  lemma {:induction false} EntriesAppend(a: seq<Xml.Element>, b: seq<Xml.Element>)
    ensures Entries(a + b) == Entries(a) + Entries(b)
    decreases |b|
  {
    if |b| == 0 {
      assert a + b == a;
    } else {
      assert (a + b)[..|a + b| - 1] == a + b[..|b| - 1];
      EntriesAppend(a, b[..|b| - 1]);
    }
  }

  /**
   * One (class, method) entry: `parse_discovered_test(t, c.attrib['name'])`,
   * which raises when either element lacks its name.
   */
  function EntryParser(suite: SuiteConfig): ((Xml.Element, Xml.Element)) -> Option<DiscoveredTest>
  {
    (e: (Xml.Element, Xml.Element)) => if "name" in e.0.attrib then ParseDiscoveredTest(suite, e.1, e.0.attrib["name"]) else None
  }

  /** The listing gives one test per method of each test class, in document order, or fails as a whole. */
  lemma DiscoveryShape(suite: SuiteConfig, root: Xml.Element)
    ensures var entries := Entries(root.children);
            var r := TryMap(entries, EntryParser(suite));
            && (r.Some? <==> forall k :: 0 <= k < |entries| ==> "name" in entries[k].0.attrib && "name" in entries[k].1.attrib)
            && (r.Some? ==> |r.value| == |entries|
                            && forall k :: 0 <= k < |entries| ==>
                                 Some(r.value[k]) == ParseDiscoveredTest(suite, entries[k].1, entries[k].0.attrib["name"]))
  {
    TryMapShape(Entries(root.children), EntryParser(suite));
  }

  /** The entries of class `c` up to method `j` are those up to `j - 1` plus method `j` when it is a test method. */
  lemma MethodsOfStep(c: Xml.Element, j: nat)
    requires j < |c.children|
    ensures MethodsOf(c, c.children[..j + 1])
            == MethodsOf(c, c.children[..j]) + (if c.children[j].tag == "testCaseMethod" then [(c, c.children[j])] else [])
  {
    assert c.children[..j + 1][..j] == c.children[..j];
  }

  /** A method that fails to parse fails every listing that contains it. */
  lemma ClassFails(suite: SuiteConfig, c: Xml.Element, done: seq<(Xml.Element, Xml.Element)>, j: nat)
    requires j < |c.children| && c.children[j].tag == "testCaseMethod"
    requires EntryParser(suite)((c, c.children[j])).None?
    ensures TryMap(done + MethodsOf(c, c.children), EntryParser(suite)).None?
  {
    var sofar := done + MethodsOf(c, c.children[..j]);
    MethodsOfStep(c, j);
    TryMapSnoc(sofar, (c, c.children[j]), EntryParser(suite));
    assert c.children == c.children[..j + 1] + c.children[j + 1..];
    MethodsOfAppend(c, c.children[..j + 1], c.children[j + 1..]);
    TryMapFailed(sofar + [(c, c.children[j])], MethodsOf(c, c.children[j + 1..]), EntryParser(suite));
    assert done + MethodsOf(c, c.children) == sofar + [(c, c.children[j])] + MethodsOf(c, c.children[j + 1..]);
  }

  /** One child of class `c` handled: a test method that parses adds its test, any other child adds nothing. */
  lemma ClassGrows(suite: SuiteConfig, c: Xml.Element, done: seq<(Xml.Element, Xml.Element)>, j: nat, tests: seq<DiscoveredTest>)
    requires j < |c.children| && TryMap(done + MethodsOf(c, c.children[..j]), EntryParser(suite)) == Some(tests)
    requires c.children[j].tag == "testCaseMethod" ==> EntryParser(suite)((c, c.children[j])).Some?
    ensures TryMap(done + MethodsOf(c, c.children[..j + 1]), EntryParser(suite))
            == Some(if c.children[j].tag == "testCaseMethod" then tests + [EntryParser(suite)((c, c.children[j])).value] else tests)
  {
    var sofar := done + MethodsOf(c, c.children[..j]);
    MethodsOfStep(c, j);
    if c.children[j].tag == "testCaseMethod" {
      TryMapSnoc(sofar, (c, c.children[j]), EntryParser(suite));
      assert done + MethodsOf(c, c.children[..j + 1]) == sofar + [(c, c.children[j])];
    } else {
      assert done + MethodsOf(c, c.children[..j + 1]) == sofar;
    }
  }

  /** The inner loop of `parse_discovery`: the methods of one test class, appended to the tests so far. */
  method ParseClass(suite: SuiteConfig, c: Xml.Element, ghost done: seq<(Xml.Element, Xml.Element)>, tests0: seq<DiscoveredTest>)
    returns (r: Option<seq<DiscoveredTest>>)
    requires TryMap(done, EntryParser(suite)) == Some(tests0)
    ensures r == TryMap(done + MethodsOf(c, c.children), EntryParser(suite))
  {
    var tests := tests0;
    assert c.children[..0] == [];
    assert done + MethodsOf(c, c.children[..0]) == done;
    for j := 0 to |c.children|
      invariant TryMap(done + MethodsOf(c, c.children[..j]), EntryParser(suite)) == Some(tests)
    {
      var t := c.children[j];
      if t.tag == "testCaseMethod" {
        if "name" !in c.attrib {
          ClassFails(suite, c, done, j);
          return None;
        }
        var d := ParseDiscoveredTest(suite, t, c.attrib["name"]);
        if d.None? {
          ClassFails(suite, c, done, j);
          return None;
        }
        ClassGrows(suite, c, done, j, tests);
        tests := tests + [d.value];
      } else {
        ClassGrows(suite, c, done, j, tests);
      }
    }
    assert c.children[..|c.children|] == c.children;
    r := Some(tests);
  }

  /** `parse_discovery` over the root's children: nested loops appending one test per method; `None` on a KeyError. */
  method ParseDiscovery(suite: SuiteConfig, root: Xml.Element) returns (r: Option<seq<DiscoveredTest>>)
    ensures r == TryMap(Entries(root.children), EntryParser(suite))
  {
    var tests: seq<DiscoveredTest> := [];
    var classes := root.children;
    for i := 0 to |classes|
      invariant TryMap(Entries(classes[..i]), EntryParser(suite)) == Some(tests)
    {
      var c := classes[i];
      assert classes[..i + 1][..i] == classes[..i];
      if c.tag == "testCaseClass" {
        assert Entries(classes[..i + 1]) == Entries(classes[..i]) + MethodsOf(c, c.children);
        var more := ParseClass(suite, c, Entries(classes[..i]), tests);
        if more.None? {
          assert classes == classes[..i + 1] + classes[i + 1..];
          EntriesAppend(classes[..i + 1], classes[i + 1..]);
          TryMapFailed(Entries(classes[..i + 1]), Entries(classes[i + 1..]), EntryParser(suite));
          return None;
        }
        tests := more.value;
      } else {
        assert Entries(classes[..i + 1]) == Entries(classes[..i]);
      }
    }
    assert classes[..|classes|] == classes;
    r := Some(tests);
  }
}

=== FILE: pytest.dfy ===
/**
 * The pytest framework: the environment lists it extends for its discovery
 * plugin, its working directory, and the decoding of the record the plugin
 * prints after the discovery header.
 */
module Pytest {
  import opened Wrappers
  import opened Strings
  import opened Events
  import Common
  import Json

  const DISCOVERY_PLUGIN := "sublime_discovery"
  const DISCOVERY_HEADER := "SUBLIME_DISCOVERY: "

  /** `os.environ.get(name)` split at `sep`; nothing when unset or empty. */
  function EnvList(environ: map<string, string>, name: string, sep: char): (r: seq<string>)
    ensures r == [] <==> name !in environ || environ[name] == ""
    ensures r != [] ==> Join(r, [sep]) == environ[name]
    ensures forall k :: 0 <= k < |r| ==> sep !in r[k]
  {
    if name !in environ || environ[name] == "" then []
    else
      JoinSplit(environ[name], [sep]);
      SplitCharPiecesFree(environ[name], sep);
      Split(environ[name], [sep])
  }

  /** `get_os_python_path`: `PYTHONPATH` split at the path-list separator. */
  function GetOsPythonPath(environ: map<string, string>, pathsep: char): (r: seq<string>)
    ensures r == [] <==> "PYTHONPATH" !in environ || environ["PYTHONPATH"] == ""
    ensures r != [] ==> Join(r, [pathsep]) == environ["PYTHONPATH"]
  {
    EnvList(environ, "PYTHONPATH", pathsep)
  }

  /** `get_os_pytest_plugins`: `PYTEST_PLUGINS` split at commas. */
  function GetOsPytestPlugins(environ: map<string, string>): (r: seq<string>)
    ensures r == [] <==> "PYTEST_PLUGINS" !in environ || environ["PYTEST_PLUGINS"] == ""
    ensures r != [] ==> Join(r, ",") == environ["PYTEST_PLUGINS"]
  {
    EnvList(environ, "PYTEST_PLUGINS", ',')
  }

  /**
   * The environment `discover` gives pytest: the suite's environment with
   * the discovery plugin added to the plugins and its directory added to
   * the Python path of the running process.
   */
  function DiscoveryEnvironment(env: map<string, string>, environ: map<string, string>, pathsep: char, pluginPath: string): map<string, string>
  {
    env["PYTEST_PLUGINS" := Join(GetOsPytestPlugins(environ) + [DISCOVERY_PLUGIN], ",")]
       ["PYTHONPATH" := Join(GetOsPythonPath(environ, pathsep) + [pluginPath], [pathsep])]
  }

  /** A list joined at a character it does not hold, with a non-empty last part, reads back as that list. */
  lemma EnvListOfJoin(parts: seq<string>, name: string, sep: char, env: map<string, string>)
    requires |parts| > 0 && parts[|parts| - 1] != ""
    requires forall k :: 0 <= k < |parts| ==> sep !in parts[k]
    requires name in env && env[name] == Join(parts, [sep])
    ensures EnvList(env, name, sep) == parts
  {
    SplitJoinChar(parts, sep);
    assert Split("", [sep]) == [""];
    assert parts != [""] by {
      if |parts| == 1 { assert parts[0] != ""; }
    }
  }

  /**
   * Read back as pytest's own process would, the discovery environment holds
   * the plugins of the running process followed by the discovery plugin, and
   * its Python path followed by the plugin directory.
   */
  lemma DiscoveryEnvironmentExtends(env: map<string, string>, environ: map<string, string>, pathsep: char, pluginPath: string)
    requires pluginPath != "" && pathsep !in pluginPath
    ensures var e := DiscoveryEnvironment(env, environ, pathsep, pluginPath);
            && GetOsPytestPlugins(e) == GetOsPytestPlugins(environ) + [DISCOVERY_PLUGIN]
            && GetOsPythonPath(e, pathsep) == GetOsPythonPath(environ, pathsep) + [pluginPath]
  {
    var e := DiscoveryEnvironment(env, environ, pathsep, pluginPath);
    var plugins := GetOsPytestPlugins(environ) + [DISCOVERY_PLUGIN];
    forall k | 0 <= k < |plugins| ensures ',' !in plugins[k] {
      if k < |plugins| - 1 {
        assert plugins[k] == EnvList(environ, "PYTEST_PLUGINS", ',')[k];
      }
    }
    EnvListOfJoin(plugins, "PYTEST_PLUGINS", ',', e);
    var paths := GetOsPythonPath(environ, pathsep) + [pluginPath];
    forall k | 0 <= k < |paths| ensures pathsep !in paths[k] {
      if k < |paths| - 1 {
        assert paths[k] == EnvList(environ, "PYTHONPATH", pathsep)[k];
      }
    }
    EnvListOfJoin(paths, "PYTHONPATH", pathsep, e);
  }

  /** `get_current_working_directory`: the suite's directory, made absolute under the project root, or the root itself. */
  function GetCurrentWorkingDirectory(cwd: Option<string>, projectRootDir: string): string
  {
    if cwd.Some? then
      if !Common.IsAbs(cwd.value) then Common.Join(projectRootDir, cwd.value) else cwd.value
    else projectRootDir
  }

  /** pytest's own working-directory rule is the shared one of the frameworks. */
  lemma WorkingDirectoryAgrees(cwd: Option<string>, projectRootDir: string)
    ensures GetCurrentWorkingDirectory(cwd, projectRootDir) == Common.GetWorkingDirectory(cwd, projectRootDir)
    ensures cwd.None? ==> GetCurrentWorkingDirectory(cwd, projectRootDir) == projectRootDir
    ensures cwd.Some? && Common.IsAbs(cwd.value) ==> GetCurrentWorkingDirectory(cwd, projectRootDir) == cwd.value
  {
  }

  // ---------------------------------------------------------------------
  // Discovery
  // ---------------------------------------------------------------------

  /** What `parse_discovered_test` reads from the framework. */
  datatype Settings = Settings(pathPrefixStyle: string, customPrefix: Option<string>)

  /** The segments the prefix style makes of the file a test was discovered in. */
  function StyleSegments(style: string, ops: Common.PathOps, discoveryFile: string): seq<string>
  {
    if style == "full" then Split(discoveryFile, [ops.sep])
    else if style == "basename" then [ops.basename(discoveryFile)]
    else []
  }

  /**
   * `parse_discovered_test`: the node id split at `::`; its first part, the
   * file, becomes segments by style, the rest follows; the custom prefix
   * goes in front. `None` where `file`, `name` or `line` is missing or of
   * another JSON type.
   */
  function ParseDiscoveredTest(st: Settings, ops: Common.PathOps, test: Json.Value, workingDirectory: string, projectDirectory: string)
    : (r: Option<DiscoveredTest>)
    ensures r.Some? <==> && test.Object? && "file" in test.fields && test.fields["file"].Str?
                         && "name" in test.fields && test.fields["name"].Str?
                         && "line" in test.fields && test.fields["line"].Int?
    ensures r.Some? ==>
              var segments := Split(test.fields["name"].s, "::");
              var path := r.value.fullName;
              var prefix := PrefixSegments(st.customPrefix);
              var discoveryFile := ops.normpath(ops.relpath(Common.Join(workingDirectory, segments[0]), projectDirectory));
              && |prefix| + |segments| - 1 <= |path|
              && path[..|prefix|] == prefix
              && path[|path| - (|segments| - 1)..] == segments[1..]
              && Join([segments[0]] + path[|path| - (|segments| - 1)..], "::") == test.fields["name"].s
              && (st.pathPrefixStyle != "full" && st.pathPrefixStyle != "basename" ==> path == prefix + segments[1..])
              && (st.pathPrefixStyle == "full" ==> path == prefix + Split(discoveryFile, [ops.sep]) + segments[1..])
              && (st.pathPrefixStyle == "basename" ==> path == prefix + [ops.basename(discoveryFile)] + segments[1..])
              && r.value.runId.None? && r.value.reportId.None? && r.value.suiteId.None?
              && r.value.location.file == ops.relpath(Common.Join(workingDirectory, test.fields["file"].s), projectDirectory)
              && r.value.location.line == test.fields["line"].i
  {
    match test
    case Object(f) =>
      if "file" !in f || "name" !in f || "line" !in f then None
      else (match (f["file"], f["name"], f["line"])
        case (Str(file), Str(name), Int(line)) =>
          var location := ops.relpath(Common.Join(workingDirectory, file), projectDirectory);
          var segments := Split(name, "::");
          var discoveryFile := ops.normpath(ops.relpath(Common.Join(workingDirectory, segments[0]), projectDirectory));
          var path := PrefixSegments(st.customPrefix) + StyleSegments(st.pathPrefixStyle, ops, discoveryFile) + segments[1..];
          JoinSplit(name, "::");
          assert [segments[0]] + segments[1..] == segments;
          assert path[|path| - (|segments| - 1)..] == segments[1..];
          Some(DiscoveredTest(path, None, None, None, TestLocation(None, location, line)))
        case _ => None)
    case _ => None
  }

  function TestParser(st: Settings, ops: Common.PathOps, workingDirectory: string, projectDirectory: string): Json.Value -> Option<DiscoveredTest>
  {
    t => ParseDiscoveredTest(st, ops, t, workingDirectory, projectDirectory)
  }

  /** The index of the first line holding the discovery header. */
  function FirstHeaderLine(lines: seq<string>): (r: Option<nat>)
    decreases |lines|
    ensures r.Some? ==> r.value < |lines| && Contains(lines[r.value], DISCOVERY_HEADER)
                        && forall j :: 0 <= j < r.value ==> !Contains(lines[j], DISCOVERY_HEADER)
    ensures r.None? ==> forall j :: 0 <= j < |lines| ==> !Contains(lines[j], DISCOVERY_HEADER)
  {
    if |lines| == 0 then None
    else if Contains(lines[0], DISCOVERY_HEADER) then Some(0)
    else match FirstHeaderLine(lines[1..])
      case None => None
      case Some(i) => Some(i + 1)
  }

  const ERRORS_MESSAGE := "Error when discovering tests. See panel for more information."
  const NOT_FOUND_MESSAGE := "Could not find test discovery data; pytest plugin compatibility issue?"

  /**
   * The outcome of the line holding the header: the record after the header
   * is removed; a truthy `errors` field is a `DiscoveryError` carrying it;
   * otherwise every entry of `tests` is parsed. Anything that would raise
   * another exception (unparsable JSON, a missing key, a test entry that
   * does not parse) is `OtherException`.
   */
  function DecodeRecord(st: Settings, ops: Common.PathOps, loads: string -> Option<Json.Value>, line: string,
                        workingDirectory: string, projectDirectory: string): (r: Discovery)
    ensures r.Error? ==> r.error.message == ERRORS_MESSAGE
    ensures r.Error? <==> && loads(Replace(line, DISCOVERY_HEADER, "")).Some?
                          && loads(Replace(line, DISCOVERY_HEADER, "")).value.Object?
                          && "errors" in loads(Replace(line, DISCOVERY_HEADER, "")).value.fields
                          && Json.Truthy(loads(Replace(line, DISCOVERY_HEADER, "")).value.fields["errors"])
    ensures r.Error? ==> r.error.details == loads(Replace(line, DISCOVERY_HEADER, "")).value.fields["errors"]
    ensures r.Discovered? ==> loads(Replace(line, DISCOVERY_HEADER, "")).Some?
    ensures r.Discovered? ==> var data := loads(Replace(line, DISCOVERY_HEADER, "")).value;
                              && data.Object? && "tests" in data.fields && data.fields["tests"].Array?
                              && TryMap(data.fields["tests"].items, TestParser(st, ops, workingDirectory, projectDirectory)) == Some(r.tests)
  {
    match loads(Replace(line, DISCOVERY_HEADER, ""))
    case None => OtherException
    case Some(data) =>
      (match data
      case Object(f) =>
        if "errors" !in f then OtherException
        else if Json.Truthy(f["errors"]) then Error(DiscoveryError(ERRORS_MESSAGE, f["errors"]))
        else if "tests" !in f || !f["tests"].Array? then OtherException
        else (match TryMap(f["tests"].items, TestParser(st, ops, workingDirectory, projectDirectory))
          case None => OtherException
          case Some(tests) => Discovered(tests))
      case _ => OtherException)
  }

  /** `parse_discovery`: only the first line holding the header counts; without one, a `DiscoveryError`. */
  method ParseDiscovery(st: Settings, ops: Common.PathOps, loads: string -> Option<Json.Value>, lines: seq<string>,
                        workingDirectory: string, projectDirectory: string) returns (r: Discovery)
    ensures FirstHeaderLine(lines).None? ==> r == Error(DiscoveryError(NOT_FOUND_MESSAGE, Json.Null))
    ensures FirstHeaderLine(lines).Some? ==>
              r == DecodeRecord(st, ops, loads, lines[FirstHeaderLine(lines).value], workingDirectory, projectDirectory)
  {
    for i := 0 to |lines|
      invariant forall j :: 0 <= j < i ==> !Contains(lines[j], DISCOVERY_HEADER)
    {
      if Contains(lines[i], DISCOVERY_HEADER) {
        FirstIsFirst(lines, i);
        return DecodeRecord(st, ops, loads, lines[i], workingDirectory, projectDirectory);
      }
    }
    return Error(DiscoveryError(NOT_FOUND_MESSAGE, Json.Null));
  }

  /** The first line with the header is the one no earlier line precedes. */
  lemma FirstIsFirst(lines: seq<string>, i: nat)
    requires i < |lines| && Contains(lines[i], DISCOVERY_HEADER)
    requires forall j :: 0 <= j < i ==> !Contains(lines[j], DISCOVERY_HEADER)
    ensures FirstHeaderLine(lines) == Some(i)
  {
  }
}

=== FILE: strings.dfy ===
/**
 * The string operations of Python that the modelled code relies on
 * (`startswith`, `in`, `split`, `join`, `replace`, `strip`, `int()` and
 * decimal formatting), each with the property the callers need.
 */
module Strings {
  import opened Wrappers

  /** Python's `s.startswith(prefix)`. */
  predicate StartsWith(s: string, prefix: string) {
    |prefix| <= |s| && s[..|prefix|] == prefix
  }

  /** Python's `s.endswith(suffix)`. */
  predicate EndsWith(s: string, suffix: string) {
    |suffix| <= |s| && s[|s| - |suffix|..] == suffix
  }

  /** A text built as `head + middle + tail` starts with `head` and ends with `tail`. */
  lemma Framed(head: string, middle: string, tail: string)
    ensures StartsWith(head + middle + tail, head) && EndsWith(head + middle + tail, tail)
  {
    var text := head + middle + tail;
    assert text[..|head|] == head;
    assert text[|text| - |tail|..] == tail;
  }

  /** `sub` occurs in `s` starting at index `i`. */
  predicate OccursAt(s: string, sub: string, i: nat) {
    i + |sub| <= |s| && s[i..i + |sub|] == sub
  }

  /** Python's `sub in s`. */
  predicate Contains(s: string, sub: string) {
    exists i: nat | i <= |s| :: OccursAt(s, sub, i)
  }

  /** The first index at or after `start` where `sub` occurs (Python's `s.find(sub, start)`, with `None` for -1). */
  function IndexFrom(s: string, sub: string, start: nat): (r: Option<nat>)
    decreases |s| - start
    ensures r.Some? ==> start <= r.value && OccursAt(s, sub, r.value)
    ensures r.Some? ==> forall j: nat :: start <= j < r.value ==> !OccursAt(s, sub, j)
    ensures r.None? ==> forall j: nat :: start <= j ==> !OccursAt(s, sub, j)
  {
    if start + |sub| > |s| then None
    else if OccursAt(s, sub, start) then Some(start)
    else IndexFrom(s, sub, start + 1)
  }

  lemma IndexFromNoneNotContains(s: string, sub: string)
    requires IndexFrom(s, sub, 0).None?
    ensures !Contains(s, sub)
  {
  }

  /** Python's `s.split(sep)` for a non-empty separator: cut at every occurrence, scanning left to right. */
  function Split(s: string, sep: string): (r: seq<string>)
    requires |sep| > 0
    decreases |s|
    ensures |r| >= 1
  {
    match IndexFrom(s, sep, 0)
    case None => [s]
    case Some(i) => [s[..i]] + Split(s[i + |sep|..], sep)
  }

  /** Python's `sep.join(parts)`. */
  function Join(parts: seq<string>, sep: string): string
  {
    if |parts| == 0 then ""
    else if |parts| == 1 then parts[0]
    else parts[0] + sep + Join(parts[1..], sep)
  }

  /** Python's `s.replace(pattern, replacement)` for a non-empty pattern: every occurrence, left to right, without overlap. */
  function Replace(s: string, pattern: string, replacement: string): string
    requires |pattern| > 0
  {
    Join(Split(s, pattern), replacement)
  }

  /** Joining the pieces of a split with the same separator gives back the string. */
  lemma {:induction false} JoinSplit(s: string, sep: string)
    requires |sep| > 0
    ensures Join(Split(s, sep), sep) == s
    decreases |s|
  {
    match IndexFrom(s, sep, 0)
    case None =>
    case Some(i) =>
      var rest := s[i + |sep|..];
      var parts := Split(rest, sep);
      JoinSplit(rest, sep);
      assert Split(s, sep) == [s[..i]] + parts;
      assert ([s[..i]] + parts)[1..] == parts;
      assert Join([s[..i]] + parts, sep) == s[..i] + sep + Join(parts, sep);
      assert s == s[..i] + sep + rest;
  }

  /** No piece of a split contains the separator. */
  lemma {:induction false} SplitPiecesFree(s: string, sep: string)
    requires |sep| > 0
    ensures forall p | p in Split(s, sep) :: !Contains(p, sep)
    decreases |s|
  {
    match IndexFrom(s, sep, 0)
    case None =>
    case Some(i) =>
      var rest := s[i + |sep|..];
      SplitPiecesFree(rest, sep);
      var first := s[..i];
      forall j: nat | OccursAt(first, sep, j)
        ensures false
      {
        assert first[j..j + |sep|] == s[j..j + |sep|];
        assert OccursAt(s, sep, j);
      }
  }

  /** Splitting at a character gives back the parts it was joined from, when no part holds that character. */
  lemma {:induction false} SplitJoinChar(parts: seq<string>, c: char)
    requires |parts| > 0
    requires forall k :: 0 <= k < |parts| ==> c !in parts[k]
    ensures Split(Join(parts, [c]), [c]) == parts
    decreases |parts|
  {
    var s := Join(parts, [c]);
    var p := parts[0];
    forall j: nat | j < |p| ensures !OccursAt(s, [c], j) {
      if |parts| > 1 {
        assert s == p + [c] + Join(parts[1..], [c]);
      }
      assert s[j] == p[j];
    }
    if |parts| == 1 {
      assert s == p;
    } else {
      var rest := Join(parts[1..], [c]);
      assert s == p + [c] + rest;
      assert OccursAt(s, [c], |p|);
      assert IndexFrom(s, [c], 0) == Some(|p|);
      assert s[|p| + 1..] == rest;
      forall k | 0 <= k < |parts[1..]| ensures c !in parts[1..][k] {
        assert parts[1..][k] == parts[k + 1];
      }
      SplitJoinChar(parts[1..], c);
      assert s[..|p|] == p;
      assert Split(s, [c]) == [s[..|p|]] + Split(s[|p| + 1..], [c]);
      assert parts == [p] + parts[1..];
    }
  }

  /** No piece of a split at a character holds that character. */
  lemma SplitCharPiecesFree(s: string, c: char)
    ensures forall k :: 0 <= k < |Split(s, [c])| ==> c !in Split(s, [c])[k]
  {
    SplitPiecesFree(s, [c]);
    forall k | 0 <= k < |Split(s, [c])| ensures c !in Split(s, [c])[k] {
      var p := Split(s, [c])[k];
      assert p in Split(s, [c]);
      NotContainsChar(p, c);
    }
  }

  /** A string in which the one-character string `[c]` does not occur has no `c`. */
  lemma NotContainsChar(p: string, c: char)
    requires !Contains(p, [c])
    ensures c !in p
  {
    forall j | 0 <= j < |p|
      ensures p[j] != c
    {
      assert p[j..j + 1] == [p[j]];
      assert OccursAt(p, [p[j]], j);
    }
  }

  /** Joining one more part appends the separator and the part. */
  lemma {:induction false} JoinSnoc(parts: seq<string>, x: string, sep: string)
    requires |parts| > 0
    ensures Join(parts + [x], sep) == Join(parts, sep) + sep + x
    decreases |parts|
  {
    if |parts| > 1 {
      assert (parts + [x])[1..] == parts[1..] + [x];
      JoinSnoc(parts[1..], x, sep);
    } else {
      assert (parts + [x])[1..] == [x];
    }
  }

  /** Number of occurrences of the character `c` in `s`. */
  function Count(s: string, c: char): nat
  {
    if |s| == 0 then 0 else (if s[0] == c then 1 else 0) + Count(s[1..], c)
  }

  lemma {:induction false} CountAppend(a: string, b: string, c: char)
    ensures Count(a + b, c) == Count(a, c) + Count(b, c)
  {
    if |a| > 0 {
      assert (a + b)[1..] == a[1..] + b;
      CountAppend(a[1..], b, c);
    } else {
      assert a + b == b;
    }
  }

  lemma {:induction false} CountAbsent(s: string, c: char)
    requires forall i :: 0 <= i < |s| ==> s[i] != c
    ensures Count(s, c) == 0
  {
    if |s| > 0 {
      CountAbsent(s[1..], c);
    }
  }

  /** Splitting on one character gives one piece more than there are occurrences of it. */
  lemma {:induction false} SplitCharCount(s: string, c: char)
    ensures |Split(s, [c])| == Count(s, c) + 1
    decreases |s|
  {
    match IndexFrom(s, [c], 0)
    case None =>
      forall i | 0 <= i < |s| ensures s[i] != c {
        assert !OccursAt(s, [c], i);
        assert s[i..i + 1] == [s[i]];
      }
      CountAbsent(s, c);
    case Some(i) =>
      var rest := s[i + 1..];
      SplitCharCount(rest, c);
      forall j | 0 <= j < i ensures s[..i][j] != c {
        assert !OccursAt(s, [c], j);
        assert s[j..j + 1] == [s[j]];
      }
      CountAbsent(s[..i], c);
      assert s[i..i + 1] == [c];
      assert s == s[..i] + [c] + rest;
      CountAppend(s[..i] + [c], rest, c);
      CountAppend(s[..i], [c], c);
  }

  /** Python's `str.isspace()` for one character: the characters `strip()` removes. */
  predicate IsSpace(c: char) {
    var n := c as int;
    (9 <= n <= 13) || (28 <= n <= 32) || n == 0x85 || n == 0xA0 || n == 0x1680
    || (0x2000 <= n <= 0x200A) || n == 0x2028 || n == 0x2029 || n == 0x202F
    || n == 0x205F || n == 0x3000
  }

  function TrimLeft(s: string): (r: string)
    ensures |r| <= |s| && r == s[|s| - |r|..]
    ensures |r| > 0 ==> !IsSpace(r[0])
  {
    if |s| > 0 && IsSpace(s[0]) then TrimLeft(s[1..]) else s
  }

  function TrimRight(s: string): (r: string)
    ensures |r| <= |s| && r == s[..|r|]
    ensures |r| > 0 ==> !IsSpace(r[|r| - 1])
  {
    if |s| > 0 && IsSpace(s[|s| - 1]) then TrimRight(s[..|s| - 1]) else s
  }

  /** Python's `s.strip()`: the whitespace at both ends removed, nothing else changed. */
  function Strip(s: string): (r: string)
    ensures |r| <= |s|
    ensures |r| > 0 ==> !IsSpace(r[0]) && !IsSpace(r[|r| - 1])
  {
    TrimRight(TrimLeft(s))
  }

  /** A string with no whitespace at either end is its own strip. */
  lemma StripUnchanged(s: string)
    requires |s| > 0 ==> !IsSpace(s[0]) && !IsSpace(s[|s| - 1])
    ensures Strip(s) == s
  {
  }

  /** `n` copies of `c` (Python's `c * n`). */
  function Repeat(c: char, n: nat): (r: string)
    ensures |r| == n && forall i :: 0 <= i < n ==> r[i] == c
  {
    seq(n, _ => c)
  }

  predicate IsDigit(c: char) {
    '0' <= c <= '9'
  }

  predicate AllDigits(s: string) {
    forall i :: 0 <= i < |s| ==> IsDigit(s[i])
  }

  function DigitChar(d: nat): (c: char)
    requires d < 10
    ensures IsDigit(c) && c as int - '0' as int == d
  {
    (d + '0' as int) as char
  }

  /** The value of a string of decimal digits, most significant first. */
  function DigitsValue(s: string): nat
    requires AllDigits(s)
  {
    if |s| == 0 then 0 else DigitsValue(s[..|s| - 1]) * 10 + (s[|s| - 1] as int - '0' as int)
  }

  /** Decimal text of a natural number (Python's `str(n)` and `'%d' % n`). */
  function NatToString(n: nat): (r: string)
    decreases n
    ensures |r| >= 1 && AllDigits(r)
  {
    if n < 10 then [DigitChar(n)] else NatToString(n / 10) + [DigitChar(n % 10)]
  }

  /** Decimal text of an integer, with a leading '-' when negative. */
  function IntToString(i: int): string
  {
    if i < 0 then "-" + NatToString(-i) else NatToString(i)
  }

  /** Reading the decimal text of `n` back gives `n`. */
  lemma {:induction false} NatToStringValue(n: nat)
    ensures DigitsValue(NatToString(n)) == n
    decreases n
  {
    if n >= 10 {
      var s := NatToString(n);
      NatToStringValue(n / 10);
      assert s[..|s| - 1] == NatToString(n / 10);
    }
  }

  /** Distinct numbers have distinct decimal texts. */
  lemma NatToStringInjective(a: nat, b: nat)
    requires NatToString(a) == NatToString(b)
    ensures a == b
  {
    NatToStringValue(a);
    NatToStringValue(b);
  }

  /** The digits of `s`, underscores removed. */
  function RemoveUnderscores(s: string): (r: string)
    requires forall i :: 0 <= i < |s| ==> IsDigit(s[i]) || s[i] == '_'
    ensures AllDigits(r)
  {
    if |s| == 0 then "" else (if s[0] == '_' then "" else [s[0]]) + RemoveUnderscores(s[1..])
  }

  /** Digits with single underscores between them, as Python's `int()` accepts. */
  predicate IsDecimalLiteral(b: string) {
    && |b| > 0
    && IsDigit(b[0])
    && IsDigit(b[|b| - 1])
    && (forall i :: 0 <= i < |b| ==> IsDigit(b[i]) || b[i] == '_')
    && (forall i, j :: 0 <= i < |b| && 0 <= j < |b| && j == i + 1 && b[i] == '_' ==> IsDigit(b[j]))
  }

  function LiteralValue(b: string): nat
    requires IsDecimalLiteral(b)
  {
    DigitsValue(RemoveUnderscores(b))
  }

  /**
   * Python's `int(s)` in base 10: surrounding whitespace, an optional sign,
   * then digits; `None` where Python raises ValueError.
   */
  function ParseInt(s: string): Option<int>
  {
    var t := Strip(s);
    if |t| > 0 && (t[0] == '-' || t[0] == '+') then
      if IsDecimalLiteral(t[1..]) then
        var v: int := LiteralValue(t[1..]);
        Some(if t[0] == '-' then -v else v)
      else None
    else if IsDecimalLiteral(t) then Some(LiteralValue(t))
    else None
  }

  lemma {:induction false} RemoveUnderscoresDigits(s: string)
    requires AllDigits(s)
    ensures RemoveUnderscores(s) == s
  {
    if |s| > 0 {
      RemoveUnderscoresDigits(s[1..]);
    }
  }

  /** The decimal text of `n` is a literal `int()` accepts, with value `n`. */
  lemma NatLiteral(n: nat)
    ensures IsDecimalLiteral(NatToString(n)) && LiteralValue(NatToString(n)) == n
  {
    var d := NatToString(n);
    NatToStringValue(n);
    RemoveUnderscoresDigits(d);
  }

  /** `int(str(i)) == i`: the decimal text of any integer parses back to it. */
  lemma ParseIntRoundTrip(i: int)
    ensures ParseInt(IntToString(i)) == Some(i)
  {
    if i < 0 {
      NegativeRoundTrip(i);
    } else {
      NaturalRoundTrip(i);
    }
  }

  /** A literal with nothing around it parses to its value. */
  lemma PositiveLiteral(d: string)
    requires IsDecimalLiteral(d)
    ensures ParseInt(d) == Some(LiteralValue(d))
  {
    StripUnchanged(d);
  }

  /** A literal behind a minus sign parses to the opposite of its value. */
  lemma NegativeLiteral(d: string, i: int)
    requires IsDecimalLiteral(d) && LiteralValue(d) == -i
    ensures ParseInt("-" + d) == Some(i)
  {
    var s := "-" + d;
    assert s[0] == '-' && s[|s| - 1] == d[|d| - 1];
    StripUnchanged(s);
    assert s[1..] == d;
  }

  lemma NaturalRoundTrip(n: nat)
    ensures ParseInt(NatToString(n)) == Some(n)
  {
    NatLiteral(n);
    PositiveLiteral(NatToString(n));
  }

  lemma NegativeRoundTrip(i: int)
    requires i < 0
    ensures ParseInt("-" + NatToString(-i)) == Some(i)
  {
    NatLiteral(-i);
    NegativeLiteral(NatToString(-i), i);
  }
}

=== FILE: suites.dfy ===
/**
 * Adding a test suite to the project: proposing a free default id for
 * the chosen framework, then recording the new suite in the project data.
 */
module Suites {
  import opened Wrappers
  import opened Strings
  import Json
  import Util

  /** An entry of the framework quick panel. */
  datatype FrameworkChoice = FrameworkChoice(name: string, description: string)

  /** What `select_suite_id` ends in. */
  datatype Selection =
    | Cancelled
      /** `s['id']` raised on an existing suite that is not a dictionary with an id. */
    | BadSuite
      /** The input panel is opened on `defaultName`; `settings` wait for the id the user types. */
    | Proposed(settings: map<string, Json.Value>, defaultName: string, suiteId: nat)

  /** `[s['id'] for s in existing_suites]`, or `None` when some suite has no id. */
  function SuiteIds(suites: seq<Json.Value>): (r: Option<seq<Json.Value>>)
    ensures r.Some? <==> forall i :: 0 <= i < |suites| ==> suites[i].Object? && "id" in suites[i].fields
    ensures r.Some? ==> |r.value| == |suites| && forall i :: 0 <= i < |suites| ==> r.value[i] == suites[i].fields["id"]
  {
    if |suites| == 0 then Some([])
    else match SuiteIds(suites[..|suites| - 1])
      case None => None
      case Some(ids) =>
        var s := suites[|suites| - 1];
        if s.Object? && "id" in s.fields then Some(ids + [s.fields["id"]]) else None
  }

  /** The candidate default name for a number: the framework name followed by it. */
  function Candidate(framework: string, n: nat): Json.Value {
    Json.Str(framework + NatToString(n))
  }

  /** The candidates for 1 through `k`. */
  function Candidates(framework: string, k: nat): set<Json.Value> {
    if k == 0 then {} else Candidates(framework, k - 1) + {Candidate(framework, k)}
  }

  /** Different numbers give different candidates. */
  lemma CandidateInjective(framework: string, a: nat, b: nat)
    requires Candidate(framework, a) == Candidate(framework, b)
    ensures a == b
  {
    var sa, sb := framework + NatToString(a), framework + NatToString(b);
    assert NatToString(a) == sa[|framework|..];
    assert NatToString(b) == sb[|framework|..];
    NatToStringInjective(a, b);
  }

  /** `Candidates(framework, k)` holds exactly the candidates of 1 through `k`, so it has `k` of them. */
  lemma {:induction false} CandidatesCount(framework: string, k: nat)
    ensures forall n: nat :: Candidate(framework, n) in Candidates(framework, k) ==> 1 <= n <= k
    ensures |Candidates(framework, k)| == k
  {
    if k > 0 {
      CandidatesCount(framework, k - 1);
      forall n: nat | Candidate(framework, n) in Candidates(framework, k)
        ensures 1 <= n <= k
      {
        if Candidate(framework, n) == Candidate(framework, k) {
          CandidateInjective(framework, n, k);
        }
      }
      assert Candidate(framework, k) !in Candidates(framework, k - 1);
    }
  }

  /** A sequence has at most as many distinct elements as it is long. */
  lemma {:induction false} DistinctAtMostLength<T>(s: seq<T>)
    ensures |set x | x in s| <= |s|
  {
    if |s| > 0 {
      var init := s[..|s| - 1];
      DistinctAtMostLength(init);
      assert (set x | x in s) == (set x | x in init) + {s[|s| - 1]};
    }
  }

  /**
   * While the candidates 1 through `k` are all taken, `k` cannot exceed
   * the number of existing ids: this bounds the search for a free name.
   */
  lemma TakenBound(framework: string, ids: seq<Json.Value>, k: nat)
    requires forall m :: 1 <= m <= k ==> Candidate(framework, m) in ids
    ensures k <= |ids|
  {
    CandidatesCount(framework, k);
    assert Candidates(framework, k) <= set x | x in ids by {
      forall v | v in Candidates(framework, k)
        ensures v in ids
      {
        CandidateIn(framework, k, v);
      }
    }
    DistinctAtMostLength(ids);
    SubsetCardinality(Candidates(framework, k), set x | x in ids);
  }

  /** Each member of `Candidates(framework, k)` is the candidate of some number from 1 to `k`. */
  lemma {:induction false} CandidateIn(framework: string, k: nat, v: Json.Value)
    requires v in Candidates(framework, k)
    ensures exists m :: 1 <= m <= k && v == Candidate(framework, m)
  {
    if v != Candidate(framework, k) {
      CandidateIn(framework, k - 1, v);
    }
  }

  /** A subset is no larger than its superset. */
  lemma SubsetCardinality<T>(a: set<T>, b: set<T>)
    requires a <= b
    ensures |a| <= |b|
  {
    assert b == a + (b - a);
  }

  /**
   * `select_suite_id`: a negative index (the panel was dismissed) does
   * nothing; otherwise the framework's default settings get its name under
   * `framework`, and the proposed id is the framework name followed by the
   * smallest number from 1 up that no existing suite uses as its id.
   */
  method SelectSuiteId(frameworks: seq<FrameworkChoice>, frameworkId: int,
                       defaults: map<string, Json.Value>, existingSuites: seq<Json.Value>)
    returns (r: Selection)
    requires frameworkId < |frameworks|
    ensures frameworkId < 0 <==> r.Cancelled?
    ensures frameworkId >= 0 ==> (r.BadSuite? <==> SuiteIds(existingSuites).None?)
    ensures r.Proposed? ==>
              var framework := frameworks[frameworkId].name;
              var ids := SuiteIds(existingSuites).value;
              && r.settings == defaults["framework" := Json.Str(framework)]
              && 1 <= r.suiteId <= |ids| + 1
              && Json.Str(r.defaultName) == Candidate(framework, r.suiteId)
              && Json.Str(r.defaultName) !in ids
              && forall m :: 1 <= m < r.suiteId ==> Candidate(framework, m) in ids
  {
    if frameworkId < 0 {
      return Cancelled;
    }
    var framework := frameworks[frameworkId].name;
    var settings := defaults["framework" := Json.Str(framework)];
    var ids := SuiteIds(existingSuites);
    if ids.None? {
      return BadSuite;
    }
    var suiteId := 1;
    var name := framework + "1";
    assert NatToString(1) == "1";
    while Json.Str(name) in ids.value
      invariant 1 <= suiteId <= |ids.value| + 1
      invariant Json.Str(name) == Candidate(framework, suiteId)
      invariant forall m :: 1 <= m < suiteId ==> Candidate(framework, m) in ids.value
      decreases |ids.value| + 1 - suiteId
    {
      TakenBound(framework, ids.value, suiteId);
      suiteId := suiteId + 1;
      name := framework + NatToString(suiteId);
    }
    r := Proposed(settings, name, suiteId);
  }

  /** The project data `add_suite` merges in: the suite list under `settings.TestManager.test_suites`. */
  function NewData(suites: seq<Json.Value>): Json.Value {
    Json.Object(map["settings" := Json.Object(map["TestManager" := Json.Object(map["test_suites" := Json.Array(suites)])])])
  }

  /**
   * `add_suite`: the id typed by the user goes into the settings, the
   * settings are appended to the existing suites, and the list is deep
   * merged into the project data (`None` when the merge raises).
   */
  method AddSuite(existingSuites: seq<Json.Value>, settings: map<string, Json.Value>, suiteId: string,
                  projectData: map<string, Json.Value>)
    returns (suites: seq<Json.Value>, data: Option<map<string, Json.Value>>)
    ensures |suites| == |existingSuites| + 1 && suites[..|existingSuites|] == existingSuites
    ensures suites[|existingSuites|] == Json.Object(settings["id" := Json.Str(suiteId)])
    ensures data == Util.MergeFields(projectData, NewData(suites))
  {
    var entry := settings["id" := Json.Str(suiteId)];
    suites := existingSuites + [Json.Object(entry)];
    data := Util.MergeDeep(projectData, NewData(suites));
  }

  /** A value that a dictionary can be merged into without raising: absent, or itself a dictionary. */
  predicate Mergeable(d: map<string, Json.Value>, k: string) {
    k !in d || d[k].Object?
  }

  /**
   * The merge of `add_suite` succeeds exactly when `settings` and
   * `settings.TestManager` are absent or dictionaries; it then replaces the
   * suite list and leaves every other setting, at every level, as it was.
   */
  lemma AddSuitePreservesSettings(projectData: map<string, Json.Value>, suites: seq<Json.Value>)
    ensures var r := Util.MergeFields(projectData, NewData(suites));
            r.Some? <==> Mergeable(projectData, "settings")
                         && ("settings" in projectData ==> Mergeable(projectData["settings"].fields, "TestManager"))
    ensures var r := Util.MergeFields(projectData, NewData(suites));
            r.Some? ==>
              && r.value.Keys == projectData.Keys + {"settings"}
              && (forall k :: k in projectData && k != "settings" ==> r.value[k] == projectData[k])
              && r.value["settings"].Object?
              && var s := r.value["settings"].fields;
                 && (forall k :: "settings" in projectData && k in projectData["settings"].fields && k != "TestManager"
                       ==> k in s && s[k] == projectData["settings"].fields[k])
                 && "TestManager" in s && s["TestManager"].Object?
                 && var tm := s["TestManager"].fields;
                    && "test_suites" in tm && tm["test_suites"] == Json.Array(suites)
                    && (forall k :: "settings" in projectData && "TestManager" in projectData["settings"].fields
                          && k in projectData["settings"].fields["TestManager"].fields && k != "test_suites"
                          ==> k in tm && tm[k] == projectData["settings"].fields["TestManager"].fields[k])
  {
    var nd := NewData(suites);
    var ns := nd.fields["settings"];
    var ntm := ns.fields["TestManager"];
    if "settings" in projectData && projectData["settings"].Object? {
      var ps := projectData["settings"].fields;
      if "TestManager" in ps && ps["TestManager"].Object? {
        var ptm := ps["TestManager"].fields;
        MergeOneKey(ptm, ntm, "test_suites");
        MergeOneKey(ps, ns, "TestManager");
      } else if "TestManager" in ps {
        assert Util.MergeFails(ps, ns);
      } else {
        MergeOneKey(ps, ns, "TestManager");
      }
      MergeOneKey(projectData, nd, "settings");
    } else if "settings" in projectData {
      assert Util.MergeFails(projectData, nd);
    } else {
      MergeOneKey(projectData, nd, "settings");
    }
  }

  /** Merging a one-key dictionary: only that key can change, and it fails only where that key's merge fails. */
  lemma MergeOneKey(d: map<string, Json.Value>, one: Json.Value, k: string)
    requires one.Object? && one.fields.Keys == {k}
    ensures Util.MergeFields(d, one).Some? <==> !(k in d && one.fields[k].Object? && Util.MergeInto(d[k], one.fields[k]).None?)
    ensures Util.MergeFields(d, one).Some? ==>
              && Util.MergeFields(d, one).value == d[k := Util.MergedValue(d, one, k)]
  {
    if !Util.MergeFails(d, one) {
      var m := Util.MergeFields(d, one).value;
      assert m == d[k := Util.MergedValue(d, one, k)];
    }
  }
}

=== FILE: teamcity.dfy ===
/**
 * The TeamCity service-message decoder: a line-driven state machine that
 * holds the open test and its accumulated status, forwards every line to the
 * open test, and reports starts and finishes to the test data.
 */
module Teamcity {
  import opened Wrappers
  import opened Strings
  import opened Events

  const MessagePrefix := "##teamcity["
  const TestStartedPrefix := "##teamcity[testStarted"
  const TestFinishedPrefix := "##teamcity[testFinished"
  const TestIgnoredPrefix := "##teamcity[testIgnored"
  const TestFailedPrefix := "##teamcity[testFailed"

  /** The literal text before the group of the pattern `name='(.+)'`. */
  const NameOpen := "name='"

  // ---------------------------------------------------------------------
  // parse_test_id: `re.search("name='(.+)'", line).group(1)`
  // ---------------------------------------------------------------------

  /** The first newline at or after `from`, or the end of the line: where a `.` stops matching. */
  function LineEnd(line: string, from: nat): (e: nat)
    requires from <= |line|
    decreases |line| - from
    ensures from <= e <= |line|
    ensures forall k :: from <= k < e ==> line[k] != '\n'
    ensures e < |line| ==> line[e] == '\n'
  {
    if from == |line| || line[from] == '\n' then from else LineEnd(line, from + 1)
  }

  /** The largest index in `[lo, hi)` holding a quote. */
  function LastQuote(line: string, lo: nat, hi: nat): (r: Option<nat>)
    requires hi <= |line|
    decreases hi
    ensures r.Some? ==> lo <= r.value < hi && line[r.value] == '\''
    ensures r.Some? ==> forall k :: r.value < k < hi ==> line[k] != '\''
    ensures r.None? ==> forall k :: lo <= k < hi ==> line[k] != '\''
  {
    if hi <= lo then None
    else if line[hi - 1] == '\'' then Some(hi - 1)
    else LastQuote(line, lo, hi - 1)
  }

  /**
   * The match of `name='(.+)'` starting at `i`: the greedy group runs up to
   * the last quote before the end of the line and holds at least one character.
   */
  function MatchAt(line: string, i: nat): Option<string>
  {
    if OccursAt(line, NameOpen, i) then
      var start := i + |NameOpen|;
      match LastQuote(line, start + 1, LineEnd(line, start))
      case None => None
      case Some(j) => Some(line[start..j])
    else None
  }

  /** `re.search` from index `i` on: the first start position with a match wins. */
  function SearchFrom(line: string, i: nat): Option<string>
    decreases |line| + 1 - i
  {
    if i > |line| then None
    else match MatchAt(line, i)
      case Some(id) => Some(id)
      case None => SearchFrom(line, i + 1)
  }

  /** The group of the first match, `None` where Python's `.group(1)` fails on a missing match. */
  function ParseTestId(line: string): Option<string>
  {
    SearchFrom(line, 0)
  }

  lemma {:induction false} SearchSkips(line: string, k: nat, i: nat)
    requires k <= i <= |line|
    requires forall j: nat :: k <= j < i ==> !OccursAt(line, NameOpen, j)
    ensures SearchFrom(line, k) == SearchFrom(line, i)
    decreases i - k
  {
    if k < i {
      assert MatchAt(line, k).None?;
      SearchSkips(line, k + 1, i);
    }
  }

  lemma {:induction false} LastQuoteNarrow(line: string, lo: nat, hi: nat, j: nat)
    requires hi <= |line|
    requires LastQuote(line, 0, hi) == Some(j) && lo <= j
    ensures LastQuote(line, lo, hi) == Some(j)
    decreases hi
  {
    if line[hi - 1] != '\'' {
      LastQuoteNarrow(line, lo, hi - 1, j);
    }
  }

  /** Every index up to the first line end sees the same line end. */
  lemma {:induction false} LineEndSame(line: string, k: nat)
    requires k <= LineEnd(line, 0)
    ensures LineEnd(line, k) == LineEnd(line, 0)
    decreases k
  {
    if k > 0 {
      LineEndSame(line, k - 1);
    }
  }

  /**
   * The id is the text between the first `name='` and the last quote of the
   * first physical line (up to its `\n`, which every line the reader
   * delivers still carries), provided that quote comes after at least one
   * character of the id.
   */
  lemma ParseTestIdFirstToLast(line: string, i: nat, j: nat)
    requires IndexFrom(line, NameOpen, 0) == Some(i)
    requires LastQuote(line, 0, LineEnd(line, 0)) == Some(j) && j > i + |NameOpen|
    ensures ParseTestId(line) == Some(line[i + |NameOpen|..j])
  {
    SearchSkips(line, 0, i);
    var start := i + |NameOpen|;
    var e := LineEnd(line, 0);
    LineEndSame(line, start);
    LastQuoteNarrow(line, start + 1, e, j);
  }

  /** A delivered line: the first `name='` and the last quote before the trailing newline bound the id. */
  lemma ParseTestIdDeliveredLine(text: string, i: nat, j: nat)
    requires forall k :: 0 <= k < |text| ==> text[k] != '\n'
    requires IndexFrom(text + "\n", NameOpen, 0) == Some(i)
    requires LastQuote(text, 0, |text|) == Some(j) && j > i + |NameOpen|
    ensures ParseTestId(text + "\n") == Some(text[i + |NameOpen|..j])
  {
    var line := text + "\n";
    DeliveredLineEnd(text);
    ParseTestIdFirstToLast(line, i, j);
    assert line[i + |NameOpen|..j] == text[i + |NameOpen|..j];
  }

  /** The trailing newline is the end of a delivered line, and the quotes before it are the text's. */
  lemma DeliveredLineEnd(text: string)
    requires forall k :: 0 <= k < |text| ==> text[k] != '\n'
    ensures LineEnd(text + "\n", 0) == |text|
    ensures LastQuote(text + "\n", 0, |text|) == LastQuote(text, 0, |text|)
  {
    var line := text + "\n";
    assert line[..|text|] == text;
    LineEndAt(line, 0, |text|);
    LastQuotePrefix(text, line, |text|);
  }

  lemma {:induction false} LineEndAt(line: string, k: nat, e: nat)
    requires k <= e < |line| && line[e] == '\n'
    requires forall m :: k <= m < e ==> line[m] != '\n'
    ensures LineEnd(line, k) == e
    decreases e - k
  {
    if k < e {
      LineEndAt(line, k + 1, e);
    }
  }

  lemma {:induction false} LastQuotePrefix(text: string, line: string, hi: nat)
    requires hi <= |text| <= |line| && text == line[..|text|]
    ensures LastQuote(text, 0, hi) == LastQuote(line, 0, hi)
    decreases hi
  {
    if hi > 0 {
      assert text[hi - 1] == line[hi - 1];
      LastQuotePrefix(text, line, hi - 1);
    }
  }

  lemma {:induction false} SearchNone(line: string, k: nat)
    requires forall j: nat :: k <= j ==> !OccursAt(line, NameOpen, j)
    ensures SearchFrom(line, k).None?
    decreases |line| + 1 - k
  {
    if k <= |line| {
      assert MatchAt(line, k).None?;
      SearchNone(line, k + 1);
    }
  }

  /** A line without `name='` has no id: `parse_test_id` raises on it. */
  lemma ParseTestIdNeedsName(line: string)
    requires IndexFrom(line, NameOpen, 0).None?
    ensures ParseTestId(line).None?
  {
    SearchNone(line, 0);
  }

  lemma {:induction false} SearchNoMatch(line: string, k: nat)
    requires forall p: nat :: k <= p ==> MatchAt(line, p).None?
    ensures SearchFrom(line, k).None?
    decreases |line| + 1 - k
  {
    if k <= |line| {
      SearchNoMatch(line, k + 1);
    }
  }

  /**
   * A delivered line has no id, so `parse_test_id` raises, exactly when it
   * holds no `name='`, or when no quote follows the first `name='` at
   * least one character later before the newline.
   */
  lemma ParseTestIdNoneDelivered(text: string)
    requires forall k :: 0 <= k < |text| ==> text[k] != '\n'
    ensures var first := IndexFrom(text + "\n", NameOpen, 0);
            ParseTestId(text + "\n").None? <==>
              first.None? || forall k :: first.value + |NameOpen| < k < |text| ==> text[k] != '\''
  {
    var line := text + "\n";
    DeliveredLineEnd(text);
    match IndexFrom(line, NameOpen, 0)
    case None =>
      SearchNone(line, 0);
    case Some(i) =>
      if k :| i + |NameOpen| < k < |text| && text[k] == '\'' {
        var j := LastQuote(text, 0, |text|).value;
        ParseTestIdDeliveredLine(text, i, j);
      } else {
        forall p: nat | i <= p
          ensures MatchAt(line, p).None?
        {
          NoMatchAfter(text, i, p);
        }
        SearchSkips(line, 0, i);
        SearchNoMatch(line, i);
      }
  }

  /** Without a quote past the first `name='`, no later position of the delivered line matches. */
  lemma NoMatchAfter(text: string, i: nat, p: nat)
    requires forall k :: 0 <= k < |text| ==> text[k] != '\n'
    requires i <= p
    requires forall k :: i + |NameOpen| < k < |text| ==> text[k] != '\''
    ensures MatchAt(text + "\n", p).None?
  {
    var line := text + "\n";
    if OccursAt(line, NameOpen, p) {
      var start := p + |NameOpen|;
      DeliveredLineEnd(text);
      if start <= |text| {
        LineEndSame(line, start);
        forall k | start + 1 <= k < |text| ensures line[k] != '\'' {
          assert line[k] == text[k];
        }
      } else {
        assert LineEnd(line, start) == start;
      }
    }
  }

  // ---------------------------------------------------------------------
  // The state machine of `feed`, `finish_current_test` and `close`
  // ---------------------------------------------------------------------

  /** What the parser was built with: the test list's report index, the suite id and the executable. */
  datatype Scope = Scope(index: ReportIndex, suiteId: string, executable: string)

  /** `current_test` and `current_status`. */
  datatype State = State(currentTest: Option<Path>, currentStatus: TestStatus)

  /** The state a new parser starts in. */
  const Initial := State(None, Passed)

  /** The new state, the events emitted, and whether the call raised. */
  datatype Step = Step(state: State, events: seq<Event>, raised: bool)

  /** The output event for a fed line: sent only while `current_test` is truthy. */
  function Forward(s: State, line: string): seq<Event>
  {
    if IsTruthy(s.currentTest) then [Output(s.currentTest.value, line)] else []
  }

  /** `finish_current_test`: an open test is reported CRASHED and closed. */
  function FinishCurrent(s: State): (r: Step)
    ensures r.state.currentTest.None? && r.state.currentStatus == s.currentStatus && !r.raised
    ensures s.currentTest.Some? ==> r.events == [Finished(s.currentTest.value, Crashed)]
    ensures s.currentTest.None? ==> r.events == [] && r.state == s
  {
    if s.currentTest.Some? then Step(State(None, s.currentStatus), [Finished(s.currentTest.value, Crashed)], false)
    else Step(s, [], false)
  }

  /** The four lifecycle prefixes are service messages and no line starts with two of them. */
  lemma PrefixesExclusive(line: string)
    ensures StartsWith(line, TestStartedPrefix) || StartsWith(line, TestFinishedPrefix)
            || StartsWith(line, TestIgnoredPrefix) || StartsWith(line, TestFailedPrefix)
            ==> StartsWith(line, MessagePrefix)
    ensures StartsWith(line, TestStartedPrefix)
            ==> (!StartsWith(line, TestFinishedPrefix) && !StartsWith(line, TestIgnoredPrefix) && !StartsWith(line, TestFailedPrefix))
    ensures StartsWith(line, TestFinishedPrefix) ==> (!StartsWith(line, TestIgnoredPrefix) && !StartsWith(line, TestFailedPrefix))
    ensures StartsWith(line, TestIgnoredPrefix) ==> !StartsWith(line, TestFailedPrefix)
  {
    if StartsWith(line, TestStartedPrefix) {
      assert line[15] == 'S';
      assert line[..11] == line[..|TestStartedPrefix|][..11];
    }
    if StartsWith(line, TestFinishedPrefix) {
      assert line[15] == 'F' && line[16] == 'i';
      assert line[..11] == line[..|TestFinishedPrefix|][..11];
    }
    if StartsWith(line, TestIgnoredPrefix) {
      assert line[15] == 'I';
      assert line[..11] == line[..|TestIgnoredPrefix|][..11];
    }
    if StartsWith(line, TestFailedPrefix) {
      assert line[15] == 'F' && line[16] == 'a';
      assert line[..11] == line[..|TestFailedPrefix|][..11];
    }
  }

  /**
   * One call of `feed`, with the id extraction as a parameter so that the
   * PHPUnit decoder can supply its own. The five message prefixes exclude
   * each other, so at most one branch after the first applies.
   */
  function FeedStep(sc: Scope, idOf: string -> Option<string>, s: State, line: string): Step
  {
    var out := Forward(s, line);
    if !StartsWith(line, MessagePrefix) then Step(s, out, false)
    else if StartsWith(line, TestStartedPrefix) then
      var fin := FinishCurrent(s);
      match idOf(line)
      case None => Step(fin.state, out + fin.events, true)
      case Some(id) =>
        var t := FindTestByReportId(sc.index, sc.suiteId, sc.executable, id);
        Step(State(t, Passed), out + fin.events + (if t.Some? then [Started(t.value)] else []), false)
    else if StartsWith(line, TestFinishedPrefix) then
      if s.currentTest.None? then Step(s, out, false)
      else Step(State(None, s.currentStatus), out + [Finished(s.currentTest.value, s.currentStatus)], false)
    else if StartsWith(line, TestIgnoredPrefix) then Step(State(s.currentTest, Skipped), out, false)
    else if StartsWith(line, TestFailedPrefix) then Step(State(s.currentTest, Failed), out, false)
    else Step(s, out, false)
  }

  /** Lines handled one after the other by `step`, each from the state the previous ones left; events are appended. */
  function Fold(step: (State, string) -> Step, s: State, lines: seq<string>): Step
    decreases |lines|
  {
    if |lines| == 0 then Step(s, [], false)
    else
      var r := Fold(step, s, lines[..|lines| - 1]);
      var t := step(r.state, lines[|lines| - 1]);
      Step(t.state, r.events + t.events, r.raised || t.raised)
  }

  /** `feed` with the standard test id parser, as a step function. */
  function Feeder(sc: Scope): (State, string) -> Step {
    (st: State, line: string) => FeedStep(sc, ParseTestId, st, line)
  }

  /** Feeding lines one after the other; an exception in one call does not stop the next (the stream reader logs it). */
  function FeedAll(sc: Scope, s: State, lines: seq<string>): Step {
    Fold(Feeder(sc), s, lines)
  }

  /** While a test is open, the fed line is its first event, before anything the line triggers. */
  lemma ForwardedFirst(sc: Scope, idOf: string -> Option<string>, s: State, line: string)
    requires IsTruthy(s.currentTest)
    ensures var r := FeedStep(sc, idOf, s, line); |r.events| > 0 && r.events[0] == Output(s.currentTest.value, line)
  {
  }

  /** A line that is not a service message changes no state and only forwards itself. */
  lemma PlainLineKeepsState(sc: Scope, idOf: string -> Option<string>, s: State, line: string)
    requires !StartsWith(line, MessagePrefix)
    ensures FeedStep(sc, idOf, s, line) == Step(s, Forward(s, line), false)
  {
  }

  /**
   * `testStarted` first reports an open test CRASHED, then makes the looked-up
   * test current with status PASSED, starting it only when the id resolves.
   */
  lemma StartedLine(sc: Scope, idOf: string -> Option<string>, s: State, line: string, id: string)
    requires StartsWith(line, TestStartedPrefix) && idOf(line) == Some(id)
    ensures var r := FeedStep(sc, idOf, s, line);
            var t := FindTestByReportId(sc.index, sc.suiteId, sc.executable, id);
            && r.state == State(t, Passed) && !r.raised
            && r.events == Forward(s, line)
                           + (if s.currentTest.Some? then [Finished(s.currentTest.value, Crashed)] else [])
                           + (if t.Some? then [Started(t.value)] else [])
  {
    PrefixesExclusive(line);
  }

  /** `testFinished` reports the accumulated status of the open test and closes it; with none open it does nothing. */
  lemma FinishedLine(sc: Scope, idOf: string -> Option<string>, s: State, line: string)
    requires StartsWith(line, TestFinishedPrefix)
    ensures var r := FeedStep(sc, idOf, s, line);
            && !r.raised && r.state.currentTest.None? && r.state.currentStatus == s.currentStatus
            && r.events == Forward(s, line) + (if s.currentTest.Some? then [Finished(s.currentTest.value, s.currentStatus)] else [])
  {
    PrefixesExclusive(line);
  }

  // ---------------------------------------------------------------------
  // The status rule: last writer wins
  // ---------------------------------------------------------------------

  predicate IsVerdictLine(line: string) {
    StartsWith(line, TestIgnoredPrefix) || StartsWith(line, TestFailedPrefix)
  }

  function VerdictOf(line: string): TestStatus {
    if StartsWith(line, TestIgnoredPrefix) then Skipped else Failed
  }

  predicate IsLifecycleLine(line: string) {
    StartsWith(line, TestStartedPrefix) || StartsWith(line, TestFinishedPrefix)
  }

  /** Line `k` is a verdict line and no later line is one. */
  predicate LastVerdictAt(lines: seq<string>, k: nat) {
    k < |lines| && IsVerdictLine(lines[k]) && forall i :: k < i < |lines| ==> !IsVerdictLine(lines[i])
  }

  /** The verdict of the last `testIgnored` or `testFailed` line, `initial` when there is none. */
  function LastVerdict(initial: TestStatus, lines: seq<string>): TestStatus
    decreases |lines|
  {
    if |lines| == 0 then initial
    else if IsVerdictLine(lines[|lines| - 1]) then VerdictOf(lines[|lines| - 1])
    else LastVerdict(initial, lines[..|lines| - 1])
  }

  /** Without verdict lines, the status stays `initial`. */
  lemma {:induction false} LastVerdictNone(initial: TestStatus, lines: seq<string>)
    requires forall i :: 0 <= i < |lines| ==> !IsVerdictLine(lines[i])
    ensures LastVerdict(initial, lines) == initial
    decreases |lines|
  {
    if |lines| > 0 {
      var init := lines[..|lines| - 1];
      assert !IsVerdictLine(lines[|lines| - 1]);
      forall i | 0 <= i < |init|
        ensures !IsVerdictLine(init[i])
      {
        assert init[i] == lines[i];
      }
      LastVerdictNone(initial, init);
    }
  }

  /** With verdict lines, the status is the verdict of the last one. */
  lemma {:induction false} LastVerdictIs(initial: TestStatus, lines: seq<string>, k: nat)
    requires LastVerdictAt(lines, k)
    ensures LastVerdict(initial, lines) == VerdictOf(lines[k])
    decreases |lines|
  {
    var n := |lines| - 1;
    if k < n {
      var init := lines[..n];
      assert !IsVerdictLine(lines[n]);
      assert init[k] == lines[k];
      forall i | k < i < |init|
        ensures !IsVerdictLine(init[i])
      {
        assert init[i] == lines[i];
      }
      LastVerdictIs(initial, init, k);
    }
  }

  /** Every line forwarded to `s`'s open test, in order, when that test is truthy. */
  function ForwardAll(s: State, lines: seq<string>): (r: seq<Event>)
    ensures IsTruthy(s.currentTest) ==> |r| == |lines| && forall i :: 0 <= i < |lines| ==> r[i] == Output(s.currentTest.value, lines[i])
    ensures !IsTruthy(s.currentTest) ==> r == []
  {
    if IsTruthy(s.currentTest) then seq(|lines|, i requires 0 <= i < |lines| => Output(s.currentTest.value, lines[i])) else []
  }

  /** A line that is neither `testStarted` nor `testFinished` forwards itself and at most sets the status. */
  lemma OtherLineStep(sc: Scope, s: State, line: string)
    requires !IsLifecycleLine(line)
    ensures FeedStep(sc, ParseTestId, s, line)
            == Step(State(s.currentTest, if IsVerdictLine(line) then VerdictOf(line) else s.currentStatus), Forward(s, line), false)
  {
    PrefixesExclusive(line);
  }

  lemma ForwardAllSnoc(s: State, lines: seq<string>)
    requires |lines| > 0
    ensures ForwardAll(s, lines) == ForwardAll(s, lines[..|lines| - 1]) + Forward(s, lines[|lines| - 1])
  {
  }

  /**
   * Between lifecycle lines the open test stays open, every line is
   * forwarded to it, and the status is the one set by the last verdict line.
   */
  lemma {:induction false} StatusIsLastVerdict(sc: Scope, s: State, lines: seq<string>)
    requires forall i :: 0 <= i < |lines| ==> !IsLifecycleLine(lines[i])
    ensures var r := FeedAll(sc, s, lines);
            && !r.raised
            && r.state == State(s.currentTest, LastVerdict(s.currentStatus, lines))
            && r.events == ForwardAll(s, lines)
    decreases |lines|
  {
    if |lines| > 0 {
      var init := lines[..|lines| - 1];
      var line := lines[|lines| - 1];
      StatusIsLastVerdict(sc, s, init);
      var r := FeedAll(sc, s, init);
      OtherLineStep(sc, r.state, line);
      ForwardAllSnoc(s, lines);
    }
  }

  /** Handling `a` then `b` is handling `a + b`. */
  lemma {:induction false} FoldAppend(step: (State, string) -> Step, s: State, a: seq<string>, b: seq<string>)
    ensures var ra := Fold(step, s, a);
            var rb := Fold(step, ra.state, b);
            Fold(step, s, a + b) == Step(rb.state, ra.events + rb.events, ra.raised || rb.raised)
    decreases |b|
  {
    if |b| == 0 {
      assert a + b == a;
    } else {
      var init, x := b[..|b| - 1], b[|b| - 1];
      assert (a + b)[..|a + b| - 1] == a + init;
      assert (a + b)[|a + b| - 1] == x;
      FoldAppend(step, s, a, init);
      var ra := Fold(step, s, a);
      var ri := Fold(step, ra.state, init);
      var t := step(ri.state, x);
      assert (ra.events + ri.events) + t.events == ra.events + (ri.events + t.events);
    }
  }

  /** Feeding `a` then `b` is feeding `a + b`. */
  lemma FeedAllAppend(sc: Scope, s: State, a: seq<string>, b: seq<string>)
    ensures var ra := FeedAll(sc, s, a);
            var rb := FeedAll(sc, ra.state, b);
            FeedAll(sc, s, a + b) == Step(rb.state, ra.events + rb.events, ra.raised || rb.raised)
  {
    FoldAppend(Feeder(sc), s, a, b);
  }

  /**
   * A test block: once `testStarted` resolves to `t`, the following
   * `testFinished` reports `t` with the verdict of the last `testIgnored`
   * or `testFailed` line in between, and PASSED when there was none.
   */
  lemma TestBlockReportsLastVerdict(sc: Scope, s: State, start: string, body: seq<string>, finish: string, t: Path)
    requires StartsWith(start, TestStartedPrefix) && ParseTestId(start).Some?
    requires FindTestByReportId(sc.index, sc.suiteId, sc.executable, ParseTestId(start).value) == Some(t)
    requires forall i :: 0 <= i < |body| ==> !IsLifecycleLine(body[i])
    requires StartsWith(finish, TestFinishedPrefix)
    ensures var r := FeedAll(sc, s, [start] + body + [finish]);
            && !r.raised && r.state.currentTest.None?
            && |r.events| > 0 && r.events[|r.events| - 1] == Finished(t, LastVerdict(Passed, body))
  {
    var r1 := FeedAll(sc, s, [start]);
    FeedAllOne(sc, s, start);
    StartedLine(sc, ParseTestId, s, start, ParseTestId(start).value);
    var open := State(Some(t), Passed);
    assert r1.state == open && !r1.raised;
    var r2 := FeedAll(sc, open, body);
    StatusIsLastVerdict(sc, open, body);
    FeedAllAppend(sc, s, [start], body);
    var closing := State(Some(t), LastVerdict(Passed, body));
    var r3 := FeedAll(sc, closing, [finish]);
    FeedAllOne(sc, closing, finish);
    FinishedLine(sc, ParseTestId, closing, finish);
    assert r3.events[|r3.events| - 1] == Finished(t, LastVerdict(Passed, body));
    FeedAllAppend(sc, s, [start] + body, [finish]);
  }

  /** Feeding a single line is taking its step. */
  lemma FeedAllOne(sc: Scope, s: State, line: string)
    ensures FeedAll(sc, s, [line]) == FeedStep(sc, ParseTestId, s, line)
  {
    assert [line][..0] == [];
    var t := Feeder(sc)(s, line);
    assert Fold(Feeder(sc), s, [line]) == Step(t.state, [] + t.events, false || t.raised);
    assert [] + t.events == t.events;
    assert t == Step(t.state, t.events, t.raised);
  }

  // ---------------------------------------------------------------------
  // The lifecycle: every start is finished once
  // ---------------------------------------------------------------------

  lemma FeedStepKeepsLifecycle(sc: Scope, idOf: string -> Option<string>, s: State, line: string)
    ensures var r := FeedStep(sc, idOf, s, line); Replay(s.currentTest, r.events) == Some(r.state.currentTest)
  {
    var r := FeedStep(sc, idOf, s, line);
    var out := Forward(s, line);
    assert Replay(s.currentTest, out) == Some(s.currentTest);
    var fin := FinishCurrent(s);
    assert Replay(s.currentTest, fin.events) == Some(None);
    ReplayAppend(s.currentTest, out, fin.events);
    if StartsWith(line, MessagePrefix) && StartsWith(line, TestStartedPrefix) && idOf(line).Some? {
      var t := FindTestByReportId(sc.index, sc.suiteId, sc.executable, idOf(line).value);
      var st := if t.Some? then [Started(t.value)] else [];
      assert Replay(None, st) == Some(t);
      ReplayAppend(s.currentTest, out + fin.events, st);
    } else if s.currentTest.Some? {
      ReplayAppend(s.currentTest, out, [Finished(s.currentTest.value, s.currentStatus)]);
    }
  }

  lemma {:induction false} FeedAllKeepsLifecycle(sc: Scope, s: State, lines: seq<string>)
    ensures var r := FeedAll(sc, s, lines); Replay(s.currentTest, r.events) == Some(r.state.currentTest)
    decreases |lines|
  {
    if |lines| > 0 {
      var r := FeedAll(sc, s, lines[..|lines| - 1]);
      FeedAllKeepsLifecycle(sc, s, lines[..|lines| - 1]);
      var t := FeedStep(sc, ParseTestId, r.state, lines[|lines| - 1]);
      FeedStepKeepsLifecycle(sc, ParseTestId, r.state, lines[|lines| - 1]);
      ReplayAppend(s.currentTest, r.events, t.events);
    }
  }

  /**
   * Feeding any lines to a new parser and then closing it gives every
   * reported start exactly one matching finish (see `Events.StartedIsFinishedOnce`).
   */
  lemma FeedThenCloseBalanced(sc: Scope, lines: seq<string>)
    ensures var r := FeedAll(sc, Initial, lines);
            Balanced(r.events + FinishCurrent(r.state).events)
  {
    var r := FeedAll(sc, Initial, lines);
    FeedAllKeepsLifecycle(sc, Initial, lines);
    var c := FinishCurrent(r.state);
    assert Replay(r.state.currentTest, c.events) == Some(None);
    ReplayAppend(None, r.events, c.events);
  }

  // ---------------------------------------------------------------------
  // The parser object
  // ---------------------------------------------------------------------

  class OutputParser {
    const scope: Scope
    var currentTest: Option<Path>
    var currentStatus: TestStatus
    /** The calls made on the test data so far, in order. */
    var events: seq<Event>

    function Snapshot(): State
      reads this
    {
      State(currentTest, currentStatus)
    }

    /** The event log follows the lifecycle and leaves exactly the current test open. */
    ghost predicate Valid()
      reads this
    {
      Replay(None, events) == Some(currentTest)
    }

    constructor (scope: Scope)
      ensures this.scope == scope && Snapshot() == Initial && events == []
      ensures Valid()
    {
      this.scope := scope;
      currentTest := None;
      currentStatus := Passed;
      events := [];
    }

    method FinishCurrentTest()
      modifies this
      ensures var r := FinishCurrent(old(Snapshot())); Snapshot() == r.state && events == old(events) + r.events
      ensures old(Valid()) ==> Valid()
    {
      if currentTest.Some? {
        events := events + [Finished(currentTest.value, Crashed)];
        currentTest := None;
      }
      ReplayAppend(None, old(events), FinishCurrent(old(Snapshot())).events);
    }

    method Close()
      modifies this
      ensures var r := FinishCurrent(old(Snapshot())); Snapshot() == r.state && events == old(events) + r.events
      ensures old(Valid()) ==> Valid()
    {
      FinishCurrentTest();
    }

    /** `feed` with the id extraction given: returns whether the call raised. */
    method FeedWith(line: string, idOf: string -> Option<string>) returns (raised: bool)
      modifies this
      ensures var r := FeedStep(scope, idOf, old(Snapshot()), line);
              Snapshot() == r.state && events == old(events) + r.events && raised == r.raised
      ensures old(Valid()) ==> Valid()
    {
      ghost var r := FeedStep(scope, idOf, Snapshot(), line);
      FeedStepKeepsLifecycle(scope, idOf, Snapshot(), line);
      ReplayAppend(None, events, r.events);
      PrefixesExclusive(line);
      raised := false;
      if IsTruthy(currentTest) {
        events := events + [Output(currentTest.value, line)];
      }
      if !StartsWith(line, MessagePrefix) {
        return;
      }
      if StartsWith(line, TestStartedPrefix) {
        FinishCurrentTest();
        var id := idOf(line);
        if id.None? {
          raised := true;
          return;
        }
        currentTest := FindTestByReportId(scope.index, scope.suiteId, scope.executable, id.value);
        currentStatus := Passed;
        if currentTest.None? {
          return;
        }
        events := events + [Started(currentTest.value)];
      }
      if StartsWith(line, TestFinishedPrefix) {
        if currentTest.None? {
          return;
        }
        events := events + [Finished(currentTest.value, currentStatus)];
        currentTest := None;
      }
      if StartsWith(line, TestIgnoredPrefix) {
        currentStatus := Skipped;
      }
      if StartsWith(line, TestFailedPrefix) {
        currentStatus := Failed;
      }
    }

    /** `feed`: one line of the test executable's output. */
    method Feed(line: string) returns (raised: bool)
      modifies this
      ensures var r := FeedStep(scope, ParseTestId, old(Snapshot()), line);
              Snapshot() == r.state && events == old(events) + r.events && raised == r.raised
      ensures old(Valid()) ==> Valid()
    {
      raised := FeedWith(line, ParseTestId);
    }
  }
}

=== FILE: test_data.dfy ===
/**
 * The test list kept by the test data: a tree of items, its leaf
 * statistics, the date conversion applied when the list is loaded, the
 * lookup of an item by its path, and the object caching list and stats.
 */
module TestData {
  import opened Wrappers

  /** A date field: the ISO text the JSON file holds, or the time it was converted to. */
  datatype Stamp = Iso(text: string) | Time(t: int)

  /**
   * One dictionary of the test list. `None` stands for a key that is absent
   * or holds `None`. `hasChildren` says whether the `children` key is
   * present, and `children` is its list (empty when it is not): an item
   * with the key is an internal node, one without is a leaf (a test).
   */
  datatype Item = Item(
    name: Option<string>,
    lastStatus: Option<string>,
    runStatus: Option<string>,
    lastRun: Option<Stamp>,
    lastDiscovery: Option<Stamp>,
    hasChildren: bool,
    children: seq<Item>)

  // ---------------------------------------------------------------------
  // Leaves and their statistics (`get_test_stats`)
  // ---------------------------------------------------------------------

  /** The leaves under an item, left to right; a leaf is its own only leaf. */
  function Leaves(item: Item): (r: seq<Item>)
    decreases item, 1, 0
  {
    if item.hasChildren then LeavesIn(item, |item.children|) else [item]
  }

  /** The leaves under the first `n` children of an item, in order. */
  function LeavesIn(parent: Item, n: nat): (r: seq<Item>)
    requires n <= |parent.children|
    decreases parent, 0, n
  {
    if n == 0 then []
    else LeavesIn(parent, n - 1) + Leaves(parent.children[n - 1])
  }

  /** Every item `Leaves` gives is a leaf. */
  lemma {:induction false} LeavesAreLeaves(item: Item)
    ensures forall k :: 0 <= k < |Leaves(item)| ==> !Leaves(item)[k].hasChildren
    decreases item, 1, 0
  {
    if item.hasChildren {
      LeavesInAreLeaves(item, |item.children|);
    }
  }

  lemma {:induction false} LeavesInAreLeaves(parent: Item, n: nat)
    requires n <= |parent.children|
    ensures forall k :: 0 <= k < |LeavesIn(parent, n)| ==> !LeavesIn(parent, n)[k].hasChildren
    decreases parent, 0, n
  {
    if n > 0 {
      LeavesInAreLeaves(parent, n - 1);
      LeavesAreLeaves(parent.children[n - 1]);
    }
  }

  /** The buckets of `get_test_stats`'s dictionary; there are none for `crashed` or `stopped`. */
  const BUCKETS: set<string> := {"failed", "skipped", "passed", "not_run", "not_running", "running", "queued"}

  /** The statistics dictionary: one count per bucket, the leaf total, and the latest run. */
  datatype Stats = Stats(counts: map<string, int>, total: int, lastRun: Option<int>)

  const InitialStats := Stats(map b | b in BUCKETS :: 0, 0, None)

  predicate HasBuckets(s: Stats) {
    forall b :: b in BUCKETS ==> b in s.counts
  }

  /**
   * What `add_one_to_stats` needs of a leaf to not raise: both statuses
   * name a bucket, and `last_run` is either absent or a converted date.
   */
  predicate LeafReady(leaf: Item) {
    && leaf.lastStatus.Some? && leaf.lastStatus.value in BUCKETS
    && leaf.runStatus.Some? && leaf.runStatus.value in BUCKETS
    && (leaf.lastRun.Some? ==> leaf.lastRun.value.Time?)
  }

  predicate AllReady(leaves: seq<Item>) {
    forall k :: 0 <= k < |leaves| ==> LeafReady(leaves[k])
  }

  /** `get_test_stats` raises for no leaf of the item. */
  predicate StatsReady(item: Item) {
    AllReady(Leaves(item))
  }

  /** `add_one_to_stats`: one for each of the leaf's two statuses, one for the total, and the later run. */
  function AddOne(s: Stats, leaf: Item): (r: Stats)
    requires HasBuckets(s) && LeafReady(leaf)
    ensures HasBuckets(r)
  {
    var last := leaf.lastStatus.value;
    var run := leaf.runStatus.value;
    var counts := s.counts[last := s.counts[last] + 1];
    var counts' := counts[run := counts[run] + 1];
    var lastRun :=
      if leaf.lastRun.None? then s.lastRun
      else if s.lastRun.Some? then Some(Max(s.lastRun.value, leaf.lastRun.value.t))
      else Some(leaf.lastRun.value.t);
    Stats(counts', s.total + 1, lastRun)
  }

  function Max(a: int, b: int): int {
    if a >= b then a else b
  }

  /** The statistics after adding each leaf in turn. */
  function AddAll(s: Stats, leaves: seq<Item>): (r: Stats)
    requires HasBuckets(s) && AllReady(leaves)
    ensures HasBuckets(r)
    decreases |leaves|
  {
    if |leaves| == 0 then s
    else AddOne(AddAll(s, leaves[..|leaves| - 1]), leaves[|leaves| - 1])
  }

  /** The statistics `get_test_stats` returns for an item. */
  function TestStats(item: Item): (r: Stats)
    requires StatsReady(item)
  {
    AddAll(InitialStats, Leaves(item))
  }

  /** How many times a bucket's name occurs among the leaves' last and run statuses. */
  function Tally(leaves: seq<Item>, b: string): nat
    decreases |leaves|
  {
    if |leaves| == 0 then 0
    else
      var leaf := leaves[|leaves| - 1];
      Tally(leaves[..|leaves| - 1], b)
      + (if leaf.lastStatus == Some(b) then 1 else 0)
      + (if leaf.runStatus == Some(b) then 1 else 0)
  }

  /** The latest converted `last_run` among the leaves, `None` if none has one. */
  function LatestRun(leaves: seq<Item>): (r: Option<int>)
    decreases |leaves|
  {
    if |leaves| == 0 then None
    else
      var init := LatestRun(leaves[..|leaves| - 1]);
      var leaf := leaves[|leaves| - 1];
      if leaf.lastRun.None? || !leaf.lastRun.value.Time? then init
      else if init.Some? then Some(Max(init.value, leaf.lastRun.value.t))
      else Some(leaf.lastRun.value.t)
  }

  /** `LatestRun` is the largest converted run time, and it is one of them. */
  lemma {:induction false} LatestRunIsMaximum(leaves: seq<Item>)
    ensures LatestRun(leaves).None? <==>
            forall k :: 0 <= k < |leaves| ==> leaves[k].lastRun.None? || !leaves[k].lastRun.value.Time?
    ensures LatestRun(leaves).Some? ==>
            && (forall k :: 0 <= k < |leaves| && leaves[k].lastRun.Some? && leaves[k].lastRun.value.Time?
                  ==> leaves[k].lastRun.value.t <= LatestRun(leaves).value)
            && (exists k :: 0 <= k < |leaves| && leaves[k].lastRun == Some(Time(LatestRun(leaves).value)))
    decreases |leaves|
  {
    if |leaves| > 0 {
      var init := leaves[..|leaves| - 1];
      LatestRunIsMaximum(init);
      assert forall k :: 0 <= k < |init| ==> init[k] == leaves[k];
      if LatestRun(init).Some? && leaves[|leaves| - 1].lastRun.Some? && leaves[|leaves| - 1].lastRun.value.Time?
         && LatestRun(init).value >= leaves[|leaves| - 1].lastRun.value.t {
        var k :| 0 <= k < |init| && init[k].lastRun == Some(Time(LatestRun(init).value));
        assert leaves[k] == init[k];
      }
    }
  }

  /** Adding leaves one by one counts them, tallies their statuses and keeps the latest run. */
  lemma {:induction false} AddAllMeaning(s: Stats, leaves: seq<Item>)
    requires HasBuckets(s) && AllReady(leaves)
    ensures AddAll(s, leaves).total == s.total + |leaves|
    ensures forall b :: b in BUCKETS ==> AddAll(s, leaves).counts[b] == s.counts[b] + Tally(leaves, b)
    ensures AddAll(s, leaves).lastRun ==
              (if LatestRun(leaves).None? then s.lastRun
               else if s.lastRun.None? then LatestRun(leaves)
               else Some(Max(s.lastRun.value, LatestRun(leaves).value)))
    decreases |leaves|
  {
    if |leaves| > 0 {
      var init := leaves[..|leaves| - 1];
      assert AllReady(init) by {
        assert forall k :: 0 <= k < |init| ==> init[k] == leaves[k];
      }
      AddAllMeaning(s, init);
      var before := AddAll(s, init);
      var leaf := leaves[|leaves| - 1];
      assert LeafReady(leaf);
      forall b | b in BUCKETS
        ensures AddAll(s, leaves).counts[b] == s.counts[b] + Tally(leaves, b)
      {
        assert AddAll(s, leaves).counts[b]
               == before.counts[b] + (if leaf.lastStatus == Some(b) then 1 else 0)
                  + (if leaf.runStatus == Some(b) then 1 else 0);
      }
    }
  }

  /**
   * `get_test_stats`: `total` is the number of leaves, each bucket counts
   * the leaves' last and run statuses equal to it, and `last_run` is the
   * latest of the leaves' runs.
   */
  lemma TestStatsMeaning(item: Item)
    requires StatsReady(item)
    ensures TestStats(item).total == |Leaves(item)|
    ensures forall b :: b in BUCKETS ==> TestStats(item).counts[b] == Tally(Leaves(item), b)
    ensures TestStats(item).lastRun == LatestRun(Leaves(item))
    ensures TestStats(item).counts.Keys == BUCKETS
  {
    AddAllMeaning(InitialStats, Leaves(item));
    AddAllKeys(InitialStats, Leaves(item));
  }

  /** Adding leaves adds no key to the dictionary. */
  lemma {:induction false} AddAllKeys(s: Stats, leaves: seq<Item>)
    requires HasBuckets(s) && AllReady(leaves)
    ensures AddAll(s, leaves).counts.Keys == s.counts.Keys
    decreases |leaves|
  {
    if |leaves| > 0 {
      var init := leaves[..|leaves| - 1];
      assert forall k :: 0 <= k < |init| ==> init[k] == leaves[k];
      AddAllKeys(s, init);
    }
  }

  /** Splitting the leaves in two splits the additions. */
  lemma {:induction false} AddAllAppend(s: Stats, a: seq<Item>, b: seq<Item>)
    requires HasBuckets(s) && AllReady(a) && AllReady(b)
    ensures AllReady(a + b)
    ensures AddAll(s, a + b) == AddAll(AddAll(s, a), b)
    decreases |b|
  {
    assert forall k :: 0 <= k < |a + b| ==> (a + b)[k] == if k < |a| then a[k] else b[k - |a|];
    if |b| == 0 {
      assert a + b == a;
    } else {
      var init := b[..|b| - 1];
      assert AllReady(init) by {
        assert forall k :: 0 <= k < |init| ==> init[k] == b[k];
      }
      assert (a + b)[..|a + b| - 1] == a + init;
      AddAllAppend(s, a, init);
    }
  }

  /** An item whose `children` list is empty contributes nothing, not even to the total. */
  lemma EmptyChildrenContributeNothing(item: Item)
    requires item.hasChildren && item.children == []
    ensures StatsReady(item) && TestStats(item) == InitialStats
  {
    assert Leaves(item) == LeavesIn(item, 0) == [];
  }

  /** `add_to_stats`: the leaves under `item` added to `stats`, child by child. */
  method AddToStats(stats: Stats, item: Item) returns (r: Stats)
    requires HasBuckets(stats) && StatsReady(item)
    ensures r == AddAll(stats, Leaves(item))
    decreases item
  {
    if item.hasChildren {
      var children := item.children;
      r := stats;
      for i := 0 to |children|
        invariant AllReady(LeavesIn(item, i))
        invariant r == AddAll(stats, LeavesIn(item, i))
      {
        StatsStep(stats, item, i);
        r := AddToStats(r, children[i]);
      }
    } else {
      LeafStats(stats, item);
      r := AddOne(stats, item);
    }
  }

  /** A leaf adds only itself. */
  lemma LeafStats(stats: Stats, item: Item)
    requires HasBuckets(stats) && !item.hasChildren && StatsReady(item)
    ensures LeafReady(item) && AddAll(stats, Leaves(item)) == AddOne(stats, item)
  {
    assert Leaves(item) == [item];
    assert LeafReady(Leaves(item)[0]);
    assert [item][..0] == [];
  }

  /** One more child: its leaves added after those of the children before it. */
  lemma StatsStep(stats: Stats, item: Item, i: nat)
    requires HasBuckets(stats) && item.hasChildren && i < |item.children| && StatsReady(item)
    ensures AllReady(LeavesIn(item, i)) && StatsReady(item.children[i]) && AllReady(LeavesIn(item, i + 1))
    ensures AddAll(AddAll(stats, LeavesIn(item, i)), Leaves(item.children[i])) == AddAll(stats, LeavesIn(item, i + 1))
  {
    ReadyChild(item, i);
    AddAllAppend(stats, LeavesIn(item, i), Leaves(item.children[i]));
  }

  /** The leaves of each child are among the leaves of the whole item, so they are ready too. */
  lemma ReadyChild(item: Item, i: nat)
    requires item.hasChildren && i < |item.children| && StatsReady(item)
    ensures AllReady(LeavesIn(item, i)) && AllReady(Leaves(item.children[i]))
  {
    LeavesInPrefix(item, i + 1, |item.children|);
    var all := Leaves(item);
    var upTo := LeavesIn(item, i + 1);
    assert AllReady(upTo) by {
      forall k | 0 <= k < |upTo|
        ensures LeafReady(upTo[k])
      {
        assert upTo[k] == all[..|upTo|][k];
      }
    }
    AllReadySplit(LeavesIn(item, i), Leaves(item.children[i]));
  }

  lemma AllReadySplit(a: seq<Item>, b: seq<Item>)
    requires AllReady(a + b)
    ensures AllReady(a) && AllReady(b)
  {
    assert forall k :: 0 <= k < |a| ==> a[k] == (a + b)[k];
    assert forall k :: 0 <= k < |b| ==> b[k] == (a + b)[|a| + k];
  }

  /** The leaves of the first `n` children are a prefix of those of the first `m`. */
  lemma {:induction false} LeavesInPrefix(parent: Item, n: nat, m: nat)
    requires n <= m <= |parent.children|
    ensures |LeavesIn(parent, n)| <= |LeavesIn(parent, m)|
    ensures LeavesIn(parent, m)[..|LeavesIn(parent, n)|] == LeavesIn(parent, n)
    decreases m - n
  {
    if n < m {
      LeavesInPrefix(parent, n + 1, m);
      var a := LeavesIn(parent, n);
      assert LeavesIn(parent, n + 1)[..|a|] == a;
    }
  }

  /** `get_test_stats`: a fresh dictionary with every bucket at zero, then every leaf added. */
  method GetTestStats(item: Item) returns (r: Stats)
    requires StatsReady(item)
    ensures r == TestStats(item)
  {
    r := AddToStats(InitialStats, item);
  }

  // ---------------------------------------------------------------------
  // Date conversion (`convert_dates`)
  // ---------------------------------------------------------------------

  /** As the JSON file gives them: no date field holds a converted time. */
  predicate Loaded(item: Item)
    decreases item
  {
    && (item.lastRun.Some? ==> item.lastRun.value.Iso?)
    && (item.lastDiscovery.Some? ==> item.lastDiscovery.value.Iso?)
    && forall k :: 0 <= k < |item.children| ==> Loaded(item.children[k])
  }

  /** After conversion: no date field holds non-empty ISO text. */
  predicate DatesConverted(item: Item)
    decreases item
  {
    && (item.lastRun.Some? && item.lastRun.value.Iso? ==> item.lastRun.value.text == "")
    && (item.lastDiscovery.Some? && item.lastDiscovery.value.Iso? ==> item.lastDiscovery.value.text == "")
    && forall k :: 0 <= k < |item.children| ==> DatesConverted(item.children[k])
  }

  /** One field: converted when it holds non-empty text, untouched when absent, `None` or empty. */
  function ConvertField(fromIso: string -> int, field: Option<Stamp>): (r: Option<Stamp>)
    ensures field.None? ==> r.None?
    ensures field.Some? && field.value.Iso? && field.value.text != "" ==> r == Some(Time(fromIso(field.value.text)))
    ensures !(field.Some? && field.value.Iso? && field.value.text != "") ==> r == field
  {
    match field
    case Some(Iso(text)) => if text != "" then Some(Time(fromIso(text))) else field
    case _ => field
  }

  /** The item after `convert_dates`, at every depth. */
  function Converted(fromIso: string -> int, item: Item): (r: Item)
    decreases item
  {
    var children := seq(|item.children|, k requires 0 <= k < |item.children| => Converted(fromIso, item.children[k]));
    item.(lastRun := ConvertField(fromIso, item.lastRun),
          lastDiscovery := ConvertField(fromIso, item.lastDiscovery),
          children := children)
  }

  /** The item with its date fields erased: what conversion must leave unchanged. */
  function Undated(item: Item): Item
    decreases item
  {
    var children := seq(|item.children|, k requires 0 <= k < |item.children| => Undated(item.children[k]));
    item.(lastRun := None, lastDiscovery := None, children := children)
  }

  /** Conversion leaves no ISO text behind, at any depth, and changes nothing but the date fields. */
  lemma {:induction false} ConvertedMeaning(fromIso: string -> int, item: Item)
    ensures DatesConverted(Converted(fromIso, item))
    ensures Undated(Converted(fromIso, item)) == Undated(item)
    decreases item
  {
    var cs := item.children;
    forall k | 0 <= k < |cs|
      ensures DatesConverted(Converted(fromIso, cs[k]))
      ensures Undated(Converted(fromIso, cs[k])) == Undated(cs[k])
    {
      ConvertedMeaning(fromIso, cs[k]);
    }
  }

  /** Conversion keeps every leaf of the tree a leaf, in order, and converts each one's dates. */
  lemma {:induction false} ConvertedLeaves(fromIso: string -> int, item: Item)
    ensures |Leaves(Converted(fromIso, item))| == |Leaves(item)|
    ensures forall k :: 0 <= k < |Leaves(item)| ==> Leaves(Converted(fromIso, item))[k] == Converted(fromIso, Leaves(item)[k])
    decreases item, 1, 0
  {
    if item.hasChildren {
      ConvertedLeavesIn(fromIso, item, |item.children|);
    }
  }

  lemma {:induction false} ConvertedLeavesIn(fromIso: string -> int, parent: Item, n: nat)
    requires n <= |parent.children|
    ensures |LeavesIn(Converted(fromIso, parent), n)| == |LeavesIn(parent, n)|
    ensures forall k :: 0 <= k < |LeavesIn(parent, n)| ==>
              LeavesIn(Converted(fromIso, parent), n)[k] == Converted(fromIso, LeavesIn(parent, n)[k])
    decreases parent, 0, n
  {
    if n > 0 {
      ConvertedLeavesIn(fromIso, parent, n - 1);
      ConvertedLeaves(fromIso, parent.children[n - 1]);
      assert Converted(fromIso, parent).children[n - 1] == Converted(fromIso, parent.children[n - 1]);
    }
  }

  /** `convert_dates`: this item's two date fields, then each child in turn. */
  method ConvertDates(fromIso: string -> int, data: Item) returns (r: Item)
    requires Loaded(data)
    ensures r == Converted(fromIso, data)
    decreases data
  {
    r := data.(lastRun := ConvertField(fromIso, data.lastRun),
               lastDiscovery := ConvertField(fromIso, data.lastDiscovery));
    var children := data.children;
    var converted: seq<Item> := [];
    for i := 0 to |children|
      invariant |converted| == i
      invariant forall k :: 0 <= k < i ==> converted[k] == Converted(fromIso, children[k])
    {
      var c := ConvertDates(fromIso, children[i]);
      converted := converted + [c];
    }
    r := r.(children := converted);
  }

  // ---------------------------------------------------------------------
  // Lookup by path (`find_test`)
  // ---------------------------------------------------------------------

  /** The first item of the list with the given name. */
  function FirstNamed(items: seq<Item>, name: string): (r: Option<Item>)
    ensures r.None? <==> forall k :: 0 <= k < |items| ==> items[k].name != Some(name)
    ensures r.Some? ==> exists k :: 0 <= k < |items| && items[k] == r.value && items[k].name == Some(name)
                                    && forall j :: 0 <= j < k ==> items[j].name != Some(name)
  {
    if |items| == 0 then None
    else if items[0].name == Some(name) then Some(items[0])
    else
      var r := FirstNamed(items[1..], name);
      assert forall k :: 0 <= k < |items| - 1 ==> items[1..][k] == items[k + 1];
      r
  }

  /**
   * The item reached by following the path from a list of items: at each
   * level the first item with the segment's name, then its children.
   * `None` for the empty path, a missing segment, or a path that goes on
   * past a leaf.
   */
  function Find(items: seq<Item>, path: seq<string>): Option<Item>
    decreases |path|
  {
    if |path| == 0 then None
    else match FirstNamed(items, path[0])
      case None => None
      case Some(item) =>
        if |path| == 1 then Some(item)
        else if !item.hasChildren then None
        else Find(item.children, path[1..])
  }

  /** Following a path one segment further looks that segment up among the children of what was found. */
  lemma {:induction false} FindSnoc(items: seq<Item>, path: seq<string>, segment: string)
    requires |path| > 0
    ensures Find(items, path + [segment]) ==
              match Find(items, path)
              case None => None
              case Some(item) => if !item.hasChildren then None else FirstNamed(item.children, segment)
    decreases |path|
  {
    assert (path + [segment])[0] == path[0];
    match FirstNamed(items, path[0])
    case None =>
    case Some(item) =>
      if |path| > 1 && item.hasChildren {
        assert (path + [segment])[1..] == path[1..] + [segment];
        FindSnoc(item.children, path[1..], segment);
      }
  }

  /** A path that is not found cannot be extended into one that is. */
  lemma {:induction false} FindNoneExtends(items: seq<Item>, path: seq<string>, more: seq<string>)
    requires |path| > 0 && Find(items, path).None?
    ensures Find(items, path + more).None?
    decreases |path|
  {
    assert (path + more)[0] == path[0];
    match FirstNamed(items, path[0])
    case None =>
    case Some(item) =>
      if |path| > 1 && item.hasChildren {
        assert (path + more)[1..] == path[1..] + more;
        FindNoneExtends(item.children, path[1..], more);
      }
  }

  /** A found item carries the last segment's name, and every prefix of the path is found too. */
  lemma {:induction false} FindMeaning(items: seq<Item>, path: seq<string>)
    requires Find(items, path).Some?
    ensures |path| > 0 && Find(items, path).value.name == Some(path[|path| - 1])
    ensures forall n :: 0 < n <= |path| ==> Find(items, path[..n]).Some?
    decreases |path|
  {
    var item := FirstNamed(items, path[0]).value;
    if |path| > 1 {
      FindMeaning(item.children, path[1..]);
      forall n | 0 < n <= |path|
        ensures Find(items, path[..n]).Some?
      {
        if n > 1 {
          assert path[..n][1..] == path[1..][..n - 1];
        }
      }
    }
  }

  /** Looking up a path in two steps is looking it up at once. */
  lemma {:induction false} FindCompose(items: seq<Item>, path: seq<string>, more: seq<string>)
    requires |path| > 0 && |more| > 0
    ensures Find(items, path + more) ==
              match Find(items, path)
              case None => None
              case Some(item) => if !item.hasChildren then None else Find(item.children, more)
    decreases |path|
  {
    assert (path + more)[0] == path[0];
    match FirstNamed(items, path[0])
    case None =>
    case Some(item) =>
      if |path| > 1 && item.hasChildren {
        assert (path + more)[1..] == path[1..] + more;
        FindCompose(item.children, path[1..], more);
      } else if |path| == 1 {
        assert (path + more)[1..] == more;
      }
  }

  /**
   * `find_test`'s loop, starting from the top-level list: for each segment
   * the first item with its name, then that item's children for the next
   * segment; `lst` becomes `None` under a leaf.
   */
  method FindTest(top: Option<seq<Item>>, path: seq<string>) returns (r: Option<Item>)
    ensures top.None? ==> r.None?
    ensures top.Some? ==> r == Find(top.value, path)
  {
    var found: Option<Item> := None;
    var lst := top;
    for i := 0 to |path|
      invariant i == 0 ==> found.None? && lst == top
      invariant i > 0 ==> top.Some? && found.Some? && Find(top.value, path[..i]) == found
                          && lst == (if found.value.hasChildren then Some(found.value.children) else None)
    {
      found := None;
      if lst.None? {
        if i > 0 {
          assert path[..i + 1] == path[..i] + [path[i]];
          FindSnoc(top.value, path[..i], path[i]);
          assert path == path[..i + 1] + path[i + 1..];
          FindNoneExtends(top.value, path[..i + 1], path[i + 1..]);
        }
        break;
      }
      var items := lst.value;
      for j := 0 to |items|
        invariant forall k :: 0 <= k < j ==> items[k].name != Some(path[i])
        invariant found.None?
      {
        if items[j].name == Some(path[i]) {
          found := Some(items[j]);
          FirstNamedAt(items, path[i], j);
          break;
        }
      }
      if i == 0 {
        assert Find(top.value, path[..1]) == FirstNamed(top.value, path[0]);
      } else {
        assert path[..i + 1] == path[..i] + [path[i]];
        FindSnoc(top.value, path[..i], path[i]);
      }
      if found.None? {
        assert path == path[..i + 1] + path[i + 1..];
        FindNoneExtends(top.value, path[..i + 1], path[i + 1..]);
        return None;
      }
      lst := if found.value.hasChildren then Some(found.value.children) else None;
    }
    if |path| > 0 {
      assert path[..|path|] == path;
    }
    r := found;
  }

  /** The first item with the name sits at `j` when none before it has the name. */
  lemma FirstNamedAt(items: seq<Item>, name: string, j: nat)
    requires j < |items| && items[j].name == Some(name)
    requires forall k :: 0 <= k < j ==> items[k].name != Some(name)
    ensures FirstNamed(items, name) == Some(items[j])
  {
    var k :| 0 <= k < |items| && items[k] == FirstNamed(items, name).value && items[k].name == Some(name)
             && forall i :: 0 <= i < k ==> items[i].name != Some(name);
    assert k == j;
  }

  // ---------------------------------------------------------------------
  // The cached list and stats (`TestData`)
  // ---------------------------------------------------------------------

  /** Python's truth value of an item's dictionary: it has at least one key. */
  predicate NonEmpty(item: Item) {
    item != Item(None, None, None, None, None, false, [])
  }

  /**
   * The test data object: the list as last loaded and converted, and the
   * statistics computed from it. The file's content and the ISO date
   * parser are parameters of the methods that read them.
   */
  class TestData {
    var tests: Option<Item>
    var stats: Option<Stats>

    /** The cached statistics, when there are any, are those of the cached list. */
    predicate Valid()
      reads this
    {
      stats.Some? ==> tests.Some? && StatsReady(tests.value) && stats.value == TestStats(tests.value)
    }

    constructor()
      ensures tests.None? && stats.None? && Valid()
    {
      tests := None;
      stats := None;
    }

    /**
     * `get_test_list`: the cached list when there is a non-empty one and
     * the cache is allowed; otherwise the file's list, converted, which
     * becomes the cached list and drops the cached statistics.
     */
    method GetTestList(cached: bool, file: Item, fromIso: string -> int) returns (r: Item)
      requires Loaded(file)
      modifies this
      ensures old(tests).Some? && NonEmpty(old(tests).value) && cached ==>
                r == old(tests).value && tests == old(tests) && stats == old(stats)
      ensures !(old(tests).Some? && NonEmpty(old(tests).value) && cached) ==>
                r == Converted(fromIso, file) && tests == Some(r) && stats.None?
      ensures old(Valid()) ==> Valid()
    {
      if tests.Some? && NonEmpty(tests.value) && cached {
        return tests.value;
      }
      r := ConvertDates(fromIso, file);
      tests := Some(r);
      stats := None;
    }

    /**
     * `get_global_test_stats`: the cached statistics when there are some
     * and the cache is allowed; otherwise those of `get_test_list`'s list,
     * which become the cached statistics.
     */
    method GetGlobalTestStats(cached: bool, file: Item, fromIso: string -> int) returns (r: Stats)
      requires Valid() && Loaded(file)
      requires tests.Some? ==> StatsReady(tests.value)
      requires StatsReady(Converted(fromIso, file))
      modifies this
      ensures Valid()
      ensures old(stats).Some? && cached ==> r == old(stats).value && tests == old(tests) && stats == old(stats)
      ensures stats == Some(r) && tests.Some? && r == TestStats(tests.value)
      ensures !(old(stats).Some? && cached) ==>
                if cached && old(tests).Some? && NonEmpty(old(tests).value) then tests == old(tests)
                else tests == Some(Converted(fromIso, file))
    {
      if stats.Some? && cached {
        return stats.value;
      }
      var list := GetTestList(cached, file, fromIso);
      r := GetTestStats(list);
      stats := Some(r);
    }

    /** `find_test`: the list as `get_test_list` gives it, then the lookup from its top-level children. */
    method FindTestItem(path: seq<string>, cached: bool, file: Item, fromIso: string -> int) returns (r: Option<Item>)
      requires Loaded(file)
      modifies this
      ensures tests.Some? && r == (if tests.value.hasChildren then Find(tests.value.children, path) else None)
      ensures old(Valid()) ==> Valid()
    {
      var list := GetTestList(cached, file, fromIso);
      r := FindTest(if list.hasChildren then Some(list.children) else None, path);
    }
  }
}

=== FILE: test_framework.dfy ===
/** The registry of test framework factories, keyed by framework type. */
module TestFramework {
  import opened Wrappers
  import Json

  /** Why `TestFramework.from_json` raised. */
  datatype FromJsonError =
      /** `json_data['type']` raised a KeyError. */
    | MissingType
      /** The type is not registered (an unhashable or non-string type is never registered). */
    | UnknownType(frameworkType: Json.Value)

  /** A factory: builds a framework of type `F` from its JSON settings. */
  type Factory<F> = map<string, Json.Value> -> F

  /** `from_json` against a given registry. */
  function Lookup<F>(registry: map<string, Factory<F>>, jsonData: map<string, Json.Value>): (r: Result<F, FromJsonError>)
    ensures r.Ok? <==> "type" in jsonData && jsonData["type"].Str? && jsonData["type"].s in registry
    ensures r.Ok? ==> r.value == registry[jsonData["type"].s](jsonData)
    ensures "type" !in jsonData ==> r == Err(MissingType)
    ensures "type" in jsonData && r.Err? ==> r == Err(UnknownType(jsonData["type"]))
  {
    if "type" !in jsonData then Err(MissingType)
    else
      var frameworkType := jsonData["type"];
      if frameworkType.Str? && frameworkType.s in registry then Ok(registry[frameworkType.s](jsonData))
      else Err(UnknownType(frameworkType))
  }

  /**
   * After registering `name`, a JSON whose type is `name` builds with the
   * new factory, and every other lookup is as before.
   */
  lemma LookupAfterRegister<F>(registry: map<string, Factory<F>>, name: string, factory: Factory<F>,
                               jsonData: map<string, Json.Value>)
    ensures "type" in jsonData && jsonData["type"] == Json.Str(name) ==>
              Lookup(registry[name := factory], jsonData) == Ok(factory(jsonData))
    ensures !("type" in jsonData && jsonData["type"] == Json.Str(name)) ==>
              Lookup(registry[name := factory], jsonData) == Lookup(registry, jsonData)
  {
  }

  /** The module-level `registry` and the two functions that use it. */
  class Registry<F> {
    var registry: map<string, Factory<F>>

    /** The registry starts empty. */
    constructor()
      ensures registry == map[]
    {
      registry := map[];
    }

    /** `register_framework`: stores the factory under the name, replacing any earlier one. */
    method RegisterFramework(name: string, factory: Factory<F>)
      modifies this
      ensures registry == old(registry)[name := factory]
    {
      registry := registry[name := factory];
    }

    /** `TestFramework.from_json`: the registered factory for the JSON's type, applied to that JSON. */
    method FromJson(jsonData: map<string, Json.Value>) returns (r: Result<F, FromJsonError>)
      ensures r == Lookup(registry, jsonData)
    {
      if "type" !in jsonData {
        return Err(MissingType);
      }
      var frameworkType := jsonData["type"];
      if !(frameworkType.Str? && frameworkType.s in registry) {
        return Err(UnknownType(frameworkType));
      }
      r := Ok(registry[frameworkType.s](jsonData));
    }
  }
}

=== FILE: test_suite.dfy ===
/** A configured test suite: its settings and the framework that does the work. */
module TestSuite {
  import opened Wrappers
  import Json

  /**
   * A suite built by `TestSuite.from_json`. The test data and the project
   * root are held as given; `F` is the framework the factory builds.
   */
  datatype Suite<D, F> = Suite(
    testData: D,
    projectRootDir: string,
    suiteId: Json.Value,
    customPrefix: Json.Value,
    pathPrefixStyle: Json.Value,
    framework: F)

  /** Message of the FrameworkError for a suite without an id. */
  const MISSING_ID: string := "Missing \"id\" in suite definition."
  /** Message of the FrameworkError for a suite without a framework. */
  const MISSING_FRAMEWORK: string := "Missing \"framework\" in suite definition."

  /** `settings.get(key, default)`. */
  function Get(settings: map<string, Json.Value>, key: string, default: Json.Value): (r: Json.Value)
    ensures key in settings ==> r == settings[key]
    ensures key !in settings ==> r == default
  {
    if key in settings then settings[key] else default
  }

  /**
   * `TestSuite.from_json`, with `createFramework` standing for
   * `create_framework` applied to the framework name and the settings.
   */
  function FromJson<D, F>(testData: D, projectRootDir: string, settings: map<string, Json.Value>,
                          createFramework: (Json.Value, map<string, Json.Value>) -> F)
    : (r: Result<Suite<D, F>, string>)
    ensures "id" !in settings ==> r == Err(MISSING_ID)
    ensures "id" in settings && "framework" !in settings ==> r == Err(MISSING_FRAMEWORK)
    ensures r.Ok? <==> "id" in settings && "framework" in settings
    ensures r.Ok? ==>
              && r.value.suiteId == settings["id"]
              && r.value.testData == testData
              && r.value.projectRootDir == projectRootDir
              && r.value.customPrefix == (if "custom_prefix" in settings then settings["custom_prefix"] else Json.Null)
              && r.value.pathPrefixStyle == (if "path_prefix_style" in settings then settings["path_prefix_style"] else Json.Str("full"))
              && r.value.framework == createFramework(settings["framework"], settings)
  {
    if "id" !in settings then Err(MISSING_ID)
    else if "framework" !in settings then Err(MISSING_FRAMEWORK)
    else Ok(Suite(testData, projectRootDir, settings["id"],
                  Get(settings, "custom_prefix", Json.Null),
                  Get(settings, "path_prefix_style", Json.Str("full")),
                  createFramework(settings["framework"], settings)))
  }

  /** `discover`: what the suite's framework discovers. */
  function Discover<D, F, T>(suite: Suite<D, F>, discover: F -> T): T {
    discover(suite.framework)
  }

  /** `run`: the grouped tests handed to the suite's framework as they are. */
  function Run<D, F, G, T>(suite: Suite<D, F>, run: (F, G) -> T, groupedTests: G): T {
    run(suite.framework, groupedTests)
  }

  /**
   * A suite read from settings discovers and runs exactly what a framework
   * built from the same settings does.
   */
  lemma FromJsonDelegates<D, F, G, T, U>(testData: D, projectRootDir: string, settings: map<string, Json.Value>,
                                          createFramework: (Json.Value, map<string, Json.Value>) -> F,
                                          discover: F -> T, run: (F, G) -> U, groupedTests: G)
    requires "id" in settings && "framework" in settings
    ensures var r := FromJson(testData, projectRootDir, settings, createFramework);
            && r.Ok?
            && Discover(r.value, discover) == discover(createFramework(settings["framework"], settings))
            && Run(r.value, run, groupedTests) == run(createFramework(settings["framework"], settings), groupedTests)
  {
  }
}

=== FILE: util.dfy ===
/**
 * Small helpers of the plug-in: the bouncing progress spinner, the
 * abbreviation of the user's directory, the fuzzy text of a time delta,
 * and the deep merge of settings dictionaries.
 */
module Util {
  import opened Wrappers
  import opened Strings
  import Json

  // ---------------------------------------------------------------------
  // `StatusSpinner`
  // ---------------------------------------------------------------------

  /** Width of the spinner's bar: the `=` moves over this many cells. */
  const SIZE: int := 10

  /**
   * The spinner: `counter` is the position of the `=` in the bar and
   * `direction` the way it moves, reversed at either end.
   */
  class StatusSpinner {
    var counter: int
    var direction: int
    const msg: string

    /** The `=` stays inside the bar, and at either end it is already heading back. */
    predicate Valid()
      reads this
    {
      && 0 <= counter <= SIZE - 1
      && (direction == 1 || direction == -1)
      && (counter == 0 ==> direction == 1)
      && (counter == SIZE - 1 ==> direction == -1)
    }

    constructor(msg: string)
      ensures Valid() && counter == 0 && direction == 1 && this.msg == msg
    {
      counter := 0;
      direction := 1;
      this.msg := msg;
    }

    /**
     * `progress`: with the worker thread gone, clears the status and stops;
     * otherwise shows the bar with the `=` at the current position, steps
     * it, and asks to be called again.
     */
    method Progress(alive: bool) returns (status: string, again: bool)
      requires Valid()
      modifies this
      ensures Valid()
      ensures !alive ==> status == "" && !again && counter == old(counter) && direction == old(direction)
      ensures alive ==>
                && again
                && status == "[" + Repeat(' ', old(counter)) + "=" + Repeat(' ', SIZE - 1 - old(counter)) + "] " + msg
                && counter == old(counter) + old(direction)
                && (direction == -old(direction) <==> counter == 0 || counter == SIZE - 1)
    {
      if !alive {
        return "", false;
      }
      var left, right := counter, SIZE - 1 - counter;
      counter := counter + direction;
      if counter == 0 || counter == SIZE - 1 {
        direction := -direction;
      }
      status := "[" + Repeat(' ', left) + "=" + Repeat(' ', right) + "] " + msg;
      again := true;
    }
  }

  /** The bar the spinner shows at a position: its two paddings always fill `SIZE - 1` cells around the `=`. */
  lemma SpinnerBarWidth(counter: int, msg: string)
    requires 0 <= counter <= SIZE - 1
    ensures var bar := "[" + Repeat(' ', counter) + "=" + Repeat(' ', SIZE - 1 - counter) + "] " + msg;
            && |bar| == SIZE + 3 + |msg|
            && bar[counter + 1] == '='
            && forall i :: 1 <= i <= SIZE && i != counter + 1 ==> bar[i] == ' '
  {
    var bar := "[" + Repeat(' ', counter) + "=" + Repeat(' ', SIZE - 1 - counter) + "] " + msg;
    assert bar[counter + 1] == '=';
    forall i | 1 <= i <= SIZE && i != counter + 1
      ensures bar[i] == ' '
    {
      if i <= counter {
        assert bar[i] == Repeat(' ', counter)[i - 1];
      } else {
        assert bar[i] == Repeat(' ', SIZE - 1 - counter)[i - counter - 2];
      }
    }
  }

  // ---------------------------------------------------------------------
  // `abbreviate_dir`
  // ---------------------------------------------------------------------

  /** `abbreviate_dir`, the user's directory given: a leading user directory becomes `~`. */
  function AbbreviateDir(dirname: string, userDir: string): (r: string)
    ensures StartsWith(dirname, userDir) ==> r == "~" + dirname[|userDir|..]
    ensures !StartsWith(dirname, userDir) ==> r == dirname
  {
    if StartsWith(dirname, userDir) then "~" + dirname[|userDir|..] else dirname
  }

  /** The expansion of a leading `~` into the user's directory. */
  function ExpandUser(path: string, userDir: string): string {
    if StartsWith(path, "~") then userDir + path[1..] else path
  }

  /** Expanding an abbreviated directory gives it back, unless it began with a literal `~` outside the user's directory. */
  lemma AbbreviateRoundTrip(dirname: string, userDir: string)
    requires StartsWith(dirname, userDir) || !StartsWith(dirname, "~")
    ensures ExpandUser(AbbreviateDir(dirname, userDir), userDir) == dirname
  {
    if StartsWith(dirname, userDir) {
      var r := AbbreviateDir(dirname, userDir);
      assert r[1..] == dirname[|userDir|..];
      assert dirname == dirname[..|userDir|] + dirname[|userDir|..];
    }
  }

  // ---------------------------------------------------------------------
  // `readable_date_delta`
  // ---------------------------------------------------------------------

  /** `plur`: no suffix for exactly one, `s` otherwise. */
  function Plural(n: int): (r: string)
    ensures r == "" <==> n == 1
    ensures r != "" ==> r == "s"
  {
    if n == 1 then "" else "s"
  }

  /**
   * `readable_date_delta` on the difference between the two dates, given
   * as Python's `timedelta` holds it: whole days and the seconds of the
   * last day.
   */
  function ReadableDateDelta(days: int, seconds: int): (r: string)
    requires 0 <= seconds < 86400
  {
    var deltaMinutes := seconds / 60;
    var deltaHours := deltaMinutes / 60;
    var minutes := deltaMinutes % 60;
    if days != 0 then IntToString(days) + " day" + Plural(days) + " ago"
    else if deltaHours != 0 then
      IntToString(deltaHours) + " hour" + Plural(deltaHours) + " " + IntToString(minutes) + " minute" + Plural(minutes) + " ago"
    else if minutes != 0 then IntToString(minutes) + " minute" + Plural(minutes) + " ago"
    else IntToString(seconds) + " second" + Plural(seconds) + " ago"
  }

  /**
   * The text by the size of the delta: days whatever the seconds; else
   * whole hours (`seconds // 3600`) and the minutes past them; else the
   * minutes; and the seconds only under a minute.
   */
  lemma ReadableDateDeltaCases(days: int, seconds: int)
    requires 0 <= seconds < 86400
    ensures days != 0 ==> ReadableDateDelta(days, seconds) == IntToString(days) + " day" + Plural(days) + " ago"
    ensures days == 0 && seconds >= 3600 ==>
              var h := seconds / 3600;
              var m := (seconds % 3600) / 60;
              && 1 <= h <= 23 && 0 <= m <= 59
              && ReadableDateDelta(days, seconds)
                 == IntToString(h) + " hour" + Plural(h) + " " + IntToString(m) + " minute" + Plural(m) + " ago"
    ensures days == 0 && 60 <= seconds < 3600 ==>
              ReadableDateDelta(days, seconds) == IntToString(seconds / 60) + " minute" + Plural(seconds / 60) + " ago"
    ensures days == 0 && seconds < 60 ==>
              ReadableDateDelta(days, seconds) == IntToString(seconds) + " second" + Plural(seconds) + " ago"
  {
    if days == 0 {
      DivDiv(seconds);
    }
  }

  /** Minutes of minutes: `(s // 60) // 60 == s // 3600` and `(s // 60) % 60 == (s % 3600) // 60`. */
  lemma DivDiv(s: int)
    requires s >= 0
    ensures (s / 60) / 60 == s / 3600
    ensures (s / 60) % 60 == (s % 3600) / 60
  {
    var q := s / 3600;
    var rest := s % 3600;
    assert s == 3600 * q + rest;
    assert s / 60 == 60 * q + rest / 60;
  }

  // ---------------------------------------------------------------------
  // `merge_deep`
  // ---------------------------------------------------------------------

  /**
   * `merge_deep(value, dict2)` for the value `dict1` already holds under a
   * key whose new value is the dictionary `dict2`: a dictionary is merged
   * into; anything else is left alone when `dict2` is empty and raises
   * (`None`) otherwise, since it cannot be indexed by key.
   */
  function MergeInto(v1: Json.Value, dict2: Json.Value): Option<Json.Value>
    requires dict2.Object?
    decreases dict2, 2
  {
    if v1.Object? then
      match MergeFields(v1.fields, dict2)
      case None => None
      case Some(m) => Some(Json.Object(m))
    else if |dict2.fields| == 0 then Some(v1)
    else None
  }

  /** The value `merge_deep` leaves under a key of `dict2` that merged without raising. */
  function MergedValue(dict1: map<string, Json.Value>, dict2: Json.Value, k: string): Json.Value
    requires dict2.Object? && k in dict2.fields
    requires k in dict1 && dict2.fields[k].Object? ==> MergeInto(dict1[k], dict2.fields[k]).Some?
    decreases dict2, 0
  {
    if k !in dict1 || !dict2.fields[k].Object? then dict2.fields[k] else MergeInto(dict1[k], dict2.fields[k]).value
  }

  /** Some key of `dict2` holds a dictionary that cannot be merged into `dict1`'s value. */
  predicate MergeFails(dict1: map<string, Json.Value>, dict2: Json.Value)
    requires dict2.Object?
    decreases dict2, 0
  {
    exists k :: k in dict2.fields && k in dict1 && dict2.fields[k].Object? && MergeInto(dict1[k], dict2.fields[k]).None?
  }

  /**
   * `merge_deep(dict1, dict2)`: the dictionary `dict1` becomes, or `None`
   * when the merge raises.
   */
  function MergeFields(dict1: map<string, Json.Value>, dict2: Json.Value): Option<map<string, Json.Value>>
    requires dict2.Object?
    decreases dict2, 1
  {
    if MergeFails(dict1, dict2) then None
    else Some(map k | k in dict1.Keys + dict2.fields.Keys ::
                if k in dict2.fields then MergedValue(dict1, dict2, k) else dict1[k])
  }

  /**
   * After a merge every key of either side is present; keys only in
   * `dict1` keep their values; a new key or a non-dictionary value from
   * `dict2` overwrites; and where both hold a dictionary, keys only on
   * `dict1`'s side survive one level down.
   */
  lemma MergeMeaning(dict1: map<string, Json.Value>, dict2: Json.Value)
    requires dict2.Object? && MergeFields(dict1, dict2).Some?
    ensures var m := MergeFields(dict1, dict2).value;
            && m.Keys == dict1.Keys + dict2.fields.Keys
            && (forall k :: k in dict1 && k !in dict2.fields ==> m[k] == dict1[k])
            && (forall k :: k in dict2.fields && (k !in dict1 || !dict2.fields[k].Object?) ==> m[k] == dict2.fields[k])
            && (forall k, j :: k in dict2.fields && k in dict1 && dict2.fields[k].Object? && dict1[k].Object?
                  && j in dict1[k].fields && j !in dict2.fields[k].fields
                  ==> m[k].Object? && j in m[k].fields && m[k].fields[j] == dict1[k].fields[j])
  {
    var m := MergeFields(dict1, dict2).value;
    forall k, j | k in dict2.fields && k in dict1 && dict2.fields[k].Object? && dict1[k].Object?
                  && j in dict1[k].fields && j !in dict2.fields[k].fields
      ensures m[k].Object? && j in m[k].fields && m[k].fields[j] == dict1[k].fields[j]
    {
      assert !MergeFails(dict1, dict2);
      assert MergeInto(dict1[k], dict2.fields[k]).Some?;
      assert m[k] == MergedValue(dict1, dict2, k);
      var inner := MergeFields(dict1[k].fields, dict2.fields[k]);
      assert inner.Some?;
      assert m[k] == Json.Object(inner.value);
    }
  }

  /** Merging a dictionary into itself raises nowhere and changes nothing. */
  lemma {:induction false} MergeSelf(dict: Json.Value)
    requires dict.Object?
    ensures MergeFields(dict.fields, dict) == Some(dict.fields)
    decreases dict
  {
    var d := dict.fields;
    forall k | k in d && d[k].Object?
      ensures MergeInto(d[k], d[k]) == Some(d[k])
    {
      MergeSelf(d[k]);
    }
    assert !MergeFails(d, dict);
    var m := MergeFields(d, dict).value;
    assert m.Keys == d.Keys;
    forall k | k in d
      ensures m[k] == d[k]
    {
      assert m[k] == MergedValue(d, dict, k);
    }
    assert m == d;
  }

  /** Merging the same dictionary a second time changes nothing. */
  lemma {:induction false} MergeTwice(dict1: map<string, Json.Value>, dict2: Json.Value)
    requires dict2.Object? && MergeFields(dict1, dict2).Some?
    ensures MergeFields(MergeFields(dict1, dict2).value, dict2) == MergeFields(dict1, dict2)
    decreases dict2
  {
    var d2 := dict2.fields;
    var m := MergeFields(dict1, dict2).value;
    forall k | k in d2 && k in m && d2[k].Object?
      ensures MergeInto(m[k], d2[k]) == Some(m[k])
    {
      assert m[k] == MergedValue(dict1, dict2, k);
      if k !in dict1 {
        MergeSelf(d2[k]);
      } else if dict1[k].Object? {
        MergeTwice(dict1[k].fields, d2[k]);
      }
    }
    assert !MergeFails(m, dict2);
    var m2 := MergeFields(m, dict2).value;
    assert m2.Keys == m.Keys;
    forall k | k in m
      ensures m2[k] == m[k]
    {
      if k in d2 {
        assert m2[k] == MergedValue(m, dict2, k);
      }
    }
    assert m2 == m;
  }

  /**
   * After the keys `done` of `dict2` have been merged in order, `current`
   * holds their merged values and `dict1`'s values everywhere else.
   */
  predicate MergedSoFar(dict1: map<string, Json.Value>, dict2: Json.Value, done: set<string>, current: map<string, Json.Value>)
    requires dict2.Object?
  {
    && done <= dict2.fields.Keys
    && (forall k :: k in done && k in dict1 && dict2.fields[k].Object? ==> MergeInto(dict1[k], dict2.fields[k]).Some?)
    && current.Keys == dict1.Keys + done
    && (forall k :: k in current ==> current[k] == if k in done then MergedValue(dict1, dict2, k) else dict1[k])
  }

  /** Merging one more key keeps `MergedSoFar`. */
  lemma MergeStep(dict1: map<string, Json.Value>, dict2: Json.Value, done: set<string>, current: map<string, Json.Value>, k: string, v: Json.Value)
    requires dict2.Object? && MergedSoFar(dict1, dict2, done, current)
    requires k in dict2.fields && k !in done
    requires k in current && dict2.fields[k].Object? ==> MergeInto(current[k], dict2.fields[k]) == Some(v)
    requires k !in current || !dict2.fields[k].Object? ==> v == dict2.fields[k]
    ensures MergedSoFar(dict1, dict2, done + {k}, current[k := v])
  {
    var next := current[k := v];
    forall j | j in next
      ensures next[j] == if j in done + {k} then MergedValue(dict1, dict2, j) else dict1[j]
    {
      if j == k {
        assert next[j] == MergedValue(dict1, dict2, j);
      }
    }
  }

  /** One key whose dictionary cannot be merged in makes the whole merge raise. */
  lemma MergeFailsAt(dict1: map<string, Json.Value>, dict2: Json.Value, k: string)
    requires dict2.Object? && k in dict2.fields && k in dict1 && dict2.fields[k].Object?
    requires MergeInto(dict1[k], dict2.fields[k]).None?
    ensures MergeFields(dict1, dict2).None?
  {
    assert MergeFails(dict1, dict2);
  }

  /** With every key merged, `MergedSoFar` is the result of `merge_deep`. */
  lemma MergeDone(dict1: map<string, Json.Value>, dict2: Json.Value, current: map<string, Json.Value>)
    requires dict2.Object? && MergedSoFar(dict1, dict2, dict2.fields.Keys, current)
    ensures MergeFields(dict1, dict2) == Some(current)
  {
    assert !MergeFails(dict1, dict2);
    var m := MergeFields(dict1, dict2).value;
    assert m.Keys == current.Keys;
    forall k | k in m
      ensures m[k] == current[k]
    {
    }
    assert m == current;
  }

  /**
   * `merge_deep` as it runs: each key of `dict2` in turn, overwriting,
   * adding or merging into `dict1`, and stopping at the first value that
   * cannot be merged into.
   */
  method MergeDeep(dict1: map<string, Json.Value>, dict2: Json.Value) returns (r: Option<map<string, Json.Value>>)
    requires dict2.Object?
    ensures r == MergeFields(dict1, dict2)
    decreases dict2, 1
  {
    var current := dict1;
    var done: set<string> := {};
    var todo := dict2.fields.Keys;
    while todo != {}
      invariant todo == dict2.fields.Keys - done
      invariant MergedSoFar(dict1, dict2, done, current)
      decreases todo
    {
      var k :| k in todo;
      var v;
      if k !in current || !dict2.fields[k].Object? {
        v := dict2.fields[k];
      } else {
        assert k in dict1 && current[k] == dict1[k];
        var merged := MergeValue(current[k], dict2.fields[k]);
        if merged.None? {
          MergeFailsAt(dict1, dict2, k);
          return None;
        }
        v := merged.value;
      }
      MergeStep(dict1, dict2, done, current, k, v);
      current, done, todo := current[k := v], done + {k}, todo - {k};
    }
    assert done == dict2.fields.Keys;
    MergeDone(dict1, dict2, current);
    r := Some(current);
  }

  /** The recursive call of `merge_deep` on the value `dict1` holds under a key. */
  method MergeValue(v1: Json.Value, dict2: Json.Value) returns (r: Option<Json.Value>)
    requires dict2.Object?
    ensures r == MergeInto(v1, dict2)
    decreases dict2, 2
  {
    if v1.Object? {
      var m := MergeDeep(v1.fields, dict2);
      r := if m.Some? then Some(Json.Object(m.value)) else None;
    } else if |dict2.fields| == 0 {
      r := Some(v1);
    } else {
      r := None;
    }
  }
}

=== FILE: wrappers.dfy ===
/** Option and Result values standing for Python's `None` and for raised exceptions. */
module Wrappers {

  datatype Option<+T> = None | Some(value: T) {
    function GetOr(default: T): T {
      match this
      case Some(v) => v
      case None => default
    }
  }

  datatype Result<+T, +E> = Ok(value: T) | Err(error: E)
}

=== FILE: xml.dfy ===
/** An already-parsed XML element, as Python's ElementTree gives it. */
module Xml {
  import opened Wrappers
  import Events

  datatype Element = Element(tag: string, attrib: map<string, string>, text: Option<string>, children: seq<Element>)

  /** `element.find(tag)`: the first direct child with that tag. */
  function Find(e: Element, tag: string): (r: Option<Element>)
    ensures r.Some? ==> r.value in e.children && r.value.tag == tag
    ensures r.None? ==> forall c | c in e.children :: c.tag != tag
  {
    FindIn(e.children, tag)
  }

  function FindIn(children: seq<Element>, tag: string): (r: Option<Element>)
    ensures r.Some? ==> r.value in children && r.value.tag == tag
    ensures r.None? ==> forall c | c in children :: c.tag != tag
  {
    if |children| == 0 then None
    else if children[0].tag == tag then Some(children[0])
    else FindIn(children[1..], tag)
  }

  /** `bool(element)`: an ElementTree element is true exactly when it has subelements. */
  predicate Truthy(e: Element) {
    |e.children| > 0
  }

  /** The elements among `children` with the given tag, in document order. */
  function Tagged(children: seq<Element>, tag: string): (r: seq<Element>)
    decreases |children|
  {
    if |children| == 0 then []
    else Tagged(children[..|children| - 1], tag)
         + (if children[|children| - 1].tag == tag then [children[|children| - 1]] else [])
  }

  /** One more child: it is kept exactly when its tag matches. */
  lemma TaggedSnoc(children: seq<Element>, i: nat, tag: string)
    requires i < |children|
    ensures Tagged(children[..i + 1], tag)
            == Tagged(children[..i], tag) + (if children[i].tag == tag then [children[i]] else [])
  {
    assert children[..i + 1][..i] == children[..i];
  }

  /** Keeping tagged children commutes with concatenation. */
  lemma {:induction false} TaggedAppend(a: seq<Element>, b: seq<Element>, tag: string)
    ensures Tagged(a + b, tag) == Tagged(a, tag) + Tagged(b, tag)
    decreases |b|
  {
    if |b| == 0 {
      assert a + b == a;
    } else {
      assert (a + b)[..|a + b| - 1] == a + b[..|b| - 1];
      TaggedAppend(a, b[..|b| - 1], tag);
    }
  }

  /** An element is kept exactly when it is a child with that tag, and every kept element has it. */
  lemma {:induction false} TaggedMembers(children: seq<Element>, tag: string)
    ensures forall e :: e in Tagged(children, tag) <==> e in children && e.tag == tag
    decreases |children|
  {
    if |children| > 0 {
      var init := children[..|children| - 1];
      TaggedMembers(init, tag);
      assert children == init + [children[|children| - 1]];
    }
  }

  /** An element that fails to parse fails the parse of every tagged child, whatever follows it. */
  lemma TaggedFailsFrom<U>(children: seq<Element>, i: nat, tag: string, f: Element -> Option<U>)
    requires i <= |children|
    requires Events.TryMap(Tagged(children[..i], tag), f).None?
    ensures Events.TryMap(Tagged(children, tag), f).None?
  {
    assert children == children[..i] + children[i..];
    TaggedAppend(children[..i], children[i..], tag);
    Events.TryMapFailed(Tagged(children[..i], tag), Tagged(children[i..], tag), f);
  }

  /** One child handled by a loop parsing the children with `tag`: a parsed one adds its result, any other adds nothing. */
  lemma TaggedGrows<U>(children: seq<Element>, i: nat, tag: string, f: Element -> Option<U>, acc: seq<U>)
    requires i < |children| && Events.TryMap(Tagged(children[..i], tag), f) == Some(acc)
    requires children[i].tag == tag ==> f(children[i]).Some?
    ensures Events.TryMap(Tagged(children[..i + 1], tag), f)
            == Some(if children[i].tag == tag then acc + [f(children[i]).value] else acc)
  {
    TaggedSnoc(children, i, tag);
    if children[i].tag == tag {
      Events.TryMapSnoc(Tagged(children[..i], tag), children[i], f);
    } else {
      assert Tagged(children[..i], tag) + [] == Tagged(children[..i], tag);
    }
  }

  /** A child with `tag` that fails to parse fails the whole listing. */
  lemma TaggedFailsAt<U>(children: seq<Element>, i: nat, tag: string, f: Element -> Option<U>)
    requires i < |children| && children[i].tag == tag && f(children[i]).None?
    ensures Events.TryMap(Tagged(children, tag), f).None?
  {
    TaggedSnoc(children, i, tag);
    Events.TryMapSnoc(Tagged(children[..i], tag), children[i], f);
    TaggedFailsFrom(children, i + 1, tag, f);
  }
}
